=== FILE: README.md ===
# Merge documents — a Dafny model

MarkText's "merge documents" feature turns an outline into one PDF. The outline is a Markdown ordered list whose items carry `file://` links. The feature:

- parses the outline into sections (`documentParser.js`);
- turns every linked document into a PDF path, converting non-PDF files with an external tool (`mergeHelpers.js`, `fileConversion.js`, `DocumentCache.js`);
- reports weighted progress along the way (`ProgressManager.js`);
- assembles the merged document (`pdfProcessing.js`): a table of contents (ToC) with links and bookmarks, a separator page before every main section, and one page per page of every existing file, with a header/footer overlay on each page.

Two editor utilities belong to the same core:

- inserting a `<filepath>` tag at the end of the cursor's line (`filepathCtrl.js`);
- guessing a file path from the clipboard, including the scan of a Windows `CF_HDROP` buffer (`clipboard.js`).

Modules:

| module | models |
|---|---|
| `Wrappers` | `Option` and `Result` |
| `Text` | the JavaScript string operations the code uses (`trim`, `\s`, `replace` with a string, `join`) |
| `SectionPatterns` | the regular expressions for section numbers and file links, as scanners |
| `DocumentParser` | `parseDocumentSections`: the parser's functional specification (`Step`, `RunLines`, `Parse`) and the line loop proved against it |
| `UriCoding` | `decodeURIComponent`, together with an encoder it is proved to invert |
| `NodePath` | the parts of Node's `path` module the code calls (POSIX paths) |
| `FileConversion` | `convertFileUrlToPath`, `findConversionTool`, `convertToPdf` and the shipped tool defaults |
| `Progress` | `ProgressManager` as a class, with the weighted-percentage specification |
| `Cache` | `DocumentCache` as a class over a snapshot of the disk |
| `MergeHelpers` | `processFile` and `processSections` |
| `PdfPlan` | the specification of the merge: page counts, the ToC page plan, the assembled pages, the ToC layout, link targets, the nested-section summary and the overlay requests |
| `PdfProcessing` | `mergeWithTemplates` and `generateTableOfContents` as loops over a growing `PdfDocument` object, proved against `PdfPlan` |
| `FilepathCtrl` | `ContentState.insertFilepath` |
| `Clipboard` | `readWindowsFilePath` (the `CF_HDROP` scan loop and its fallbacks) and `guessClipboardFilePath` |

Everything outside the program is a parameter:

- The file system is a map from path to page count (`PdfPlan`), modification time (`FileConversion`) or stored file (`Cache`).
- The conversion command is a function from the command line to what the run does.
- The converter, the tool list and the clipboard's formats are values handed in.
- The progress bus is the sequence of events it received.

## Model

| member | source | states |
|---|---|---|
| Text.Trim | src/renderer/utils/documentParser.js:17 | the result is a contiguous piece of the input with only `\s` characters cut from both ends, and it neither starts nor ends with `\s` |
| SectionPatterns.LeadingNumber | src/renderer/utils/pdfProcessing.js:315 | the greedy read of `\d+(\.\d+)*` finds no groups exactly when the text does not start with a digit, and it is never followed by a digit |
| SectionPatterns.LeadingNumberReadsNumber | src/renderer/utils/pdfProcessing.js:315-316 | what is read is a number `\d+(\.\d+)*` (digits and single dots, first and last a digit) that neither a digit nor ".digit" extends, and it has one group more than it has dots, as `split('.')` counts |
| SectionPatterns.MoreGroupsReadsNumber | src/renderer/utils/pdfProcessing.js:315-316 | each further ".digits" group keeps the text read a number with one group per dot plus one, up to where no group follows |
| SectionPatterns.LeadingNumberIsLongest | src/renderer/utils/pdfProcessing.js:315 | no number at the start of the text is longer than the one read, and the one read is the only one that cannot be extended |
| SectionPatterns.MainTitleMeansPattern | src/renderer/utils/pdfProcessing.js:27-32 | a title counts as a main section exactly when some digits, a dot and a `\s` start it (`/^\d+\.\s+/`) |
| SectionPatterns.SubsectionNumbersAreNotMain | src/renderer/utils/pdfProcessing.js:67-69 | "3.1 Hardware" and "1.2.3. Section" are not main sections; "12. Intro" is |
| SectionPatterns.NumberedPrefix | src/renderer/utils/pdfProcessing.js:315 | a match of `^(\d+(?:\.\d+)*)\.?\s+` has at least one group and a non-empty extent |
| SectionPatterns.NumberedPrefixMatches | src/renderer/utils/pdfProcessing.js:315-316 | nothing is matched exactly when no number followed by an optional dot and `\s` starts the title; otherwise the match has one group per dot of the number plus one and ends after the whole run of `\s` |
| SectionPatterns.TocLevelCountsGroups | src/renderer/utils/pdfProcessing.js:315-317 | for every title the ToC level is the number of parts `split('.')` cuts the matched number into, minus one, and 0 when nothing matches |
| SectionPatterns.TocLevelOfMainTitle | src/renderer/utils/pdfProcessing.js:315-317 | "1. Intro" is at ToC level 0 |
| SectionPatterns.TocLevelOfSubsectionTitle | src/renderer/utils/pdfProcessing.js:315-317 | "3.1 Hardware" is at ToC level 1 (two groups, minus one) |
| SectionPatterns.TocLevelWithoutSpaceIsZero | src/renderer/utils/pdfProcessing.js:315-316 | a number not followed by whitespace ("1.2x") does not match, so the level is 0 |
| SectionPatterns.StripLeadingNumberKeeps | src/renderer/utils/documentParser.js:64 | text whose first non-`\s` character does not start a numbered prefix is kept as it is |
| SectionPatterns.StripLeadingNumberCuts | src/renderer/utils/documentParser.js:64 | otherwise the leading `\s`, the number, an optional dot and the whole run of `\s` after it are cut, and the rest is kept |
| SectionPatterns.ListItemMeansPattern | src/renderer/utils/documentParser.js:23 | a trimmed line passes the list-item test exactly when a number `\d+(\.\d+)*`, a dot, a non-empty run of `\s` and a character other than a line terminator start it (`/^\d+(?:\.\d+)*\.\s+.+/`) |
| SectionPatterns.ListItemExamples | src/renderer/utils/documentParser.js:23 | "1. Intro" and "1.2.3. Deep" are list items; "2.1 Foo", "1." and "- 1. Foo" are not |
| SectionPatterns.LinkAt | src/renderer/utils/documentParser.js:108 | a file link starts with '[', has non-empty link text and a URL that starts with `file://` and has more after it |
| SectionPatterns.FirstLink | src/renderer/utils/documentParser.js:108-111 | a link found starts at some position of the text; none is found only when no position from the start onwards starts one |
| SectionPatterns.FirstLinkIsLeftmost | src/renderer/utils/documentParser.js:108-111 | the link found is the one at the leftmost position where a link starts: no earlier position starts one |
| SectionPatterns.RemoveLinks | src/renderer/utils/documentParser.js:73 | removing the file links never lengthens the text and leaves text without links unchanged |
| SectionPatterns.RemoveLinksDropsLeftmost | src/renderer/utils/documentParser.js:73 | the text before the leftmost link is kept, that link is dropped, and the removal goes on right after it |
| SectionPatterns.FirstTrailingLink | src/renderer/utils/documentParser.js:76 | the match of `\s*\[.*\]\(.*\)\s*$` is the leftmost position where the trailing-link pattern holds |
| SectionPatterns.StripTrailingLinkCuts | src/renderer/utils/documentParser.js:76 | without a match of `\s*\[.*\]\(.*\)\s*$` the text is kept; otherwise everything from the leftmost position where it matches is dropped |
| SectionPatterns.StripHashesCuts | src/renderer/utils/documentParser.js:86 | text that does not start with '#' is kept; a heading loses exactly its run of '#'s and the `\s` after them |
| Text.Split | src/renderer/utils/documentParser.js:9 | `split` gives at least one part, and no part contains the separator |
| Text.SplitJoin | src/renderer/utils/documentParser.js:9 | joining the lines with the separator gives back the document |
| Text.SplitCount | src/renderer/utils/pdfProcessing.js:316 | `split` gives one part more than the text has separators |
| Text.ReplaceFirstSplices | src/renderer/utils/fileConversion.js:117-124 | `replace` with a string pattern leaves text without a match unchanged and replaces only the first match, by the replacement with its `$$`, `$&`, `` $` `` and `$'` patterns expanded, and by the replacement itself when it holds no '$' |
| Text.SubstitutionWithoutDollar | src/renderer/utils/fileConversion.js:117-124 | a replacement without '$' is inserted as it is |
| Text.DollarPatterns | src/renderer/utils/fileConversion.js:117-124 | "$$" in a replacement inserts one '$' and "$'" inserts the text after the match |
| DocumentParser.NestingLevelIsThirdOfIndent | src/renderer/utils/documentParser.js:28-34 | the nesting level is the indentation divided by three, rounded down |
| DocumentParser.Bump | src/renderer/utils/documentParser.js:38-49 | the counter list grows only as far as the item's level |
| DocumentParser.BumpCounts | src/renderer/utils/documentParser.js:38-49 | an item's level counts one more, deeper levels restart at 0 and shallower levels keep their counts |
| DocumentParser.ItemCounters | src/renderer/utils/documentParser.js:38-49 | a list-item line that does not throw moves the counters exactly as `Bump` does, at the level its indentation gives |
| DocumentParser.StripNumberCuts | src/renderer/utils/documentParser.js:68 | text that does not start with a numbered prefix is kept; otherwise the number, an optional dot and the whole run of `\s` after it are cut |
| DocumentParser.CleanContentKeepsPlainText | src/renderer/utils/documentParser.js:64-76 | the cleaned item text is no longer than the item text and neither starts nor ends with `\s`; trimmed text without a section number, a file link or a link-like tail comes through unchanged |
| DocumentParser.FailureStops | src/renderer/utils/documentParser.js:15-143 | once a line throws, the whole parse fails with that line's error |
| DocumentParser.ItemStepShape | src/renderer/utils/documentParser.js:80-127 | an item line that does not throw bumps the counters at its level and either only counts or closes the open section and opens a new one with at most one document |
| DocumentParser.HeadingItemOpensSection | src/renderer/utils/documentParser.js:80-87 | an item whose cleaned text starts with '#' closes the open section and opens one without documents, titled with the cleaned text minus its '#'s and the `\s` after them |
| DocumentParser.OtherLineKeepsCounters | src/renderer/utils/documentParser.js:128-142 | a line that is not an item leaves the counters, the sections and the open section alone; it ends the list exactly when it is blank |
| DocumentParser.OtherLineFailsIffLinkOutsideList | src/renderer/utils/documentParser.js:129-136 | a line that is not an item throws exactly when no list is open, it is neither blank nor a heading, and it holds a file link; the error names the trimmed line |
| DocumentParser.ItemFailsIffNestedWithoutLink | src/renderer/utils/documentParser.js:107-126 | an item line throws exactly when it is nested, its cleaned text is neither empty nor a heading, and it has no file link |
| DocumentParser.ItemRecordsFirstLink | src/renderer/utils/documentParser.js:107-119 | the section of a linked item holds one document: the item's first file link, fit-to-page exactly when its text contains the magnifier |
| DocumentParser.EmptyItemOnlyCounts | src/renderer/utils/documentParser.js:89 | an item whose cleaned text is empty opens no section but still counts |
| DocumentParser.ItemTitleIsMainIffTopLevel | src/renderer/utils/documentParser.js:94-102 | the title the parser gives an item passes the merge's main-section test exactly when the item is top-level |
| DocumentParser.NestedTitleShape | src/renderer/utils/documentParser.js:97-102 | a nested item's title is the top counter, a dot and a digit |
| DocumentParser.TopCounterCountsTopItems | src/renderer/utils/documentParser.js:13 | top-level numbering never restarts: the first counter is the number of top-level items read so far |
| DocumentParser.StepAppendsSections | src/renderer/utils/documentParser.js:81-93 | a line keeps every section recorded so far and adds at most the one it closes |
| DocumentParser.RunKeepsAtMostOneDoc | src/renderer/utils/documentParser.js:116-119 | the open section and every recorded section hold at most one document throughout the walk |
| DocumentParser.ParsedSectionsHoldAtMostOneDoc | src/renderer/utils/documentParser.js:116-119 | every parsed section has at most one document |
| DocumentParser.CarriageReturnLineIsNoItem | src/renderer/utils/documentParser.js:22 | a line ending in a carriage return never matches `^(\s*)(.+)$`, so it is never an item |
| DocumentParser.AdvanceCounters | src/renderer/utils/documentParser.js:38-49 | the counter loops compute `Bump` |
| DocumentParser.ParseItemLine | src/renderer/utils/documentParser.js:21-127 | the body of the line loop for an item line computes the item step of the specification |
| DocumentParser.ParseOtherLine | src/renderer/utils/documentParser.js:128-142 | the body of the line loop for any other line computes the other-line step of the specification |
| DocumentParser.ParseDocumentSections | src/renderer/utils/documentParser.js:8-152 | the line loop returns the specified sections, or the first error |
| DocumentParser.ParseLine | src/renderer/utils/documentParser.js:16-142 | one iteration of the line loop takes the parser from its state before the line to `Step` of that state and the line, which is the next state or the error |
| UriCoding.EscapedByte | src/renderer/utils/fileConversion.js:25 | an escape that decodes is '%' followed by two hex digits, and gives a byte |
| UriCoding.Continuations | src/renderer/utils/fileConversion.js:25 | the continuation bytes read are all of the form 10xxxxxx, and exactly as many as asked for |
| UriCoding.DecodeEscape | src/renderer/utils/fileConversion.js:25 | an escape sequence that decodes consumes at least one escape and gives a Unicode scalar value |
| UriCoding.DecodeWithoutPercent | src/renderer/utils/fileConversion.js:25 | text without '%' decodes to itself |
| UriCoding.DecodeEncode | src/renderer/utils/fileConversion.js:25 | decoding inverts percent-encoding, for every string (the UTF-8 round trip) |
| UriCoding.TruncatedEscapes | src/renderer/utils/fileConversion.js:25 | a lone '%' and a truncated multi-byte sequence ("%E2%82") are malformed |
| UriCoding.OverlongAndSurrogateRejected | src/renderer/utils/fileConversion.js:25 | an overlong encoding ("%C0%AF") and an encoded surrogate ("%ED%A0%80") are malformed |
| NodePath.Basename | src/renderer/utils/fileConversion.js:76 | the base name contains no separator |
| NodePath.DroppedAreSlashes | src/renderer/utils/fileConversion.js:76 | only trailing separators are dropped before the last component is taken |
| NodePath.BasenameAfterLastSeparator | src/renderer/utils/fileConversion.js:76 | once trailing separators are dropped, the base name ends the path and is preceded by a separator whenever it is not the whole path; with its having no separator, it is exactly the last component |
| NodePath.StemAndExtension | src/renderer/utils/fileConversion.js:76 | stem and extension make up the base name; a non-empty extension starts at the last dot and leaves a non-empty stem |
| NodePath.JoinShape | src/renderer/utils/fileConversion.js:77 | the joined path is the directory, at most one added character and the name, with a separator right before the name whenever the directory is not empty |
| NodePath.ResolveIsAbsolute | src/renderer/utils/DocumentCache.js:11-13 | resolving against an absolute working directory gives an absolute path, and resolving it again changes nothing |
| FileConversion.FileUrlRoundTrip | src/renderer/utils/fileConversion.js:13-28 | `file://` followed by the percent-encoding of a path converts back to that path |
| FileConversion.DriveLetterUrl | src/renderer/utils/fileConversion.js:19-22 | `file:///C:/x` names the Windows path `C:/x`: the slash before the drive letter is dropped |
| FileConversion.ReconvertingKeepsPath | src/renderer/utils/fileConversion.js:13-31 | converting a converted path again gives it back unchanged unless it starts with `file://`, and anything that is not a `file://` URL is returned unchanged |
| FileConversion.FirstAccepting | src/renderer/utils/fileConversion.js:53-59 | the index found is the first enabled tool that lists the extension; none is found only when no tool does |
| FileConversion.FindConversionTool | src/renderer/utils/fileConversion.js:40-63 | the scan returns the first enabled tool listing the file's lower-cased extension (without its dot); it returns nothing when the list is not an array, and fails when the URL does not decode |
| FileConversion.ScanTools | src/renderer/utils/fileConversion.js:53-62 | the loop returns the tool at the first accepting index, and nothing when no enabled tool lists the extension |
| FileConversion.DefaultToolsNeverSelected | src/renderer/prefComponents/conversionTools/config.js:4-19 | with the shipped defaults no file gets a tool, because both entries are disabled |
| FileConversion.OutputPathShape | src/renderer/utils/fileConversion.js:76-77 | the PDF goes to the output directory as stem + ".pdf", so two inputs with the same stem share one output path |
| FileConversion.ShorterPlaceholderWins | src/renderer/utils/fileConversion.js:117-124 | when a longer placeholder occurs, a shorter placeholder that is its prefix occurs no later, so `%input` is replaced inside `%inputFile` |
| FileConversion.TemplateWithoutPercent | src/renderer/utils/fileConversion.js:117-124 | an argument template without '%' is passed on unchanged |
| FileConversion.Disk.Unlink | src/renderer/utils/fileConversion.js:106 | the stale output is removed and nothing else changes |
| FileConversion.Disk.Apply | src/renderer/utils/fileConversion.js:131 | the files the command writes appear with their times |
| FileConversion.ConvertToPdf | src/renderer/utils/fileConversion.js:73-143 | the result and the file system left behind are those of the conversion specification |
| FileConversion.RunTool | src/renderer/utils/fileConversion.js:131-142 | the run applies the files the command writes, then fails on an abnormal exit or a missing output and otherwise answers the output path |
| FileConversion.ConversionRunsTool | src/renderer/utils/fileConversion.js:96-131 | past a valid URL and a missing or stale output, the conversion is the tool run on the disk without the stale output |
| FileConversion.FreshOutputSkipsTool | src/renderer/utils/fileConversion.js:96-102 | an output at least as new as its input is answered without running the tool, so the answer cannot depend on what the tool would do and the disk is untouched |
| FileConversion.SuccessIffOutputExists | src/renderer/utils/fileConversion.js:131-142 | after a run, the conversion succeeds exactly when the command exited normally and the output exists, and then the answer is the output path |
| FileConversion.StaleOutputIsNotReused | src/renderer/utils/fileConversion.js:103-107 | a stale output is deleted first, so a tool that does not rewrite it makes the conversion fail and leaves no output behind |
| Progress.PartialSumIsWeightDone | src/renderer/utils/ProgressManager.js:17-25 | the loop's running sum equals the closed form: all earlier sections plus `progress` percent of the current one |
| Progress.WeightDoneBounds | src/renderer/utils/ProgressManager.js:17-25 | with non-negative weights the weight done lies between 0 and the total and grows with the progress |
| Progress.SectionProgressBounds | src/renderer/utils/ProgressManager.js:14-26 | the overall percentage lies between 0 and 100 and never goes down as a section's progress grows |
| Progress.LastSectionComplete | src/renderer/utils/ProgressManager.js:14-26 | the last section at 100 percent gives exactly 100 |
| Progress.ProgressBefore | src/renderer/utils/mergeHelpers.js:34 | the percentage reported before a section is at least 0 and below 100 |
| Progress.ProgressManager.constructor | src/renderer/utils/ProgressManager.js:3-7 | a new manager starts at step 0 with no sections and no events |
| Progress.ProgressManager.AddSection | src/renderer/utils/ProgressManager.js:9-12 | the section is appended and its index returned; nothing else changes |
| Progress.ProgressManager.CalculateSectionProgress | src/renderer/utils/ProgressManager.js:14-26 | the two loops compute the rounded weighted percentage of the specification |
| Progress.ProgressManager.UpdateSection | src/renderer/utils/ProgressManager.js:28-36 | with a bus, one event carries the percentage and the message, or the section's name when the message is empty; reading the name of a missing section throws; without a bus nothing is sent |
| Cache.DocumentCache.constructor | src/renderer/utils/DocumentCache.js:7-9 | the cache starts empty |
| Cache.DocumentCache.GetPdfDocument | src/renderer/utils/DocumentCache.js:15-32 | a missing file fails even when it is cached; an entry at least as new as the file is answered without loading; otherwise the file is loaded and only its entry is replaced; keys stay resolved and counts stay those of their documents |
| Cache.DocumentCache.GetPageCount | src/renderer/utils/DocumentCache.js:34-40 | the count is present exactly when the resolved path is cached, and then it is that document's count |
| MergeHelpers.ProcessFileOutcomes | src/renderer/utils/mergeHelpers.js:5-25 | a PDF is answered by its resolved path without a tool; any other file gets `NoConversionTool` without a tool finder or a matching tool, `BadLink` when the tool lookup throws, `NoConverter` when a tool is found but there is no converter, and otherwise exactly the converter's answer for that tool (its path on success, its error wrapped on failure) |
| MergeHelpers.MapAllShape | src/renderer/utils/mergeHelpers.js:41-49 | a loop that awaits each item in order succeeds with one result per item, in order, and fails exactly when some item fails |
| MergeHelpers.MergeListShape | src/renderer/utils/mergeHelpers.js:28-56 | the merge list has one entry per section with the same title, in order, with one PDF per document carrying its fit-to-page mark and no subsections; it fails exactly when some document fails |
| MergeHelpers.ProcessDocs | src/renderer/utils/mergeHelpers.js:41-49 | the document loop computes the section's PDF list, or the first error |
| MergeHelpers.ProcessDoc | src/renderer/utils/mergeHelpers.js:42-48 | one document becomes `DocPdf` of it: its converted path with the link's fit-to-page mark, or the error of its URL conversion or its processing |
| MergeHelpers.ReportSection | src/renderer/utils/mergeHelpers.js:34-40 | with a bus, exactly one event is sent: section i of n at `i/n*100` percent of the "Processing Sections" section, with its title in the message; without a bus none |
| MergeHelpers.ProcessSections | src/renderer/utils/mergeHelpers.js:28-56 | the section loop computes the merge list and registers the "Processing Sections" section with weight 40; on success it has sent the report of every section in order, and on the first failing section it has sent the reports up to and including that one |
| MergeHelpers.SectionReports | src/renderer/utils/mergeHelpers.js:34-40 | one report per section read, none without a bus |
| MergeHelpers.ProcessSection | src/renderer/utils/mergeHelpers.js:32-53 | one section sends exactly its report (none without a bus) and becomes its merge-list entry or the first error of its documents; the registered sections are unchanged |
| PdfPlan.TotalIsContentPlusSeparators | src/renderer/utils/pdfProcessing.js:22-44 | the page total is the pages of the existing files plus one separator per main section |
| PdfPlan.PageInfosCoverSections | src/renderer/utils/pdfProcessing.js:250-311 | the plan has an entry at every section index, exactly one per section when no section has subsections |
| PdfPlan.FlatPageInfoAt | src/renderer/utils/pdfProcessing.js:251-303 | in a list without subsections, section i's entry starts after the pages of every earlier section |
| PdfPlan.FlatPlanIsContiguous | src/renderer/utils/pdfProcessing.js:265-302 | the first section starts on page 1; a main section's content starts after its separator; each section ends where the next one begins, with no gap and no overlap |
| PdfPlan.SubsectionsOverlapAndShiftThePlan | src/renderer/utils/pdfProcessing.js:276-311 | a subsection starts on its parent's start page, and its extra entry shifts later sections' entries, so entry 1 then describes the subsection |
| PdfPlan.FileContent | src/renderer/utils/pdfProcessing.js:80-99 | a file contributes one page per page when it exists and none when it is missing |
| PdfPlan.SeparatorPages | src/renderer/utils/pdfProcessing.js:72-77 | a main section gets exactly one separator page, and any other section none |
| PdfPlan.PdfContentLength | src/renderer/utils/pdfProcessing.js:80-97 | a section's files contribute as many pages as the counting pass counted |
| PdfPlan.AssembledLength | src/renderer/utils/pdfProcessing.js:22-44 | the merge appends exactly as many pages as it counted beforehand |
| PdfPlan.PlanMatchesAssembly | src/renderer/utils/pdfProcessing.js:265-274 | the pages the plan numbers start..end are exactly the section's own pages in the merged document |
| PdfPlan.LayoutClosedForm | src/renderer/utils/pdfProcessing.js:319-401 | after n entries, the last ToC page is (n-1)/35 and holds (n-1)%35+1 entries |
| PdfPlan.EntrySlot | src/renderer/utils/pdfProcessing.js:330-401 | entry i lands on ToC page i/35, 20 points per line below the page's first line (751.89 on the first page, 761.89 on continuation pages) |
| PdfPlan.NewPageEvery35 | src/renderer/utils/pdfProcessing.js:344 | a new ToC page is opened exactly when the entry's index is a positive multiple of 35 |
| PdfPlan.TocPageCountIsCeiling | src/renderer/utils/pdfProcessing.js:555-558 | no entries give no ToC page; otherwise n entries give ⌈n/35⌉ pages |
| PdfPlan.EntriesAt | src/renderer/utils/pdfProcessing.js:391-399 | entry i is laid out for section i and shows plan entry i's start page, whatever section that entry describes |
| PdfPlan.EntriesOnTocPages | src/renderer/utils/pdfProcessing.js:397-414 | every entry lies on a ToC page that exists, so no entry is skipped as undefined |
| PdfPlan.LinksReachSections | src/renderer/utils/pdfProcessing.js:381-386 | in a list without subsections, the link and the bookmark of entry i point to the first page of section i in the merged document (its separator when it is main) |
| PdfPlan.EntryTarget | src/renderer/utils/pdfProcessing.js:486 | the displayed page and the link page are both the start page, and the target index is ToC pages + start page - 1 |
| PdfPlan.BeforeFirstDot | src/renderer/utils/pdfProcessing.js:540 | `split('.')[0]` is the longest dot-free prefix of the title: all of it, or the text up to its first dot |
| PdfPlan.MainTitleNumber | src/renderer/utils/pdfProcessing.js:540 | for a main section title the text before the first dot is exactly its leading number, a non-empty run of digits |
| PdfPlan.FindInfo | src/renderer/utils/pdfProcessing.js:544 | the plan entry found has the title asked for; none is found only when no entry has it |
| PdfPlan.FindInfoIsFirst | src/renderer/utils/pdfProcessing.js:544 | as `find` does, the entry found is the first one with that title: no earlier entry has it |
| PdfPlan.NestedSectionsFollowMainSections | src/renderer/utils/pdfProcessing.js:527-552 | the summary has one record per main section, in list order, with that section's start and end pages and the sections filed under its number |
| PdfPlan.SubRefsAreResolved | src/renderer/utils/pdfProcessing.js:543-549 | every subsection reference carries page numbers, since every section has a plan entry with its title |
| PdfPlan.OverlayNumbersAreIndices | src/renderer/utils/pdfProcessing.js:75 | each overlay names as its page number the 0-based index of the page it is drawn on, carries the page total, and is a separator overlay exactly when that page is a separator |
| PdfPlan.OverlaysInPageOrder | src/renderer/utils/pdfProcessing.js:64-148 | overlays are drawn in page order, at most one per page |
| PdfPlan.OverlayPresence | src/renderer/utils/pdfProcessing.js:139-142 | a page gets an overlay exactly when it is a separator or draft mode is off |
| PdfPlan.OverlayCount | src/renderer/utils/pdfProcessing.js:72-143 | there is one overlay per separator, plus one per content page outside draft mode |
| PdfPlan.SeparatorNumberAgreesWithTocOnlyForOneTocPage | src/renderer/utils/pdfProcessing.js:62-75 | a separator's overlay number (its 0-based index) equals the page the ToC shows for it exactly when there is one ToC page |
| PdfPlan.SeparatorHasOverlay | src/renderer/utils/pdfProcessing.js:72-76 | every separator page gets a separator overlay titled with its section |
| PdfProcessing.PdfDocument.constructor | src/renderer/utils/pdfProcessing.js:48 | a new document has no pages and no outline |
| PdfProcessing.PdfDocument.AddPage | src/renderer/utils/pdfProcessing.js:74 | the page is appended and its index returned |
| PdfProcessing.PdfDocument.InsertPage | src/renderer/utils/pdfProcessing.js:348 | the page is inserted at the index and the others keep their order |
| PdfProcessing.PdfDocument.AddAnnot | src/renderer/utils/pdfProcessing.js:501 | the link is appended to that ToC page's annotations only |
| PdfProcessing.PdfDocument.AddOutline | src/renderer/utils/pdfProcessing.js:513 | the bookmark is appended to the outline |
| PdfProcessing.CountPdfPages | src/renderer/utils/pdfProcessing.js:34-40 | the loop counts the pages of the existing files and skips missing ones |
| PdfProcessing.PlanSubSections | src/renderer/utils/pdfProcessing.js:276-300 | the subsection loop produces the subsections' plan entries and advances the page counter by their pages |
| PdfProcessing.PlanSubSection | src/renderer/utils/pdfProcessing.js:279-298 | one subsection's entry starts and displays at the current page, ends at the page before the next one and counts its existing files' pages; the next subsection starts after them |
| PdfProcessing.PlanSectionPages | src/renderer/utils/pdfProcessing.js:250-303 | the first loop of `generateTableOfContents` produces the page plan |
| PdfProcessing.PlanSection | src/renderer/utils/pdfProcessing.js:252-302 | one section gives its own plan entry, one entry per subsection, and the page where the next section starts: after the subsections' pages, the section's content and its separator |
| PdfProcessing.MakeRoom | src/renderer/utils/pdfProcessing.js:319-373 | the first ToC page is added before the first entry, and a continuation page is inserted when the next line would cross the bottom margin |
| PdfProcessing.LayoutTocEntries | src/renderer/utils/pdfProcessing.js:308-405 | the layout loop opens exactly ⌈n/35⌉ ToC pages and records every entry on its page and line |
| PdfProcessing.PlaceEntry | src/renderer/utils/pdfProcessing.js:310-401 | entry `i` is `EntryFor` of section `i`, its page is opened only where `LayoutAfter` opens one, and the cursor ends at `LayoutAfter(i + 1)`, one line down |
| PdfProcessing.RenderTocEntries | src/renderer/utils/pdfProcessing.js:407-524 | the render loop puts every entry's link on its ToC page and, when outlines are supported, appends every bookmark |
| PdfProcessing.GenerateTableOfContents | src/renderer/utils/pdfProcessing.js:224-559 | the ToC pages with all links, the bookmarks, the page count and the nested-section summary are those of the specification |
| PdfProcessing.AppendFilePages | src/renderer/utils/pdfProcessing.js:88-144 | a file's pages are copied in order, each with an overlay outside draft mode |
| PdfProcessing.AppendPdfs | src/renderer/utils/pdfProcessing.js:80-147 | the file loop appends the section's content, skipping missing files |
| PdfProcessing.CountTotalPages | src/renderer/utils/pdfProcessing.js:22-44 | the first pass computes the page total |
| PdfProcessing.AppendSection | src/renderer/utils/pdfProcessing.js:64-148 | one iteration appends the separator of a main section, then its files, with their overlays |
| PdfProcessing.MergeWithTemplates | src/renderer/utils/pdfProcessing.js:17-155 | the merged document is the ToC pages followed by every section's pages; it has ToC pages + total pages in all, with the specified bookmarks and overlays |
| PdfProcessing.AppendSections | src/renderer/utils/pdfProcessing.js:64-148 | the section loop appends, after the ToC pages, exactly every section's separator and content pages in merge-list order, requests one overlay per separator and (outside draft mode) per content page with consecutive page indices, and leaves the outline alone |
| FilepathCtrl.WithFilepathShape | src/muya/lib/contentState/filepathCtrl.js:22-26 | the old line is kept as it was, the path appears verbatim inside the tag, and the line grows by the tag |
| FilepathCtrl.ContentState.InsertFilepath | src/muya/lib/contentState/filepathCtrl.js:5-37 | code, language-input and thematic-break lines are left untouched, with no render; otherwise only the cursor's block changes, gaining the tag at its end, the cursor collapses at the new end of the line, and one render and one change are dispatched |
| Clipboard.ReadUInt16LE | src/renderer/util/clipboard.js:34 | a 16-bit read gives a code unit below 65536 |
| Clipboard.ReadUInt32LE | src/renderer/util/clipboard.js:24 | a 32-bit read gives a count below 2^32 |
| Clipboard.ScanEnd | src/renderer/util/clipboard.js:31-36 | the scan stops an even distance from its start; every unit it passes over lies inside the buffer and is non-zero; it stops at a zero unit unless fewer than two bytes are left |
| Clipboard.Units | src/renderer/util/clipboard.js:40 | a buffer of n bytes gives n/2 code units |
| Clipboard.DecodeEncodeUtf16 | src/renderer/util/clipboard.js:40 | UTF-16 decoding inverts UTF-16 encoding, for every string |
| Clipboard.RemoveNul | src/renderer/util/clipboard.js:51 | the cleaned path holds exactly the characters of the raw one other than NUL |
| Clipboard.FallbackPath | src/renderer/util/clipboard.js:47-68 | the fallback is `FileNameW` without NULs when that is non-empty, else the trimmed text when it starts with a drive letter and a separator, else nothing |
| Clipboard.ReadWindowsFilePath | src/renderer/util/clipboard.js:14-73 | the scan loop and the fallbacks compute the specified Windows path |
| Clipboard.HdropRoundTrip | src/renderer/util/clipboard.js:17-42 | a `CF_HDROP` buffer laid out as the code expects (header, non-zero count, flags, the path in UTF-16LE, a zero unit) yields exactly that path, whatever the other formats hold |
| Clipboard.ShortHdropEndsEverything | src/renderer/util/clipboard.js:18-24 | a non-empty buffer too short for the count throws, and no fallback is tried |
| Clipboard.EmptyHdropFallsBack | src/renderer/util/clipboard.js:17-27 | a missing or empty buffer, or a zero count, hands over to the fallbacks |
| Clipboard.GuessDispatch | src/renderer/util/clipboard.js:75-85 | Linux and unknown platforms give nothing; macOS gives the first listed file, which is empty only when the list is missing, empty or starts with an empty name; Windows gives what the Windows reader finds |

## Left out

- Logging: `console` output throughout is not modelled.
- Asynchrony: `async`/`await` is modelled as sequential execution.
- Strings are sequences of Unicode scalar values, while JavaScript counts UTF-16 code units. Lengths (the cursor offset after `insertFilepath`, title widths) differ for characters outside the Basic Multilingual Plane.
- Drawing: page geometry, fonts, dot leaders, white rectangles and the fit-to-page scaling (pdfProcessing.js:98-137, 416-472) are floating-point drawing and are not modelled. A content page records its section, file, page index and fit-to-page mark.
- ToC y positions are integers in hundredths of a point.
- `drawOverlay` (pdfProcessing.js:157-216) is recorded as the data handed to the template: page number, page total, section, subsections and project title. Reading the template, rendering the .docx, converting it and embedding the result are I/O and are not modelled.
- pdf-lib failures are not modelled, including the `try`/`catch` fallbacks around page creation, links and bookmarks. Loading an existing file always succeeds and gives its page count.
- Whether `finalDoc.addOutline` exists is a boolean parameter.
- `MergeWithTemplates` returns the merged pages instead of writing `merged_document.pdf`.
- `PdfProcessing.GenerateTableOfContents` requires an empty document. Its only caller passes a freshly created one.
- `NodePath`: only POSIX paths are modelled. `Resolve` and `Join` do not normalise `.` and `..` or repeated separators, and Windows drive paths are not modelled.
- `UriCoding` follows the ECMAScript definition of `decodeURIComponent`. Its `URIError` becomes a `Failure`.
- `Text.Substitution`: a string pattern has no capture groups, so `$1`…`$99` and `$<name>` are kept literally, as `replace` does in that case.
- `Text.ToLowerAscii` lower-cases A–Z only, while `toLowerCase` also lower-cases non-ASCII letters.
- `FileConversion.ConvertToPdf`:
  - the file system maps paths to modification times;
  - `exec` is a function from the command line to its exit status and the files it writes;
  - its output buffer limit is not modelled.
- `Cache.DocumentCache.GetPdfDocument`:
  - the disk is a snapshot map from resolved path to modification time and contents;
  - stat errors other than a missing file are not modelled;
  - `PDFDocument.load` is an oracle that either gives a document or fails.
- `Progress.ProgressManager.CalculateSectionProgress` and `Progress.ProgressManager.UpdateSection` require a positive total weight. JavaScript divides by zero there and reports `NaN`, which is not modelled. Weights are reals, so floating-point rounding is not modelled.
- `MergeHelpers.ProcessSections` and `MergeHelpers.ReportSection` require the weights already registered to be non-negative, so that the total is positive once the 40-weight section is added.
- `MergeHelpers`: the converter handed in through `tools` is an oracle. Its answers are the model's parameters.
- `Clipboard`:
  - the clipboard's formats and the platform flags are parameters;
  - the macOS property-list parsing is not modelled: a parse result that is not an array is `None`, and so is a parse that throws, although `guessClipboardFilePath` does not catch that throw;
  - a lone surrogate decodes to U+FFFD, while Node keeps it as a code unit.
- `FilepathCtrl.ContentState.InsertFilepath` requires the cursor's block to exist, which `getBlock` assumes. `partialRender` and `dispatchChange` are counted, not performed.

=== FILE: clipboard.dfy ===
/**
 * Guessing the file path on the clipboard. On Windows the `CF_HDROP` buffer is scanned
 * for its first UTF-16LE path (the file count at byte 4, the path from byte 12 up to a
 * zero code unit), then `FileNameW` with its NULs removed, then the clipboard text when
 * it looks like a drive-letter path. The clipboard and the platform are parameters.
 */
module Clipboard {
  import opened Wrappers
  import opened Text

  newtype byte = x: int | 0 <= x < 256

  /** `buf.readUInt16LE(i)`. */
  function ReadUInt16LE(buf: seq<byte>, i: nat): (u: nat)
    requires i + 2 <= |buf|
    ensures u < 0x10000
  {
    buf[i] as nat + 256 * buf[i + 1] as nat
  }

  /** `buf.readUInt32LE(i)`. */
  function ReadUInt32LE(buf: seq<byte>, i: nat): (u: nat)
    requires i + 4 <= |buf|
    ensures u < 0x1_0000_0000
  {
    ReadUInt16LE(buf, i) + 0x10000 * ReadUInt16LE(buf, i + 2)
  }

  /**
   * Where the scan that starts at `p` stops: at the first zero code unit at an even
   * distance from `p`, or where fewer than two bytes are left. Every unit it passes over
   * lies inside the buffer and is not zero.
   */
  function ScanEnd(buf: seq<byte>, p: nat): (e: nat)
    decreases |buf| - p
    ensures p <= e && (e - p) % 2 == 0
    ensures e > p ==> e <= |buf|
    ensures forall k :: p <= k < e && (k - p) % 2 == 0 ==> k + 2 <= |buf| && ReadUInt16LE(buf, k) != 0
    ensures e + 1 < |buf| ==> ReadUInt16LE(buf, e) == 0
  {
    if p + 1 < |buf| && ReadUInt16LE(buf, p) != 0 then ScanEnd(buf, p + 2) else p
  }

  predicate IsUnits(us: seq<nat>) {
    forall j :: 0 <= j < |us| ==> us[j] < 0x10000
  }

  predicate NonZeroUnits(us: seq<nat>) {
    forall j :: 0 <= j < |us| ==> 0 < us[j] < 0x10000
  }

  /** The little-endian code units of a byte buffer; a trailing odd byte is dropped. */
  function Units(bytes: seq<byte>): (us: seq<nat>)
    ensures |us| == |bytes| / 2 && IsUnits(us)
  {
    if |bytes| < 2 then [] else [ReadUInt16LE(bytes, 0)] + Units(bytes[2..])
  }

  predicate IsHighSurrogate(u: nat) {
    0xD800 <= u < 0xDC00
  }

  predicate IsLowSurrogate(u: nat) {
    0xDC00 <= u < 0xE000
  }

  function SurrogatePair(hi: nat, lo: nat): char
    requires IsHighSurrogate(hi) && IsLowSurrogate(lo)
  {
    ((hi - 0xD800) * 0x400 + (lo - 0xDC00) + 0x10000) as char
  }

  /** UTF-16 decoding; a surrogate without its partner becomes U+FFFD. */
  function DecodeUtf16(us: seq<nat>): string
    requires IsUnits(us)
  {
    if us == [] then ""
    else if IsHighSurrogate(us[0]) && |us| >= 2 && IsLowSurrogate(us[1]) then
      [SurrogatePair(us[0], us[1])] + DecodeUtf16(us[2..])
    else if 0xD800 <= us[0] < 0xE000 then "\U{FFFD}" + DecodeUtf16(us[1..])
    else [us[0] as char] + DecodeUtf16(us[1..])
  }

  /** `buffer.toString('utf16le')`. */
  function Utf16LeDecode(bytes: seq<byte>): string {
    DecodeUtf16(Units(bytes))
  }

  /** The UTF-16 code units of one character. */
  function CharUnits(c: char): (us: seq<nat>)
    ensures 1 <= |us| <= 2 && IsUnits(us)
    ensures c != '\0' ==> NonZeroUnits(us)
  {
    var v := c as int;
    if v < 0x10000 then [v] else [0xD800 + (v - 0x10000) / 0x400, 0xDC00 + (v - 0x10000) % 0x400]
  }

  function EncodeUtf16(s: string): (us: seq<nat>)
    ensures IsUnits(us) && |us| >= |s|
    ensures '\0' !in s ==> NonZeroUnits(us)
  {
    if s == "" then [] else CharUnits(s[0]) + EncodeUtf16(s[1..])
  }

  /** Code units written out little-endian. */
  function UnitBytes(us: seq<nat>): (b: seq<byte>)
    requires IsUnits(us)
    ensures |b| == 2 * |us|
  {
    if us == [] then [] else [(us[0] % 256) as byte, (us[0] / 256) as byte] + UnitBytes(us[1..])
  }

  lemma {:induction false} UnitsOfUnitBytes(us: seq<nat>)
    requires IsUnits(us)
    ensures Units(UnitBytes(us)) == us
  {
    if us != [] {
      UnitsOfUnitBytes(us[1..]);
      assert UnitBytes(us)[2..] == UnitBytes(us[1..]);
    }
  }

  lemma DecodeCharUnits(c: char, rest: seq<nat>)
    requires IsUnits(rest)
    ensures IsUnits(CharUnits(c) + rest)
    ensures DecodeUtf16(CharUnits(c) + rest) == [c] + DecodeUtf16(rest)
  {
    var us := CharUnits(c) + rest;
    var v := c as int;
    if v >= 0x10000 {
      var hi, lo := (v - 0x10000) / 0x400, (v - 0x10000) % 0x400;
      assert hi * 0x400 + lo + 0x10000 == v;
      assert us[2..] == rest;
      assert SurrogatePair(us[0], us[1]) == c;
    } else {
      assert us[1..] == rest;
    }
  }

  /** Decoding undoes encoding, for every string. */
  lemma {:induction false} DecodeEncodeUtf16(s: string)
    ensures DecodeUtf16(EncodeUtf16(s)) == s
  {
    if s != "" {
      DecodeEncodeUtf16(s[1..]);
      DecodeCharUnits(s[0], EncodeUtf16(s[1..]));
      assert [s[0]] + s[1..] == s;
    }
  }

  /** The outcome of reading `CF_HDROP`. */
  datatype HdropOutcome = Threw | FoundPath(path: string) | NoPath

  /**
   * The `CF_HDROP` step: an empty buffer or a zero file count yields nothing, a buffer too
   * short for the count throws, and otherwise the bytes from 12 to where the scan stops
   * are the path when there are any.
   */
  function HdropPath(buffer: seq<byte>): HdropOutcome {
    if |buffer| == 0 then NoPath
    else if |buffer| < 8 then Threw
    else if ReadUInt32LE(buffer, 4) == 0 then NoPath
    else
      var e := ScanEnd(buffer, 12);
      if e > 12 then FoundPath(Utf16LeDecode(buffer[12..e])) else NoPath
  }

  /** `replace(/\0/g, '')`. */
  function RemoveNul(s: string): (r: string)
    ensures forall c :: c in r <==> c in s && c != '\0'
    ensures |r| <= |s|
  {
    if s == "" then ""
    else if s[0] == '\0' then RemoveNul(s[1..])
    else [s[0]] + RemoveNul(s[1..])
  }

  predicate IsAsciiLetter(c: char) {
    'a' <= c <= 'z' || 'A' <= c <= 'Z'
  }

  /** `/^[a-zA-Z]:[\\/].*\/.test(s)`. */
  predicate LooksLikeDrivePath(s: string) {
    |s| >= 3 && IsAsciiLetter(s[0]) && s[1] == ':' && (s[2] == '\\' || s[2] == '/')
  }

  /** What the Windows clipboard holds: each format, when present. */
  datatype WinClipboard = WinClipboard(hdrop: Option<seq<byte>>, fileNameW: Option<string>, text: string)

  /**
   * The two fallbacks: `FileNameW` without its NULs when that leaves something, else the
   * trimmed text when it starts with a drive letter, else nothing.
   */
  function FallbackPath(fileNameW: Option<string>, text: string): (r: string)
    ensures r == ""
      || (fileNameW.Some? && r == RemoveNul(fileNameW.value) && '\0' !in r)
      || (r == Trim(text) && LooksLikeDrivePath(r))
    ensures fileNameW.Some? && RemoveNul(fileNameW.value) != "" ==> r == RemoveNul(fileNameW.value)
    ensures (fileNameW.None? || RemoveNul(fileNameW.value) == "") ==>
      r == (if LooksLikeDrivePath(Trim(text)) then Trim(text) else "")
  {
    var cleaned := if fileNameW.Some? then RemoveNul(fileNameW.value) else "";
    if cleaned != "" then cleaned
    else
      var trimmed := Trim(text);
      if LooksLikeDrivePath(trimmed) then trimmed else ""
  }

  /** `readWindowsFilePath`: a throw ends everything with nothing, without the fallbacks. */
  function WindowsFilePath(clip: WinClipboard): string {
    var hdrop := if clip.hdrop.Some? then HdropPath(clip.hdrop.value) else NoPath;
    match hdrop
    case Threw => ""
    case FoundPath(p) => p
    case NoPath => FallbackPath(clip.fileNameW, clip.text)
  }

  /** `readWindowsFilePath`, with the `CF_HDROP` scan as a loop. */
  method ReadWindowsFilePath(clip: WinClipboard) returns (path: string)
    ensures path == WindowsFilePath(clip)
  {
    if clip.hdrop.Some? {
      var buffer := clip.hdrop.value;
      if |buffer| > 0 {
        if |buffer| < 8 {
          return "";
        }
        var offset := 4;
        var fileCount := ReadUInt32LE(buffer, offset);
        offset := offset + 4;
        if fileCount > 0 {
          offset := offset + 4;
          var pathEnd := offset;
          while pathEnd < |buffer| - 1
            invariant offset <= pathEnd && (pathEnd == offset || pathEnd <= |buffer|)
            invariant ScanEnd(buffer, pathEnd) == ScanEnd(buffer, offset)
            decreases |buffer| - pathEnd
          {
            if ReadUInt16LE(buffer, pathEnd) == 0 {
              break;
            }
            pathEnd := pathEnd + 2;
          }
          if pathEnd > offset {
            return Utf16LeDecode(buffer[offset..pathEnd]);
          }
        }
      }
    }
    if clip.fileNameW.Some? && clip.fileNameW.value != "" {
      var cleanedPath := RemoveNul(clip.fileNameW.value);
      if cleanedPath != "" {
        return cleanedPath;
      }
    }
    var textPath := clip.text;
    if textPath != "" {
      var trimmedPath := Trim(textPath);
      if LooksLikeDrivePath(trimmedPath) {
        return trimmedPath;
      }
    }
    return "";
  }

  /** A 32-bit count written little-endian. */
  function UInt32Bytes(n: nat): (b: seq<byte>)
    requires n < 0x1_0000_0000
    ensures |b| == 4 && ReadUInt32LE(b, 0) == n
  {
    var lo, hi := n % 0x10000, n / 0x10000;
    [(lo % 256) as byte, (lo / 256) as byte, (hi % 256) as byte, (hi / 256) as byte]
  }

  /** The scan passes over the units of a path and stops at the zero unit behind it. */
  lemma {:induction false} ScanUnits(pre: seq<byte>, us: seq<nat>, rest: seq<byte>)
    requires NonZeroUnits(us)
    requires |rest| >= 2 && ReadUInt16LE(rest, 0) == 0
    ensures ScanEnd(pre + UnitBytes(us) + rest, |pre|) == |pre| + 2 * |us|
    decreases |us|
  {
    var buf := pre + UnitBytes(us) + rest;
    if us == [] {
      assert buf == pre + rest;
      assert ReadUInt16LE(buf, |pre|) == ReadUInt16LE(rest, 0);
    } else {
      var first := UnitBytes(us[..1]);
      assert UnitBytes(us) == first + UnitBytes(us[1..]);
      assert buf == (pre + first) + UnitBytes(us[1..]) + rest;
      assert ReadUInt16LE(buf, |pre|) == us[0];
      ScanUnits(pre + first, us[1..], rest);
    }
  }

  /**
   * A `CF_HDROP` buffer laid out as the scan expects: four header bytes, a non-zero count,
   * four flag bytes, the path in UTF-16LE, a zero unit, and whatever follows.
   */
  function HdropBuffer(header: seq<byte>, count: nat, flags: seq<byte>, path: string, tail: seq<byte>): seq<byte>
    requires count < 0x1_0000_0000
  {
    header + UInt32Bytes(count) + flags + UnitBytes(EncodeUtf16(path)) + [0, 0] + tail
  }

  lemma HdropBufferCount(header: seq<byte>, count: nat, flags: seq<byte>, path: string, tail: seq<byte>)
    requires |header| == 4 && count < 0x1_0000_0000
    ensures var buf := HdropBuffer(header, count, flags, path, tail);
      |buf| >= 8 && ReadUInt32LE(buf, 4) == count
  {
    var buf := HdropBuffer(header, count, flags, path, tail);
    assert buf[4..8] == UInt32Bytes(count);
    assert ReadUInt32LE(buf, 4) == ReadUInt32LE(UInt32Bytes(count), 0);
  }

  lemma HdropBufferScan(header: seq<byte>, count: nat, flags: seq<byte>, path: string, tail: seq<byte>)
    requires |header| == 4 && |flags| == 4 && count < 0x1_0000_0000 && '\0' !in path
    ensures var buf := HdropBuffer(header, count, flags, path, tail);
      var n := |EncodeUtf16(path)|;
      ScanEnd(buf, 12) == 12 + 2 * n && 12 + 2 * n <= |buf| && buf[12..12 + 2 * n] == UnitBytes(EncodeUtf16(path))
  {
    var us := EncodeUtf16(path);
    var pre := header + UInt32Bytes(count) + flags;
    var rest: seq<byte> := [0, 0] + tail;
    assert HdropBuffer(header, count, flags, path, tail) == pre + UnitBytes(us) + rest;
    assert ReadUInt16LE(rest, 0) == 0;
    ScanUnits(pre, us, rest);
  }

  /** Such a buffer yields exactly its path, whatever the other formats hold. */
  lemma HdropRoundTrip(header: seq<byte>, count: nat, flags: seq<byte>, path: string, tail: seq<byte>,
                       fileNameW: Option<string>, text: string)
    requires |header| == 4 && |flags| == 4 && 0 < count < 0x1_0000_0000
    requires path != "" && '\0' !in path
    ensures WindowsFilePath(WinClipboard(Some(HdropBuffer(header, count, flags, path, tail)), fileNameW, text)) == path
  {
    var buf := HdropBuffer(header, count, flags, path, tail);
    var us := EncodeUtf16(path);
    HdropBufferCount(header, count, flags, path, tail);
    HdropBufferScan(header, count, flags, path, tail);
    UnitsOfUnitBytes(us);
    DecodeEncodeUtf16(path);
    assert HdropPath(buf) == FoundPath(Utf16LeDecode(buf[12..12 + 2 * |us|]));
  }

  /** A non-empty buffer too short for the count throws, and the fallbacks are not tried. */
  lemma ShortHdropEndsEverything(buffer: seq<byte>, fileNameW: Option<string>, text: string)
    requires 0 < |buffer| < 8
    ensures WindowsFilePath(WinClipboard(Some(buffer), fileNameW, text)) == ""
  {
  }

  /** A missing or empty buffer, or a zero count, hands over to the fallbacks. */
  lemma EmptyHdropFallsBack(buffer: Option<seq<byte>>, fileNameW: Option<string>, text: string)
    requires buffer.None? || |buffer.value| == 0 || (|buffer.value| >= 8 && ReadUInt32LE(buffer.value, 4) == 0)
    ensures WindowsFilePath(WinClipboard(buffer, fileNameW, text)) == FallbackPath(fileNameW, text)
  {
  }

  /** The platform flags. */
  datatype Platform = Platform(isLinux: bool, isOsx: bool, isWindows: bool)

  /**
   * `guessClipboardFilePath`. `macFiles` is what the macOS filename list parses to:
   * `None` when it is not an array (a clipboard without the list gives the empty array).
   */
  function GuessClipboardFilePath(platform: Platform, macFiles: Option<seq<string>>, clip: WinClipboard): string {
    if platform.isLinux then ""
    else if platform.isOsx then
      if macFiles.Some? && |macFiles.value| > 0 then macFiles.value[0] else ""
    else if platform.isWindows then WindowsFilePath(clip)
    else ""
  }

  /**
   * Linux and unknown platforms never answer a path; macOS answers the first listed file
   * or nothing; Windows answers what the Windows reader finds.
   */
  lemma GuessDispatch(platform: Platform, macFiles: Option<seq<string>>, clip: WinClipboard)
    ensures var r := GuessClipboardFilePath(platform, macFiles, clip);
      (platform.isLinux || (!platform.isOsx && !platform.isWindows) ==> r == "")
      && (!platform.isLinux && platform.isOsx ==>
            (r == "" <==> macFiles.None? || |macFiles.value| == 0 || macFiles.value[0] == "")
            && (r != "" ==> r in macFiles.value))
      && (!platform.isLinux && !platform.isOsx && platform.isWindows ==> r == WindowsFilePath(clip))
  {
  }
}

=== FILE: document_cache.dfy ===
/**
 * The cache of loaded PDF documents the merge keeps while it counts and copies pages.
 * Entries are keyed by the resolved path and remember the document, its page count and
 * the modification time it was loaded at; a request for a file reuses the entry unless
 * the file has changed since. The disk is a map from resolved path to the file's
 * modification time and what loading it yields.
 */
module Cache {
  import opened Wrappers
  import opened NodePath

  /** A loaded PDF, as far as the merge looks at it. */
  datatype PdfDoc = PdfDoc(id: nat, pageCount: nat)

  datatype CacheEntry = CacheEntry(doc: PdfDoc, pageCount: nat, lastModified: int)

  /** A file on disk: its modification time and the document loading it gives (`None`: not a readable PDF). */
  datatype StoredFile = StoredFile(mtime: int, contents: Option<PdfDoc>)

  datatype CacheError = FileNotFound(path: string) | LoadFailed(path: string)

  class DocumentCache {
    /** The working directory relative paths are resolved against. */
    const cwd: string
    var entries: map<string, CacheEntry>
    /** The files read and parsed so far, in order. */
    var loads: seq<string>

    /** Keys are resolved paths, and each entry's count is its document's. */
    predicate Valid()
      reads this
    {
      IsAbsolute(cwd)
      && forall k :: k in entries ==> NormalizePath(k) == k && entries[k].pageCount == entries[k].doc.pageCount
    }

    constructor(cwd: string)
      requires IsAbsolute(cwd)
      ensures Valid() && this.cwd == cwd && entries == map[] && loads == []
    {
      this.cwd := cwd;
      entries := map[];
      loads := [];
    }

    /** `normalizePath`: `path.resolve`. */
    function NormalizePath(filepath: string): string {
      Resolve(cwd, filepath)
    }

    /**
     * `getPdfDocument`: the file is looked up first, so a missing file fails even when it
     * is cached; an entry at least as new as the file is answered without loading;
     * otherwise the file is loaded and its entry, and only its entry, is replaced.
     */
    method GetPdfDocument(filepath: string, disk: map<string, StoredFile>) returns (r: Result<PdfDoc, CacheError>)
      requires Valid()
      modifies this
      ensures Valid()
      ensures var key := NormalizePath(filepath);
        if key !in disk then
          r == Failure(FileNotFound(key)) && entries == old(entries) && loads == old(loads)
        else if key in old(entries) && old(entries)[key].lastModified >= disk[key].mtime then
          r == Success(old(entries)[key].doc) && entries == old(entries) && loads == old(loads)
        else
          loads == old(loads) + [key]
          && match disk[key].contents
             case None => r == Failure(LoadFailed(key)) && entries == old(entries)
             case Some(doc) =>
               r == Success(doc) && entries == old(entries)[key := CacheEntry(doc, doc.pageCount, disk[key].mtime)]
    {
      var normalizedPath := NormalizePath(filepath);
      if normalizedPath !in disk {
        return Failure(FileNotFound(normalizedPath));
      }
      var stats := disk[normalizedPath];
      if normalizedPath in entries {
        var cached := entries[normalizedPath];
        if cached.lastModified >= stats.mtime {
          return Success(cached.doc);
        }
      }
      loads := loads + [normalizedPath];
      if stats.contents.None? {
        return Failure(LoadFailed(normalizedPath));
      }
      var doc := stats.contents.value;
      ResolveIsAbsolute(cwd, filepath);
      entries := entries[normalizedPath := CacheEntry(doc, doc.pageCount, stats.mtime)];
      r := Success(doc);
    }

    /** `getPageCount`: the stored count, or nothing for a path never loaded; nothing is loaded or changed. */
    method GetPageCount(filepath: string) returns (r: Option<nat>)
      requires Valid()
      ensures r.Some? <==> NormalizePath(filepath) in entries
      ensures r.Some? ==> r.value == entries[NormalizePath(filepath)].doc.pageCount
    {
      var normalizedPath := NormalizePath(filepath);
      if normalizedPath in entries {
        return Some(entries[normalizedPath].pageCount);
      }
      return None;
    }
  }
}

=== FILE: document_parser.dfy ===
/**
 * The outline parser of the merge feature: a Markdown ordered list whose items carry
 * `file://` links becomes a list of sections. The parser walks the lines once, keeping
 * one counter per nesting level, the section being built and whether it is inside an
 * ordered list. `Step` is one line of that walk, `RunLines` the walk over a prefix of
 * the lines and `Parse` the whole result; `ParseDocumentSections` is proved against it.
 */
module DocumentParser {
  import opened Wrappers
  import opened Text
  import opened SectionPatterns

  /** A document link of an item: its URL and whether its link text asks for fit-to-page. */
  datatype DocLink = DocLink(url: string, fitToPage: bool)

  datatype Section = Section(title: string, docs: seq<DocLink>)

  datatype ParseError =
    | MissingDocumentLink(section: string)
    | LinkOutsideList(line: string)

  /** The variables of the line loop. */
  datatype ParserState = ParserState(sections: seq<Section>, current: Option<Section>, inList: bool, counters: seq<nat>)

  /** The magnifying-glass character that marks a link as fit-to-page. */
  const Magnifier: string := "\U{1F50D}"

  const Initial: ParserState := ParserState([], None, false, [0])

  /** Length of the indentation `(\s*)` captures. */
  function Indent(line: string): nat {
    SkipSpaces(line, 0)
  }

  /**
   * `line.match(/^(\s*)(.+)$/)` succeeds. The greedy `\s*` takes the whole leading
   * whitespace, and `.+$` then needs a non-empty rest free of line terminators; a
   * shorter indentation leaves a longer rest, which contains the same terminators.
   */
  predicate LineMatches(line: string) {
    Indent(line) < |line| && NoLineTerminator(line[Indent(line)..])
  }

  /** The item test of the line loop: the line matches and its trimmed text is a numbered item. */
  predicate IsItemLine(line: string) {
    LineMatches(line) && IsListItem(Trim(line))
  }

  /** Three indentation characters per nesting level. */
  function NestingLevel(indentLength: nat): nat {
    if indentLength >= 3 then indentLength / 3 else 0
  }

  lemma NestingLevelIsThirdOfIndent(indentLength: nat)
    ensures NestingLevel(indentLength) == indentLength / 3
    ensures NestingLevel(indentLength) * 3 <= indentLength < NestingLevel(indentLength) * 3 + 3
  {
  }

  /** Counter `k`, where a level the list has not reached yet counts as 0. */
  function Counter(counters: seq<nat>, k: nat): nat {
    if k < |counters| then counters[k] else 0
  }

  /**
   * The counters after an item at `level`: the list grows to cover `level`, that
   * level's counter goes up by one, deeper counters restart at 0 and shallower ones
   * keep their values.
   */
  function Bump(counters: seq<nat>, level: nat): (r: seq<nat>)
    ensures |r| == if |counters| <= level then level + 1 else |counters|
  {
    seq(if |counters| <= level then level + 1 else |counters|,
        k requires 0 <= k =>
          if k < level then Counter(counters, k) else if k == level then Counter(counters, k) + 1 else 0)
  }

  /** `counters.slice(0, level + 1).join('.')`. */
  function NumberText(counters: seq<nat>, level: nat): string
    requires level < |counters|
  {
    Join(seq(level + 1, k requires 0 <= k < level + 1 => NatToString(counters[k])), ".")
  }

  /** The item text once its numbers, its file links and a trailing link-like tail are removed. */
  function CleanContent(content: string): string {
    Trim(StripTrailingLink(Trim(RemoveLinks(StripNumber(StripLeadingNumber(content)), 0))))
  }

  /** Item text already trimmed, with no section number, no file link and no link-like tail. */
  ghost predicate PlainItemText(content: string) {
    (content != [] ==> !IsSpace(content[0]) && !IsSpace(content[|content| - 1]))
    && (forall e: nat :: !NumberedAt(content, e))
    && NoLinkIn(content, 0, |content|)
    && (forall k :: 0 <= k <= |content| ==> !TrailingLinkAt(content, k))
  }

  /**
   * The cleaned text is never longer than the item text and neither starts nor ends
   * with `\s`; plain item text comes through unchanged.
   */
  lemma CleanContentKeepsPlainText(content: string)
    ensures var clean := CleanContent(content);
      |clean| <= |content| && (clean != [] ==> !IsSpace(clean[0]) && !IsSpace(clean[|clean| - 1]))
    ensures PlainItemText(content) ==> CleanContent(content) == content
  {
    if PlainItemText(content) {
      assert SkipSpaces(content, 0) == 0 by {
        if content != [] { assert !IsSpace(content[0]); }
      }
      assert content[0..] == content;
      StripLeadingNumberKeeps(content);
      StripNumberCuts(content);
      FirstLinkIsLeftmost(content, 0);
      if FirstLink(content, 0).Some? {
        var i :| 0 <= i < |content| && LinkAt(content, i) == FirstLink(content, 0) && NoLinkIn(content, 0, i);
        NoLinkInAt(content, 0, |content|, i);
      }
      assert RemoveLinks(content, 0) == content;
      TrimKeepsTrimmed(content);
      StripTrailingLinkCuts(content);
    }
  }

  /** `s.replace(/^\d+(?:\.\d+)*\.?\s+/, '')`: as `StripLeadingNumber`, without leading whitespace. */
  function StripNumber(s: string): (r: string)
    ensures |r| <= |s|
  {
    match NumberedPrefix(s)
    case None => s
    case Some(n) => s[n.end..]
  }

  /** A match is cut through the whitespace after it, and text without one is kept. */
  lemma StripNumberCuts(s: string)
    ensures (forall e: nat :: !NumberedAt(s, e)) ==> StripNumber(s) == s
    ensures forall e: nat :: NumberedAt(s, e) ==> StripNumber(s) == s[PastSpaces(s, e)..]
  {
    NumberedPrefixMatches(s);
  }

  /** The title of a numbered item: main items get "N." and deeper items "N.M" with no final dot. */
  function ItemTitle(number: string, level: nat, clean: string): string {
    (if level == 0 then number + "." else number) + " " + clean
  }

  /** The section list once the section being built, if any, is closed. */
  function Closed(st: ParserState): seq<Section> {
    match st.current
    case None => st.sections
    case Some(s) => st.sections + [s]
  }

  /** A new section starts: the previous one is closed. */
  function Open(st: ParserState, s: Section): ParserState {
    st.(sections := Closed(st), current := Some(s))
  }

  /** One list-item line. */
  function ItemStep(st: ParserState, line: string): Result<ParserState, ParseError> {
    var content := line[Indent(line)..];
    var level := NestingLevel(Indent(line));
    var counters := Bump(st.counters, level);
    var number := NumberText(counters, level);
    var clean := CleanContent(content);
    var next := st.(inList := true, counters := counters);
    if StartsWith(clean, "#") then Success(Open(next, Section(StripHashes(clean), [])))
    else if clean == "" then Success(next)
    else
      match FirstLink(content, 0)
      case Some(link) =>
        Success(Open(next, Section(ItemTitle(number, level, clean), [DocLink(link.url, Contains(link.text, Magnifier))])))
      case None =>
        if level > 0 then Failure(MissingDocumentLink(number + " " + clean))
        else Success(Open(next, Section(ItemTitle(number, level, clean), [])))
  }

  /** Any other line: a file link outside a list is refused, and an empty line ends the list. */
  function OtherStep(st: ParserState, line: string): Result<ParserState, ParseError> {
    var trimmed := Trim(line);
    if !st.inList && trimmed != "" && !StartsWith(trimmed, "#") && FirstLink(trimmed, 0).Some? then
      Failure(LinkOutsideList(trimmed))
    else if trimmed == "" && st.inList then Success(st.(inList := false))
    else Success(st)
  }

  function Step(st: ParserState, line: string): Result<ParserState, ParseError> {
    if IsItemLine(line) then ItemStep(st, line) else OtherStep(st, line)
  }

  /** The loop over `lines`, stopping at the first error. */
  function RunLines(lines: seq<string>): Result<ParserState, ParseError> {
    if lines == [] then Success(Initial)
    else
      match RunLines(lines[..|lines| - 1])
      case Failure(e) => Failure(e)
      case Success(st) => Step(st, lines[|lines| - 1])
  }

  /** `parseDocumentSections`: the sections in document order, or the first error. */
  function Parse(markdown: string): Result<seq<Section>, ParseError> {
    match RunLines(Split(markdown, '\n'))
    case Failure(e) => Failure(e)
    case Success(st) => Success(Closed(st))
  }

  lemma RunLinesSnoc(lines: seq<string>, i: nat, st: ParserState)
    requires i < |lines| && RunLines(lines[..i]) == Success(st)
    ensures RunLines(lines[..i + 1]) == Step(st, lines[i])
  {
    assert lines[..i + 1][..i] == lines[..i];
  }

  lemma RunLinesFail(lines: seq<string>, i: nat)
    requires i < |lines| && RunLines(lines[..i]).Failure?
    ensures RunLines(lines[..i + 1]) == RunLines(lines[..i])
  {
    assert lines[..i + 1][..i] == lines[..i];
  }

  /** Once a prefix of the lines fails, the whole walk fails with the same error. */
  lemma {:induction false} FailureStops(lines: seq<string>, i: nat)
    requires i <= |lines| && RunLines(lines[..i]).Failure?
    ensures RunLines(lines) == RunLines(lines[..i])
    decreases |lines| - i
  {
    if i < |lines| {
      RunLinesFail(lines, i);
      FailureStops(lines, i + 1);
    } else {
      assert lines[..i] == lines;
    }
  }

  /** The three outcomes of an item line that does not fail: a heading, a numbered section, or only a count. */
  lemma ItemStepShape(st: ParserState, line: string)
    requires ItemStep(st, line).Success?
    ensures var next := ItemStep(st, line).value;
      next.counters == Bump(st.counters, NestingLevel(Indent(line))) && next.inList
      && ((next.sections == st.sections && next.current == st.current)
          || (next.sections == Closed(st) && next.current.Some? && |next.current.value.docs| <= 1))
  {
    var content := line[Indent(line)..];
    var level := NestingLevel(Indent(line));
    var counters := Bump(st.counters, level);
    var number := NumberText(counters, level);
    var clean := CleanContent(content);
    var next := st.(inList := true, counters := counters);
    assert Closed(next) == Closed(st) by {
      assert next.sections == st.sections && next.current == st.current;
    }
    if StartsWith(clean, "#") {
      assert ItemStep(st, line) == Success(Open(next, Section(StripHashes(clean), [])));
    } else if clean == "" {
      assert ItemStep(st, line) == Success(next);
    } else {
      match FirstLink(content, 0)
      case Some(link) =>
        var section := Section(ItemTitle(number, level, clean), [DocLink(link.url, Contains(link.text, Magnifier))]);
        assert ItemStep(st, line) == Success(Open(next, section));
        assert |section.docs| == 1;
      case None =>
        assert ItemStep(st, line) == Success(Open(next, Section(ItemTitle(number, level, clean), [])));
    }
  }

  /**
   * An item whose cleaned text starts with '#' closes the section before it and opens a
   * section without documents, titled with the cleaned text minus its '#'s and the
   * whitespace after them.
   */
  lemma HeadingItemOpensSection(st: ParserState, line: string)
    requires IsItemLine(line) && StartsWith(CleanContent(line[Indent(line)..]), "#")
    ensures var clean := CleanContent(line[Indent(line)..]);
      Step(st, line) == Success(ParserState(Closed(st), Some(Section(StripHashes(clean), [])), true,
                                            Bump(st.counters, NestingLevel(Indent(line)))))
    ensures var clean := CleanContent(line[Indent(line)..]);
      exists h: nat, k: nat :: HashesThenSpaces(clean, h, k) && Step(st, line).value.current.value.title == clean[k..]
  {
    assert Step(st, line) == ItemStep(st, line);
    StripHashesCuts(CleanContent(line[Indent(line)..]));
  }

  /** How a list-item line moves the counters: its level counts one more, deeper levels restart, shallower ones stay. */
  lemma ItemCounters(st: ParserState, line: string)
    requires IsItemLine(line) && Step(st, line).Success?
    ensures var level := NestingLevel(Indent(line));
      var c := Step(st, line).value.counters;
      level < |c| && |st.counters| <= |c|
      && c[level] == Counter(st.counters, level) + 1
      && (forall k :: 0 <= k < level ==> c[k] == Counter(st.counters, k))
      && (forall k :: level < k < |c| ==> c[k] == 0)
  {
    assert Step(st, line) == ItemStep(st, line);
    ItemStepShape(st, line);
    BumpCounts(st.counters, NestingLevel(Indent(line)));
  }

  lemma BumpCounts(counters: seq<nat>, level: nat)
    ensures var c := Bump(counters, level);
      level < |c| && |counters| <= |c|
      && c[level] == Counter(counters, level) + 1
      && (forall k :: 0 <= k < level ==> c[k] == Counter(counters, k))
      && (forall k :: level < k < |c| ==> c[k] == 0)
  {
  }

  /** Any other line, blank lines included, leaves the counters and the sections alone. */
  lemma OtherLineKeepsCounters(st: ParserState, line: string)
    requires !IsItemLine(line) && Step(st, line).Success?
    ensures var next := Step(st, line).value;
      next.counters == st.counters && next.sections == st.sections && next.current == st.current
      && next.inList == (st.inList && Trim(line) != "")
  {
  }

  /** The only error outside list items: a non-empty, non-heading line with a file link before any list started or after a blank line. */
  lemma OtherLineFailsIffLinkOutsideList(st: ParserState, line: string)
    requires !IsItemLine(line)
    ensures Step(st, line).Failure? <==>
      !st.inList && Trim(line) != "" && !StartsWith(Trim(line), "#") && FirstLink(Trim(line), 0).Some?
    ensures Step(st, line).Failure? ==> Step(st, line).error == LinkOutsideList(Trim(line))
  {
  }

  /**
   * An item line fails exactly when it is nested, its cleaned text is neither empty nor a
   * heading, and it has no file link; a top-level item without a link gives a section
   * without documents.
   */
  lemma ItemFailsIffNestedWithoutLink(st: ParserState, line: string)
    requires IsItemLine(line)
    ensures var content := line[Indent(line)..];
      var clean := CleanContent(content);
      (Step(st, line).Failure? <==>
        clean != "" && !StartsWith(clean, "#") && FirstLink(content, 0).None? && NestingLevel(Indent(line)) > 0)
      && (clean != "" && !StartsWith(clean, "#") && FirstLink(content, 0).None? && NestingLevel(Indent(line)) == 0
          ==> Step(st, line).value.current.value.docs == [])
  {
  }

  /**
   * The document of an item is its first file link, fit-to-page exactly when the link
   * text holds the magnifier; the item closes the section before it.
   */
  lemma ItemRecordsFirstLink(st: ParserState, line: string)
    requires IsItemLine(line)
    requires var clean := CleanContent(line[Indent(line)..]);
      clean != "" && !StartsWith(clean, "#") && FirstLink(line[Indent(line)..], 0).Some?
    ensures Step(st, line).Success?
    ensures var link := FirstLink(line[Indent(line)..], 0).value;
      var next := Step(st, line).value;
      next.sections == Closed(st)
      && next.current.Some? && next.current.value.docs == [DocLink(link.url, Contains(link.text, Magnifier))]
      && StartsWith(link.url, "file://")
  {
    assert Step(st, line) == ItemStep(st, line);
    LinkedItemStep(st, line);
    FirstLinkIsFileUrl(line[Indent(line)..], 0);
  }

  /** The step of an item line with a file link, written out. */
  lemma LinkedItemStep(st: ParserState, line: string)
    requires var clean := CleanContent(line[Indent(line)..]);
      clean != "" && !StartsWith(clean, "#") && FirstLink(line[Indent(line)..], 0).Some?
    ensures var content := line[Indent(line)..];
      var level := NestingLevel(Indent(line));
      var link := FirstLink(content, 0).value;
      var counters := Bump(st.counters, level);
      ItemStep(st, line)
      == Success(ParserState(Closed(st), Some(Section(ItemTitle(NumberText(counters, level), level, CleanContent(content)),
                                                      [DocLink(link.url, Contains(link.text, Magnifier))])),
                             true, counters))
  {
  }

  lemma FirstLinkIsFileUrl(s: string, from: nat)
    requires FirstLink(s, from).Some?
    ensures StartsWith(FirstLink(s, from).value.url, "file://")
  {
  }

  /** An item whose cleaned text is empty opens no section but still counts. */
  lemma EmptyItemOnlyCounts(st: ParserState, line: string)
    requires IsItemLine(line) && CleanContent(line[Indent(line)..]) == ""
    ensures Step(st, line) == Success(st.(inList := true, counters := Bump(st.counters, NestingLevel(Indent(line)))))
  {
  }

  lemma JoinStartsWithFirst(parts: seq<string>, sep: string)
    requires |parts| >= 1
    ensures StartsWith(Join(parts, sep), parts[0])
  {
    if |parts| > 1 {
      assert Join(parts, sep) == parts[0] + (sep + Join(parts[1..], sep));
    }
  }

  lemma {:induction false} SkipDigitsStops(s: string, i: nat, k: nat)
    requires i <= k < |s| && AllDigits(s[i..k]) && !IsDigit(s[k])
    ensures SkipDigits(s, i) == k
    decreases k - i
  {
    if i < k {
      assert IsDigit(s[i..k][0]);
      assert s[i + 1..k] == s[i..k][1..];
      SkipDigitsStops(s, i + 1, k);
    }
  }

  /**
   * Only top-level items get titles the merge treats as main sections: "N. text" passes
   * the test `^\d+\.\s+` and "N.M text" fails it.
   */
  lemma ItemTitleIsMainIffTopLevel(counters: seq<nat>, level: nat, clean: string)
    requires level < |counters|
    ensures IsMainTitle(ItemTitle(NumberText(counters, level), level, clean)) <==> level == 0
  {
    var first := NatToString(counters[0]);
    var t := ItemTitle(NumberText(counters, level), level, clean);
    if level == 0 {
      assert t == first + ". " + clean;
      TitleDigitsEnd(t, first);
    } else {
      NestedTitleShape(counters, level, clean);
      TitleDigitsEnd(t, first);
    }
  }

  lemma TitleDigitsEnd(t: string, first: string)
    requires StartsWith(t, first) && |first| < |t| && AllDigits(first) && t[|first|] == '.'
    ensures SkipDigits(t, 0) == |first|
  {
    assert t[..|first|] == first;
    SkipDigitsStops(t, 0, |first|);
  }

  /** "N.M text": the first number, a dot, and a digit where a main title has its space. */
  lemma NestedTitleShape(counters: seq<nat>, level: nat, clean: string)
    requires 0 < level < |counters|
    ensures var first := NatToString(counters[0]);
      var t := ItemTitle(NumberText(counters, level), level, clean);
      StartsWith(t, first) && |first| + 1 < |t| && t[|first|] == '.' && IsDigit(t[|first| + 1])
  {
    var parts := seq(level + 1, k requires 0 <= k < level + 1 => NatToString(counters[k]));
    var first := NatToString(counters[0]);
    var rest := Join(parts[1..], ".");
    assert parts[1..][0] == NatToString(counters[1]);
    JoinStartsWithFirst(parts[1..], ".");
    assert NumberText(counters, level) == first + "." + rest;
    assert IsDigit(rest[0]) by {
      assert rest[0] == NatToString(counters[1])[0];
    }
    var t := ItemTitle(NumberText(counters, level), level, clean);
    assert t == first + "." + (rest + " " + clean);
  }

  /** Count of the top-level item lines among `lines`. */
  function TopItems(lines: seq<string>): nat {
    if lines == [] then 0
    else TopItems(lines[..|lines| - 1])
         + (if IsItemLine(lines[|lines| - 1]) && NestingLevel(Indent(lines[|lines| - 1])) == 0 then 1 else 0)
  }

  /**
   * Top-level numbering never restarts: after any prefix of the document, the first
   * counter is the number of top-level items so far, blank lines and other lists
   * notwithstanding.
   */
  lemma {:induction false} TopCounterCountsTopItems(lines: seq<string>)
    requires RunLines(lines).Success?
    ensures |RunLines(lines).value.counters| >= 1
    ensures RunLines(lines).value.counters[0] == TopItems(lines)
  {
    if lines != [] {
      var prefix := lines[..|lines| - 1];
      var line := lines[|lines| - 1];
      TopCounterCountsTopItems(prefix);
      var st := RunLines(prefix).value;
      assert RunLines(lines) == Step(st, line);
      StepTopCounter(st, line);
    }
  }

  /** One line adds one to the first counter exactly when it is a top-level item. */
  lemma StepTopCounter(st: ParserState, line: string)
    requires |st.counters| >= 1 && Step(st, line).Success?
    ensures var c := Step(st, line).value.counters;
      |c| >= 1 && c[0] == st.counters[0] + (if IsItemLine(line) && NestingLevel(Indent(line)) == 0 then 1 else 0)
  {
    if IsItemLine(line) {
      ItemCounters(st, line);
    } else {
      OtherLineKeepsCounters(st, line);
    }
  }

  /** The outcome of one line keeps every section recorded so far and adds at most the one it closes. */
  lemma StepAppendsSections(st: ParserState, line: string)
    requires Step(st, line).Success?
    ensures var next := Step(st, line).value;
      (next.sections == st.sections && next.current == st.current)
      || (next.sections == Closed(st) && next.current.Some? && |next.current.value.docs| <= 1)
  {
    if IsItemLine(line) {
      ItemStepShape(st, line);
    }
  }

  /** No item records more than one document. */
  predicate AtMostOneDoc(st: ParserState) {
    (forall k :: 0 <= k < |st.sections| ==> |st.sections[k].docs| <= 1)
    && (st.current.Some? ==> |st.current.value.docs| <= 1)
  }

  lemma {:induction false} RunKeepsAtMostOneDoc(lines: seq<string>)
    requires RunLines(lines).Success?
    ensures AtMostOneDoc(RunLines(lines).value)
  {
    if lines != [] {
      var prefix := lines[..|lines| - 1];
      RunKeepsAtMostOneDoc(prefix);
      var st := RunLines(prefix).value;
      assert RunLines(lines) == Step(st, lines[|lines| - 1]);
      StepKeepsAtMostOneDoc(st, lines[|lines| - 1]);
    }
  }

  lemma StepKeepsAtMostOneDoc(st: ParserState, line: string)
    requires AtMostOneDoc(st) && Step(st, line).Success?
    ensures AtMostOneDoc(Step(st, line).value)
  {
    StepAppendsSections(st, line);
    var next := Step(st, line).value;
    if next.sections == Closed(st) && st.current.Some? {
      assert next.sections == st.sections + [st.current.value];
    }
  }

  /** Every parsed section has at most one document: the first file link of its item. */
  lemma ParsedSectionsHoldAtMostOneDoc(markdown: string)
    requires Parse(markdown).Success?
    ensures forall k :: 0 <= k < |Parse(markdown).value| ==> |Parse(markdown).value[k].docs| <= 1
  {
    RunKeepsAtMostOneDoc(Split(markdown, '\n'));
  }

  /** A line ending in a carriage return never matches `^(\s*)(.+)$`, so it is never an item. */
  lemma CarriageReturnLineIsNoItem()
    ensures !IsItemLine("1. Intro\r")
  {
    var line := "1. Intro\r";
    assert Indent(line) == 0;
    assert IsLineTerminator(line[8]);
  }

  /** The counter loops of an item line: grow the list, count the item, restart deeper levels. */
  method AdvanceCounters(levelCounters: seq<nat>, nestingLevel: nat) returns (counters: seq<nat>)
    ensures counters == Bump(levelCounters, nestingLevel)
  {
    counters := levelCounters;
    while |counters| <= nestingLevel
      invariant |levelCounters| <= |counters|
      invariant |counters| <= nestingLevel + 1 || counters == levelCounters
      invariant forall k :: 0 <= k < |counters| ==> counters[k] == Counter(levelCounters, k)
      decreases nestingLevel + 1 - |counters|
    {
      counters := counters + [0];
    }
    counters := counters[nestingLevel := counters[nestingLevel] + 1];
    var j := nestingLevel + 1;
    while j < |counters|
      invariant nestingLevel + 1 <= j <= |counters|
      invariant |counters| == |Bump(levelCounters, nestingLevel)|
      invariant forall k :: 0 <= k < |counters| ==>
        counters[k] == if k < nestingLevel then Counter(levelCounters, k)
                       else if k == nestingLevel then Counter(levelCounters, k) + 1
                       else if k < j then 0
                       else Counter(levelCounters, k)
    {
      counters := counters[j := 0];
      j := j + 1;
    }
  }

  /** The body of the line loop for a list-item line; an error is the exception the line throws. */
  method ParseItemLine(sections: seq<Section>, currentSection: Option<Section>, levelCounters: seq<nat>,
                       originalLine: string, indentLength: nat)
    returns (r: Result<ParserState, ParseError>)
    requires indentLength == Indent(originalLine)
    ensures forall inList :: r == ItemStep(ParserState(sections, currentSection, inList, levelCounters), originalLine)
  {
    var content := originalLine[indentLength..];
    var nestingLevel := 0;
    if indentLength >= 3 {
      nestingLevel := indentLength / 3;
    }
    var counters := AdvanceCounters(levelCounters, nestingLevel);
    var nestedNumber := NumberText(counters, nestingLevel);
    var cleanContent := CleanContent(content);
    var closed := sections;
    if currentSection.Some? {
      closed := sections + [currentSection.value];
    }
    if StartsWith(cleanContent, "#") {
      return Success(ParserState(closed, Some(Section(StripHashes(cleanContent), [])), true, counters));
    } else if cleanContent != "" {
      var formattedNumber := if nestingLevel == 0 then nestedNumber + "." else nestedNumber;
      var title := formattedNumber + " " + cleanContent;
      var fileLinkMatch := FirstLink(content, 0);
      if fileLinkMatch.Some? {
        var fitToPage := Contains(fileLinkMatch.value.text, Magnifier);
        return Success(ParserState(closed, Some(Section(title, [DocLink(fileLinkMatch.value.url, fitToPage)])), true, counters));
      } else if nestingLevel > 0 {
        return Failure(MissingDocumentLink(nestedNumber + " " + cleanContent));
      } else {
        return Success(ParserState(closed, Some(Section(title, [])), true, counters));
      }
    }
    return Success(ParserState(sections, currentSection, true, counters));
  }

  /** The body of the line loop for any other line. */
  method ParseOtherLine(sections: seq<Section>, currentSection: Option<Section>, inOrderedList: bool, levelCounters: seq<nat>,
                        originalLine: string, trimmedLine: string)
    returns (r: Result<ParserState, ParseError>)
    requires trimmedLine == Trim(originalLine)
    ensures r == OtherStep(ParserState(sections, currentSection, inOrderedList, levelCounters), originalLine)
  {
    if !inOrderedList && trimmedLine != "" && !StartsWith(trimmedLine, "#") {
      var fileLinkMatch := FirstLink(trimmedLine, 0);
      if fileLinkMatch.Some? {
        return Failure(LinkOutsideList(trimmedLine));
      }
    }
    var stillInList := inOrderedList;
    if trimmedLine == "" && inOrderedList {
      stillInList := false;
    }
    return Success(ParserState(sections, currentSection, stillInList, levelCounters));
  }

  /** One iteration of the line loop: the item test, then the item or the other-line branch. */
  method ParseLine(sections: seq<Section>, currentSection: Option<Section>, inOrderedList: bool, levelCounters: seq<nat>,
                   originalLine: string)
    returns (r: Result<ParserState, ParseError>)
    ensures r == Step(ParserState(sections, currentSection, inOrderedList, levelCounters), originalLine)
  {
    var trimmedLine := Trim(originalLine);
    var indentLength := SkipSpaces(originalLine, 0);
    if indentLength < |originalLine| && NoLineTerminator(originalLine[indentLength..]) && IsListItem(trimmedLine) {
      r := ParseItemLine(sections, currentSection, levelCounters, originalLine, indentLength);
    } else {
      r := ParseOtherLine(sections, currentSection, inOrderedList, levelCounters, originalLine, trimmedLine);
    }
  }

  /** `parseDocumentSections(markdown)`. */
  method ParseDocumentSections(markdown: string) returns (r: Result<seq<Section>, ParseError>)
    ensures r == Parse(markdown)
  {
    var lines := Split(markdown, '\n');
    var sections: seq<Section> := [];
    var currentSection: Option<Section> := None;
    var inOrderedList := false;
    var levelCounters: seq<nat> := [0];
    var i := 0;
    while i < |lines|
      invariant 0 <= i <= |lines|
      invariant RunLines(lines[..i]) == Success(ParserState(sections, currentSection, inOrderedList, levelCounters))
    {
      RunLinesSnoc(lines, i, ParserState(sections, currentSection, inOrderedList, levelCounters));
      var next := ParseLine(sections, currentSection, inOrderedList, levelCounters, lines[i]);
      if next.Failure? {
        FailureStops(lines, i + 1);
        return Failure(next.error);
      }
      sections, currentSection, inOrderedList, levelCounters :=
        next.value.sections, next.value.current, next.value.inList, next.value.counters;
      i := i + 1;
    }
    if currentSection.Some? {
      sections := sections + [currentSection.value];
    }
    assert lines[..i] == lines;
    r := Success(sections);
  }
}

=== FILE: file_conversion.dfy ===
/**
 * Conversion of linked source files to PDF: turning `file://` links into paths, picking
 * the first enabled external tool that handles a file's extension, naming the output,
 * deciding whether an existing output is fresh, filling in the tool's command template
 * and judging the run by whether the output exists afterwards. The file system is a map
 * from path to modification time, and running the tool is an oracle from the command
 * line to the files it writes.
 */
module FileConversion {
  import opened Wrappers
  import opened Text
  import opened UriCoding
  import opened NodePath

  const FileScheme: string := "file://"

  /** `convertFileUrlToPath`: a `file://` URL becomes a decoded path; anything else is returned as it is. */
  function ConvertFileUrlToPath(fileUrl: string): Result<string, UriError> {
    if StartsWith(fileUrl, FileScheme) then
      var rest := fileUrl[|FileScheme|..];
      var path := if StartsWith(rest, "/") && |rest| > 2 && rest[2] == ':' then rest[1..] else rest;
      DecodeUriComponent(path)
    else Success(fileUrl)
  }

  lemma EncodedStart(p: string)
    requires p != []
    ensures EncodeUriComponent(p)[0] != '/'
  {
    var c := p[0];
    if !IsUnreserved(c) {
      var bytes := Utf8(CodePoint(c));
      EscapeAllCons(bytes, []);
      assert EscapeAll(bytes) == EscapeAll(bytes) + [];
    }
  }

  /**
   * A path written as a `file://` URL with every reserved character escaped comes back
   * unchanged; a leading separator is escaped too, so the drive-letter rule never fires.
   */
  lemma FileUrlRoundTrip(p: string)
    ensures ConvertFileUrlToPath(FileScheme + EncodeUriComponent(p)) == Success(p)
  {
    var url := FileScheme + EncodeUriComponent(p);
    assert url[..|FileScheme|] == FileScheme;
    assert url[|FileScheme|..] == EncodeUriComponent(p);
    if p != [] {
      EncodedStart(p);
    }
    DecodeEncode(p);
  }

  /** `file:///C:/x` names the Windows path `C:/x`: the separator before the drive letter goes. */
  lemma DriveLetterUrl(drive: char, rest: string)
    requires drive != '%' && '%' !in rest
    ensures ConvertFileUrlToPath(FileScheme + "/" + [drive, ':'] + rest) == Success([drive, ':'] + rest)
  {
    var url := FileScheme + "/" + [drive, ':'] + rest;
    assert url[..|FileScheme|] == FileScheme;
    assert url[|FileScheme|..] == "/" + [drive, ':'] + rest;
    assert ("/" + [drive, ':'] + rest)[1..] == [drive, ':'] + rest;
    DecodeWithoutPercent([drive, ':'] + rest);
  }

  /**
   * Converting again gives the path back unless the decoded path itself starts with `file://`; the merge
   * code converts each link twice, so such a link loses its scheme twice.
   */
  lemma ReconvertingKeepsPath(url: string, path: string)
    requires ConvertFileUrlToPath(url) == Success(path)
    ensures !StartsWith(path, FileScheme) ==> ConvertFileUrlToPath(path) == Success(path)
    ensures !StartsWith(url, FileScheme) ==> path == url
  {
  }

  /** An entry of the conversion tool preferences. */
  datatype Tool = Tool(name: string, extensions: seq<string>, path: string, arguments: string, enabled: bool)

  /** The shipped defaults: LibreOffice and Pandoc for Word files, both switched off. */
  const DefaultConversionTools: seq<Tool> := [
    Tool("LibreOffice DOCX to PDF", ["docx", "doc"], "", "--headless --convert-to pdf %input --outdir %output", false),
    Tool("Pandoc DOCX to PDF", ["docx", "doc"], "", "%input -o %output", false)
  ]

  /** The extension a tool is looked up by: lower-cased, without its dot. */
  function ExtensionKey(localPath: string): string {
    var ext := ToLowerAscii(Extname(localPath));
    if ext == "" then "" else ext[1..]
  }

  predicate Accepts(tool: Tool, ext: string) {
    tool.enabled && ext in tool.extensions
  }

  /** Index of the first tool at or after `from` that accepts `ext`. */
  function FirstAccepting(tools: seq<Tool>, ext: string, from: nat): (r: Option<nat>)
    requires from <= |tools|
    ensures r.Some? ==> from <= r.value < |tools| && Accepts(tools[r.value], ext)
    ensures r.Some? ==> forall j :: from <= j < r.value ==> !Accepts(tools[j], ext)
    ensures r.None? ==> forall j :: from <= j < |tools| ==> !Accepts(tools[j], ext)
    decreases |tools| - from
  {
    if from == |tools| then None
    else if Accepts(tools[from], ext) then Some(from)
    else FirstAccepting(tools, ext, from + 1)
  }

  /**
   * What `findConversionTool` answers: the URL is decoded first (which may throw), a tool
   * list that is not an array gives no tool, and otherwise the first accepting tool.
   */
  function SelectedTool(filePath: string, tools: Option<seq<Tool>>): Result<Option<Tool>, UriError> {
    match ConvertFileUrlToPath(filePath)
    case Failure(e) => Failure(e)
    case Success(localPath) =>
      if tools.None? then Success(None)
      else match FirstAccepting(tools.value, ExtensionKey(localPath), 0)
        case None => Success(None)
        case Some(i) => Success(Some(tools.value[i]))
  }

  /** `findConversionTool`: the first-match scan over the tool list. */
  method FindConversionTool(filePath: string, tools: Option<seq<Tool>>) returns (r: Result<Option<Tool>, UriError>)
    ensures r == SelectedTool(filePath, tools)
    ensures r.Success? && r.value.Some? ==>
      Accepts(r.value.value, ExtensionKey(ConvertFileUrlToPath(filePath).value))
      && (exists i :: 0 <= i < |tools.value| && tools.value[i] == r.value.value)
  {
    var localPath := ConvertFileUrlToPath(filePath);
    if localPath.Failure? {
      return Failure(localPath.error);
    }
    var ext := ExtensionKey(localPath.value);
    if tools.None? {
      return Success(None);
    }
    var tool := ScanTools(tools.value, ext);
    return Success(tool);
  }

  /** The `for … of` loop of `findConversionTool`: the first enabled tool listing the extension. */
  method ScanTools(list: seq<Tool>, ext: string) returns (r: Option<Tool>)
    ensures FirstAccepting(list, ext, 0).None? ==> r.None?
    ensures FirstAccepting(list, ext, 0).Some? ==> r == Some(list[FirstAccepting(list, ext, 0).value])
  {
    var i := 0;
    while i < |list|
      invariant 0 <= i <= |list|
      invariant forall j :: 0 <= j < i ==> !Accepts(list[j], ext)
    {
      if list[i].enabled && ext in list[i].extensions {
        FirstAcceptingIs(list, ext, i);
        return Some(list[i]);
      }
      i := i + 1;
    }
    assert FirstAccepting(list, ext, 0) == None;
    return None;
  }

  /** An accepting tool with no accepting tool before it is the one the scan finds. */
  lemma FirstAcceptingIs(tools: seq<Tool>, ext: string, i: nat)
    requires i < |tools| && Accepts(tools[i], ext)
    requires forall j :: 0 <= j < i ==> !Accepts(tools[j], ext)
    ensures FirstAccepting(tools, ext, 0) == Some(i)
  {
    var r := FirstAccepting(tools, ext, 0);
    assert r.Some?;
    assert !(r.value < i) && !(i < r.value);
  }

  /** With the shipped defaults no file ever gets a tool: every entry is disabled. */
  lemma DefaultToolsNeverSelected(filePath: string)
    ensures !(SelectedTool(filePath, Some(DefaultConversionTools)).Success? && SelectedTool(filePath, Some(DefaultConversionTools)).value.Some?)
  {
    assert forall j, ext :: 0 <= j < |DefaultConversionTools| ==> !Accepts(DefaultConversionTools[j], ext);
  }

  /** Where the PDF of a converted file goes: the output directory, the file's stem, `.pdf`. */
  function OutputPath(filePath: string, outputDir: string): string {
    NodePath.Join(outputDir, Stem(filePath) + ".pdf")
  }

  /**
   * The output name keeps the stem and replaces the extension, so two sources that differ
   * only in extension share one output file.
   */
  lemma OutputPathShape(filePath: string, other: string, outputDir: string)
    requires Stem(filePath) == Stem(other)
    ensures EndsWith(OutputPath(filePath, outputDir), Stem(filePath) + ".pdf")
    ensures OutputPath(filePath, outputDir) == OutputPath(other, outputDir)
  {
    StemAndExtension(filePath);
  }

  /** `"value"`, as the template substitutes it. */
  function Quote(s: string): string {
    "\"" + s + "\""
  }

  /**
   * The command line after the placeholders are filled in: each `replace` with a string
   * pattern rewrites only the first occurrence, in this fixed order.
   */
  function FillTemplate(arguments: string, inputFile: string, outputPath: string, outputDir: string,
                        inputDir: string, outdir: string): string
  {
    var c1 := ReplaceFirst(arguments, "%input", Quote(inputFile));
    var c2 := ReplaceFirst(c1, "%output", Quote(outputPath));
    var c3 := ReplaceFirst(c2, "%inputFile", Quote(inputFile));
    var c4 := ReplaceFirst(c3, "%outputDir", Quote(outputDir));
    var c5 := ReplaceFirst(c4, "%inputDir", Quote(inputDir));
    var c6 := ReplaceFirst(c5, "%outputFile", Quote(outputPath));
    ReplaceFirst(c6, "%outdir", Quote(outdir))
  }

  /**
   * `%input` is a prefix of `%inputFile` and `%inputDir` (and `%output` of `%outputFile`
   * and `%outputDir`), so the first such placeholder is taken by the shorter one: the
   * shorter pattern is always found, no later than the longer one.
   */
  lemma ShorterPlaceholderWins(s: string, short: string, long: string)
    requires StartsWith(long, short)
    requires IndexOf(s, long).Some?
    ensures IndexOf(s, short).Some? && IndexOf(s, short).value <= IndexOf(s, long).value
  {
    var i := IndexOf(s, long).value;
    assert OccursAt(s, long, i);
    var window := s[i..i + |long|];
    assert window == long && |short| <= |long| && long[..|short|] == short;
    assert s[i..i + |short|] == window[..|short|];
    assert OccursAt(s, short, i);
  }

  lemma NoPercentNoPlaceholder(s: string, pat: string)
    requires '%' !in s && pat != [] && pat[0] == '%'
    ensures IndexOf(s, pat).None?
  {
    forall k: nat | k + |pat| <= |s|
      ensures !OccursAt(s, pat, k)
    {
      assert s[k] in s;
      assert s[k..k + |pat|][0] == s[k];
    }
  }

  /** A template without placeholders is passed on unchanged. */
  lemma TemplateWithoutPercent(arguments: string, inputFile: string, outputPath: string, outputDir: string,
                               inputDir: string, outdir: string)
    requires '%' !in arguments
    ensures FillTemplate(arguments, inputFile, outputPath, outputDir, inputDir, outdir) == arguments
  {
    NoPercentNoPlaceholder(arguments, "%input");
    NoPercentNoPlaceholder(arguments, "%output");
    NoPercentNoPlaceholder(arguments, "%inputFile");
    NoPercentNoPlaceholder(arguments, "%outputDir");
    NoPercentNoPlaceholder(arguments, "%inputDir");
    NoPercentNoPlaceholder(arguments, "%outputFile");
    NoPercentNoPlaceholder(arguments, "%outdir");
  }

  /** The executed command: the resolved tool path, with forward slashes, quoted, then the arguments. */
  function FullCommand(cwd: string, tool: Tool, filePath: string, outputDir: string, outDir: string): string {
    var inputFile := Resolve(cwd, filePath);
    var command := FillTemplate(tool.arguments, inputFile, OutputPath(filePath, outputDir),
                                Resolve(cwd, outputDir), Dirname(inputFile),
                                if outDir != "" then outDir else outputDir);
    Quote(ReplaceAllChar(Resolve(cwd, tool.path), '\\', "/")) + " " + command
  }

  /** What running a command does: whether it exits successfully and which files (with their times) it writes. */
  datatype ToolRun = ToolRun(exitedOk: bool, writes: map<string, int>)

  datatype ConversionError =
    | BadFileUrl
    | InputMissing(path: string)
    | CommandFailed(command: string)
    | ConversionFailed(path: string)

  /** The file system seen by the conversion: path to modification time. */
  class Disk {
    var files: map<string, int>

    constructor(files: map<string, int>)
      ensures this.files == files
    {
      this.files := files;
    }

    /** `fs.unlinkSync`. */
    method Unlink(path: string)
      modifies this
      ensures files == old(files) - {path}
    {
      files := files - {path};
    }

    /** The files a command wrote appear with their times. */
    method Apply(writes: map<string, int>)
      modifies this
      ensures files == old(files) + writes
    {
      files := files + writes;
    }
  }

  /** The result of `convertToPdf` and the file system it leaves behind. */
  function Conversion(files: map<string, int>, inputPath: string, tool: Tool, outputDir: string, outDir: string,
                      cwd: string, run: string -> ToolRun): (Result<string, ConversionError>, map<string, int>)
  {
    match ConvertFileUrlToPath(inputPath)
    case Failure(_) => (Failure(BadFileUrl), files)
    case Success(filePath) =>
      var outputPath := OutputPath(filePath, outputDir);
      if outputPath in files && filePath !in files then (Failure(InputMissing(filePath)), files)
      else if outputPath in files && files[outputPath] >= files[filePath] then (Success(outputPath), files)
      else
        var command := FullCommand(cwd, tool, filePath, outputDir, outDir);
        AfterRun(files - {outputPath}, filePath, outputPath, command, run(command))
  }

  /** The run on a file system without the output: a failed exit throws, a missing output is a failed conversion. */
  function AfterRun(files: map<string, int>, filePath: string, outputPath: string, command: string,
                    outcome: ToolRun): (Result<string, ConversionError>, map<string, int>)
  {
    var after := files + outcome.writes;
    if !outcome.exitedOk then (Failure(CommandFailed(command)), after)
    else if outputPath in after then (Success(outputPath), after)
    else (Failure(ConversionFailed(filePath)), after)
  }

  /** `convertToPdf`: the freshness check, the stale-output deletion, the run and the existence check. */
  method ConvertToPdf(disk: Disk, inputPath: string, tool: Tool, outputDir: string, outDir: string,
                      cwd: string, run: string -> ToolRun) returns (r: Result<string, ConversionError>)
    modifies disk
    ensures (r, disk.files) == Conversion(old(disk.files), inputPath, tool, outputDir, outDir, cwd, run)
  {
    var converted := ConvertFileUrlToPath(inputPath);
    if converted.Failure? {
      return Failure(BadFileUrl);
    }
    var filePath := converted.value;
    var outputPath := OutputPath(filePath, outputDir);
    if outputPath in disk.files {
      if filePath !in disk.files {
        return Failure(InputMissing(filePath));
      }
      if disk.files[outputPath] >= disk.files[filePath] {
        return Success(outputPath);
      }
      disk.Unlink(outputPath);
    } else {
      assert disk.files.Keys == (old(disk.files) - {outputPath}).Keys;
    }
    assert disk.files == old(disk.files) - {outputPath};
    var command := FullCommand(cwd, tool, filePath, outputDir, outDir);
    r := RunTool(disk, filePath, outputPath, command, run(command));
    ConversionRunsTool(old(disk.files), inputPath, tool, outputDir, outDir, cwd, run, filePath);
  }

  /** Past the URL and freshness checks, the conversion is the run on the disk without the stale output. */
  lemma ConversionRunsTool(files: map<string, int>, inputPath: string, tool: Tool, outputDir: string, outDir: string,
                           cwd: string, run: string -> ToolRun, filePath: string)
    requires ConvertFileUrlToPath(inputPath) == Success(filePath)
    requires OutputPath(filePath, outputDir) in files ==>
      filePath in files && files[OutputPath(filePath, outputDir)] < files[filePath]
    ensures var outputPath := OutputPath(filePath, outputDir);
      var command := FullCommand(cwd, tool, filePath, outputDir, outDir);
      Conversion(files, inputPath, tool, outputDir, outDir, cwd, run)
        == AfterRun(files - {outputPath}, filePath, outputPath, command, run(command))
  {
  }

  /** The run, on a disk the stale output is already gone from. */
  method RunTool(disk: Disk, filePath: string, outputPath: string, command: string, outcome: ToolRun)
    returns (r: Result<string, ConversionError>)
    modifies disk
    ensures (r, disk.files) == AfterRun(old(disk.files), filePath, outputPath, command, outcome)
  {
    disk.Apply(outcome.writes);
    if !outcome.exitedOk {
      return Failure(CommandFailed(command));
    }
    if outputPath in disk.files {
      return Success(outputPath);
    }
    return Failure(ConversionFailed(filePath));
  }

  /**
   * An output at least as new as its input is returned without running anything: the
   * answer is the same whatever the tool would do, and nothing on disk changes.
   */
  lemma FreshOutputSkipsTool(files: map<string, int>, inputPath: string, filePath: string, tool: Tool,
                             outputDir: string, outDir: string, cwd: string, run: string -> ToolRun, other: string -> ToolRun)
    requires ConvertFileUrlToPath(inputPath) == Success(filePath)
    requires OutputPath(filePath, outputDir) in files && filePath in files
    requires files[OutputPath(filePath, outputDir)] >= files[filePath]
    ensures Conversion(files, inputPath, tool, outputDir, outDir, cwd, run) == (Success(OutputPath(filePath, outputDir)), files)
    ensures Conversion(files, inputPath, tool, outputDir, outDir, cwd, run) == Conversion(files, inputPath, tool, outputDir, outDir, cwd, other)
  {
  }

  /**
   * After the tool has run, the conversion succeeds exactly when the tool exited normally
   * and the output file exists, and then it answers the output path.
   */
  lemma SuccessIffOutputExists(files: map<string, int>, filePath: string, outputPath: string, command: string,
                               outcome: ToolRun)
    ensures AfterRun(files, filePath, outputPath, command, outcome).0.Success?
      <==> outcome.exitedOk && outputPath in AfterRun(files, filePath, outputPath, command, outcome).1
    ensures AfterRun(files, filePath, outputPath, command, outcome).0.Success? ==>
      AfterRun(files, filePath, outputPath, command, outcome).0.value == outputPath
  {
  }

  /**
   * A stale output is deleted before the tool runs, so a tool that does not write the
   * output can never be mistaken for one that worked.
   */
  lemma StaleOutputIsNotReused(files: map<string, int>, inputPath: string, filePath: string, tool: Tool,
                               outputDir: string, outDir: string, cwd: string, run: string -> ToolRun)
    requires ConvertFileUrlToPath(inputPath) == Success(filePath)
    requires OutputPath(filePath, outputDir) in files && filePath in files
    requires files[OutputPath(filePath, outputDir)] < files[filePath]
    requires OutputPath(filePath, outputDir) !in run(FullCommand(cwd, tool, filePath, outputDir, outDir)).writes
    ensures Conversion(files, inputPath, tool, outputDir, outDir, cwd, run).0.Failure?
    ensures OutputPath(filePath, outputDir) !in Conversion(files, inputPath, tool, outputDir, outDir, cwd, run).1
  {
  }
}

=== FILE: filepath_ctrl.dfy ===
/**
 * Inserting a file path into the editor: the path is wrapped in a `<filepath>` tag and
 * appended to the end of the line the cursor is on, and the cursor is collapsed behind
 * it. Code lines, language inputs and thematic-break lines are left alone.
 */
module FilepathCtrl {
  import opened Text

  /** The fields of a block the insertion looks at. */
  datatype Block = Block(blockType: string, functionType: string, text: string)

  datatype Position = Position(key: string, offset: int)

  datatype Cursor = Cursor(start: Position, end: Position)

  /** The blocks a file path may not be inserted into. */
  predicate RefusesFilepath(block: Block) {
    block.blockType == "span"
    && (block.functionType == "codeContent" || block.functionType == "languageInput"
        || block.functionType == "thematicBreakLine")
  }

  function FilepathTag(filePath: string): string {
    "<filepath>" + filePath + "</filepath>"
  }

  /** The line with the tag appended. */
  function WithFilepath(text: string, filePath: string): string {
    text + FilepathTag(filePath)
  }

  /** The old line is kept as it was, the tag carries the path verbatim, and the line grows by the tag. */
  lemma WithFilepathShape(text: string, filePath: string)
    ensures StartsWith(WithFilepath(text, filePath), text)
    ensures EndsWith(WithFilepath(text, filePath), FilepathTag(filePath))
    ensures |WithFilepath(text, filePath)| == |text| + |filePath| + 21
    ensures WithFilepath(text, filePath)[|text| + 10..|text| + 10 + |filePath|] == filePath
  {
    var r := WithFilepath(text, filePath);
    assert r[..|text|] == text;
    assert r[|r| - |FilepathTag(filePath)|..] == FilepathTag(filePath);
    assert FilepathTag(filePath)[10..10 + |filePath|] == filePath;
  }

  /** The editor state the insertion reads and writes. */
  class ContentState {
    var blocks: map<string, Block>
    var cursor: Cursor
    /** How often `partialRender` and `muya.dispatchChange` have been called. */
    var renders: nat
    var changes: nat

    constructor(blocks: map<string, Block>, cursor: Cursor)
      ensures this.blocks == blocks && this.cursor == cursor && renders == 0 && changes == 0
    {
      this.blocks := blocks;
      this.cursor := cursor;
      renders := 0;
      changes := 0;
    }

    /**
     * `insertFilepath`: appends the tag to the block under the cursor's start, wherever
     * in the line the cursor was, collapses the cursor at the new end of the line and
     * renders; a refusing block leaves everything as it was.
     */
    method InsertFilepath(filePath: string)
      requires cursor.start.key in blocks
      modifies this
      ensures var key := old(cursor.start.key);
        var block := old(blocks[key]);
        if RefusesFilepath(block) then
          blocks == old(blocks) && cursor == old(cursor) && renders == old(renders) && changes == old(changes)
        else
          var text := WithFilepath(block.text, filePath);
          blocks == old(blocks)[key := block.(text := text)]
          && cursor == Cursor(Position(key, |text|), Position(key, |text|))
          && renders == old(renders) + 1 && changes == old(changes) + 1
    {
      var key := cursor.start.key;
      var block := blocks[key];
      if block.blockType == "span"
         && (block.functionType == "codeContent" || block.functionType == "languageInput"
             || block.functionType == "thematicBreakLine") {
        return;
      }
      var text := block.text;
      var filepathTag := FilepathTag(filePath);
      blocks := blocks[key := block.(text := text + filepathTag)];
      var newOffset := |text| + |filepathTag|;
      cursor := Cursor(Position(key, newOffset), Position(key, newOffset));
      renders := renders + 1;
      changes := changes + 1;
    }
  }
}

=== FILE: merge_helpers.dfy ===
/**
 * The step between the outline parser and the PDF assembly: every document link of every
 * section is turned into the path of a PDF (a PDF is used as it is, anything else goes
 * through the first conversion tool that handles its extension) and the sections become
 * the merge list. The collaborators the code is handed (URL conversion, tool lookup,
 * converter) may be missing, and the converter itself is an oracle.
 */
module MergeHelpers {
  import opened Wrappers
  import opened Text
  import opened NodePath
  import opened FileConversion
  import opened Progress
  import opened Cache
  import DocumentParser
  import PdfPlan

  /** `tools.convertToPdf(path, tool, outputDir)`. */
  type Converter = (string, Tool, string) -> Result<string, ConversionError>

  /** The `tools` object: which helpers it carries, its tool list (`None`: not an array) and its converter. */
  datatype Tools = Tools(convertsUrls: bool, findsTools: bool, conversionTools: Option<seq<Tool>>, converter: Option<Converter>)

  datatype MergeError =
    | BadLink(url: string)
    | NoConversionTool(path: string)
    | NoConverter
    | Conversion(error: ConversionError)

  /** `tools.convertFileUrlToPath ? tools.convertFileUrlToPath(p) : p`. */
  function LocalPath(tools: Tools, filePath: string): Result<string, MergeError> {
    if !tools.convertsUrls then Success(filePath)
    else match ConvertFileUrlToPath(filePath)
      case Failure(_) => Failure(BadLink(filePath))
      case Success(p) => Success(p)
  }

  predicate IsPdfPath(path: string) {
    ToLowerAscii(Extname(path)) == ".pdf"
  }

  /** The non-PDF branch of `processFile`: find a tool for the file, then hand both to the converter. */
  function ConvertWithTool(normalizedPath: string, tools: Tools, outputDir: string): Result<string, MergeError> {
    var found := if tools.findsTools then SelectedTool(normalizedPath, tools.conversionTools) else Success(None);
    match found
    case Failure(_) => Failure(BadLink(normalizedPath))
    case Success(None) => Failure(NoConversionTool(normalizedPath))
    case Success(Some(tool)) =>
      if tools.converter.None? then Failure(NoConverter)
      else match tools.converter.value(normalizedPath, tool, outputDir)
        case Success(pdf) => Success(pdf)
        case Failure(e) => Failure(Conversion(e))
  }

  /** `processFile`: a PDF is answered by its resolved path; anything else is handed to the converter with its tool. */
  function ProcessFile(filePath: string, tools: Tools, outputDir: string, cache: DocumentCache): Result<string, MergeError> {
    match LocalPath(tools, filePath)
    case Failure(e) => Failure(e)
    case Success(localPath) =>
      var normalizedPath := cache.NormalizePath(localPath);
      if IsPdfPath(normalizedPath) then Success(normalizedPath)
      else ConvertWithTool(normalizedPath, tools, outputDir)
  }

  /**
   * A PDF needs no tool and no converter. Any other file fails with `NoConversionTool`
   * without a tool finder or a matching tool, with `BadLink` when the lookup throws, and
   * with `NoConverter` when a tool is found but no converter was handed in; otherwise the
   * converter's answer for that tool is the answer.
   */
  lemma ProcessFileOutcomes(filePath: string, tools: Tools, outputDir: string, cache: DocumentCache, localPath: string)
    requires LocalPath(tools, filePath) == Success(localPath)
    ensures var path := cache.NormalizePath(localPath);
      IsPdfPath(path) ==> ProcessFile(filePath, tools, outputDir, cache) == Success(path)
    ensures var path := cache.NormalizePath(localPath);
      !IsPdfPath(path) && ProcessFile(filePath, tools, outputDir, cache).Success? ==>
        tools.findsTools && tools.converter.Some?
        && SelectedTool(path, tools.conversionTools).Success? && SelectedTool(path, tools.conversionTools).value.Some?
        && tools.converter.value(path, SelectedTool(path, tools.conversionTools).value.value, outputDir)
           == Success(ProcessFile(filePath, tools, outputDir, cache).value)
    ensures var path := cache.NormalizePath(localPath);
      !IsPdfPath(path) && !tools.findsTools ==> ProcessFile(filePath, tools, outputDir, cache) == Failure(NoConversionTool(path))
    ensures var path := cache.NormalizePath(localPath);
      !IsPdfPath(path) && tools.findsTools && SelectedTool(path, tools.conversionTools).Failure? ==>
        ProcessFile(filePath, tools, outputDir, cache) == Failure(BadLink(path))
    ensures var path := cache.NormalizePath(localPath);
      !IsPdfPath(path) && tools.findsTools && SelectedTool(path, tools.conversionTools) == Success(None) ==>
        ProcessFile(filePath, tools, outputDir, cache) == Failure(NoConversionTool(path))
    ensures var path := cache.NormalizePath(localPath);
      !IsPdfPath(path) && tools.findsTools && SelectedTool(path, tools.conversionTools).Success?
      && SelectedTool(path, tools.conversionTools).value.Some? && tools.converter.None? ==>
        ProcessFile(filePath, tools, outputDir, cache) == Failure(NoConverter)
    ensures var path := cache.NormalizePath(localPath);
      !IsPdfPath(path) && tools.findsTools && SelectedTool(path, tools.conversionTools).Success?
      && SelectedTool(path, tools.conversionTools).value.Some? && tools.converter.Some? ==>
        var answer := tools.converter.value(path, SelectedTool(path, tools.conversionTools).value.value, outputDir);
        var r := ProcessFile(filePath, tools, outputDir, cache);
        (r.Success? <==> answer.Success?)
        && (answer.Success? ==> r.value == answer.value)
        && (answer.Failure? ==> r == Failure(Conversion(answer.error)))
  {
    var path := cache.NormalizePath(localPath);
    if !IsPdfPath(path) {
      assert ProcessFile(filePath, tools, outputDir, cache) == ConvertWithTool(path, tools, outputDir);
    }
  }

  /** Applies `f` to every element in order; the first failure is the answer. */
  function MapAll<A, B, E>(xs: seq<A>, f: A -> Result<B, E>): Result<seq<B>, E> {
    if xs == [] then Success([])
    else match f(xs[0])
      case Failure(e) => Failure(e)
      case Success(y) =>
        match MapAll(xs[1..], f)
        case Failure(e) => Failure(e)
        case Success(ys) => Success([y] + ys)
  }

  /** `MapAll` succeeds with one result per element, in order, or fails exactly when some element fails. */
  lemma {:induction false} MapAllShape<A, B, E>(xs: seq<A>, f: A -> Result<B, E>)
    ensures MapAll(xs, f).Success? ==>
      |MapAll(xs, f).value| == |xs| && forall k :: 0 <= k < |xs| ==> f(xs[k]) == Success(MapAll(xs, f).value[k])
    ensures MapAll(xs, f).Failure? <==> exists k :: 0 <= k < |xs| && f(xs[k]).Failure?
    decreases |xs|
  {
    if xs != [] {
      MapAllShape(xs[1..], f);
      if f(xs[0]).Success? && MapAll(xs[1..], f).Failure? {
        var k :| 0 <= k < |xs[1..]| && f(xs[1..][k]).Failure?;
        assert f(xs[k + 1]).Failure?;
      }
      if exists k :: 0 <= k < |xs| && f(xs[k]).Failure? {
        var k :| 0 <= k < |xs| && f(xs[k]).Failure?;
        if k > 0 && f(xs[0]).Success? {
          assert f(xs[1..][k - 1]).Failure?;
        }
      }
    }
  }

  lemma {:induction false} MapAllOfSuccesses<A, B, E>(xs: seq<A>, f: A -> Result<B, E>, ys: seq<B>)
    requires |ys| == |xs| && forall k :: 0 <= k < |xs| ==> f(xs[k]) == Success(ys[k])
    ensures MapAll(xs, f) == Success(ys)
    decreases |xs|
  {
    if xs != [] {
      assert f(xs[0]) == Success(ys[0]);
      MapAllOfSuccesses(xs[1..], f, ys[1..]);
      assert [ys[0]] + ys[1..] == ys;
    }
  }

  lemma {:induction false} MapAllFirstFailure<A, B, E>(xs: seq<A>, f: A -> Result<B, E>, i: nat)
    requires i < |xs| && f(xs[i]).Failure?
    requires forall k :: 0 <= k < i ==> f(xs[k]).Success?
    ensures MapAll(xs, f) == Failure(f(xs[i]).error)
    decreases i
  {
    if i > 0 {
      assert f(xs[0]).Success?;
      MapAllFirstFailure(xs[1..], f, i - 1);
    }
  }

  /** One more success extends the results of a prefix by one. */
  lemma MapPrefixSnoc<A, B, E>(xs: seq<A>, f: A -> Result<B, E>, ys: seq<B>, y: B)
    requires |ys| < |xs| && forall k :: 0 <= k < |ys| ==> f(xs[k]) == Success(ys[k])
    requires f(xs[|ys|]) == Success(y)
    ensures forall k :: 0 <= k < |ys| + 1 ==> f(xs[k]) == Success((ys + [y])[k])
  {
    forall k | 0 <= k < |ys| + 1
      ensures f(xs[k]) == Success((ys + [y])[k])
    {
      if k < |ys| {
        assert (ys + [y])[k] == ys[k];
      }
    }
  }

  /** One document link as a PDF reference: its path as a PDF, and its fit-to-page mark. */
  function DocPdf(doc: DocumentParser.DocLink, tools: Tools, outputDir: string, cache: DocumentCache): Result<PdfPlan.PdfRef, MergeError> {
    match LocalPath(tools, doc.url)
    case Failure(e) => Failure(e)
    case Success(filePath) =>
      match ProcessFile(filePath, tools, outputDir, cache)
      case Failure(e) => Failure(e)
      case Success(pdfPath) => Success(PdfPlan.PdfRef(pdfPath, doc.fitToPage))
  }

  function SectionPdfs(docs: seq<DocumentParser.DocLink>, tools: Tools, outputDir: string, cache: DocumentCache): Result<seq<PdfPlan.PdfRef>, MergeError> {
    MapAll(docs, doc => DocPdf(doc, tools, outputDir, cache))
  }

  function SectionEntry(section: DocumentParser.Section, tools: Tools, outputDir: string, cache: DocumentCache): Result<PdfPlan.MergeSection, MergeError> {
    match SectionPdfs(section.docs, tools, outputDir, cache)
    case Failure(e) => Failure(e)
    case Success(pdfs) => Success(PdfPlan.MergeSection(section.title, pdfs, []))
  }

  /** The merge list `processSections` builds, or the error that stops it. */
  function MergeList(sections: seq<DocumentParser.Section>, tools: Tools, outputDir: string, cache: DocumentCache): Result<seq<PdfPlan.MergeSection>, MergeError> {
    MapAll(sections, section => SectionEntry(section, tools, outputDir, cache))
  }

  /**
   * The merge list has one entry per section, in order, with the section's title, one PDF
   * per document with its fit-to-page mark, and no subsections; it fails exactly when some
   * document of some section fails.
   */
  lemma MergeListShape(sections: seq<DocumentParser.Section>, tools: Tools, outputDir: string, cache: DocumentCache)
    ensures var r := MergeList(sections, tools, outputDir, cache);
      r.Success? ==> |r.value| == |sections| && forall i :: 0 <= i < |sections| ==>
        r.value[i].title == sections[i].title && r.value[i].subSections == []
        && |r.value[i].pdfs| == |sections[i].docs|
        && forall j :: 0 <= j < |sections[i].docs| ==>
             r.value[i].pdfs[j].fitToPage == sections[i].docs[j].fitToPage
             && DocPdf(sections[i].docs[j], tools, outputDir, cache) == Success(r.value[i].pdfs[j])
    ensures MergeList(sections, tools, outputDir, cache).Failure? <==>
      exists i, j :: 0 <= i < |sections| && 0 <= j < |sections[i].docs| && DocPdf(sections[i].docs[j], tools, outputDir, cache).Failure?
  {
    var f := section => SectionEntry(section, tools, outputDir, cache);
    var g := doc => DocPdf(doc, tools, outputDir, cache);
    MapAllShape(sections, f);
    forall i | 0 <= i < |sections|
      ensures SectionEntry(sections[i], tools, outputDir, cache).Failure? <==>
        exists j :: 0 <= j < |sections[i].docs| && DocPdf(sections[i].docs[j], tools, outputDir, cache).Failure?
      ensures SectionEntry(sections[i], tools, outputDir, cache).Success? ==>
        var e := SectionEntry(sections[i], tools, outputDir, cache).value;
        e.title == sections[i].title && e.subSections == [] && |e.pdfs| == |sections[i].docs|
        && forall j :: 0 <= j < |sections[i].docs| ==> g(sections[i].docs[j]) == Success(e.pdfs[j])
    {
      MapAllShape(sections[i].docs, g);
    }
  }

  /** `processSections`' message before section `i`. */
  function SectionMessage(i: nat, n: nat, title: string): string {
    "Processing section " + NatToString(i + 1) + "/" + NatToString(n) + ": " + title
  }

  /** One document of a section: its local path, then the PDF for it. */
  method ProcessDoc(doc: DocumentParser.DocLink, tools: Tools, outputDir: string, cache: DocumentCache)
    returns (r: Result<PdfPlan.PdfRef, MergeError>)
    ensures r == DocPdf(doc, tools, outputDir, cache)
  {
    var filePath := LocalPath(tools, doc.url);
    if filePath.Failure? {
      return Failure(filePath.error);
    }
    var pdfPath := ProcessFile(filePath.value, tools, outputDir, cache);
    if pdfPath.Failure? {
      return Failure(pdfPath.error);
    }
    return Success(PdfPlan.PdfRef(pdfPath.value, doc.fitToPage));
  }

  /** The inner loop of `processSections`: the documents of one section, in order. */
  method ProcessDocs(docs: seq<DocumentParser.DocLink>, tools: Tools, outputDir: string, cache: DocumentCache)
    returns (r: Result<seq<PdfPlan.PdfRef>, MergeError>)
    ensures r == SectionPdfs(docs, tools, outputDir, cache)
  {
    var sectionPdfs: seq<PdfPlan.PdfRef> := [];
    var j := 0;
    while j < |docs|
      invariant 0 <= j <= |docs| && |sectionPdfs| == j
      invariant DocsDone(docs, sectionPdfs, tools, outputDir, cache)
    {
      var pdf := ProcessDoc(docs[j], tools, outputDir, cache);
      if pdf.Failure? {
        SectionPdfsFirstFailure(docs, tools, outputDir, cache, j);
        return Failure(pdf.error);
      }
      DocsDoneSnoc(docs, sectionPdfs, pdf.value, tools, outputDir, cache);
      sectionPdfs := sectionPdfs + [pdf.value];
      j := j + 1;
    }
    SectionPdfsOfSuccesses(docs, tools, outputDir, cache, sectionPdfs);
    return Success(sectionPdfs);
  }

  /** The PDFs found so far are those of the first documents, in order. */
  predicate DocsDone(docs: seq<DocumentParser.DocLink>, pdfs: seq<PdfPlan.PdfRef>, tools: Tools, outputDir: string, cache: DocumentCache) {
    |pdfs| <= |docs| && forall k :: 0 <= k < |pdfs| ==> DocPdf(docs[k], tools, outputDir, cache) == Success(pdfs[k])
  }

  lemma DocsDoneSnoc(docs: seq<DocumentParser.DocLink>, pdfs: seq<PdfPlan.PdfRef>, pdf: PdfPlan.PdfRef,
                     tools: Tools, outputDir: string, cache: DocumentCache)
    requires DocsDone(docs, pdfs, tools, outputDir, cache) && |pdfs| < |docs|
    requires DocPdf(docs[|pdfs|], tools, outputDir, cache) == Success(pdf)
    ensures DocsDone(docs, pdfs + [pdf], tools, outputDir, cache)
  {
    MapPrefixSnoc(docs, doc => DocPdf(doc, tools, outputDir, cache), pdfs, pdf);
  }

  lemma SectionPdfsOfSuccesses(docs: seq<DocumentParser.DocLink>, tools: Tools, outputDir: string, cache: DocumentCache,
                               pdfs: seq<PdfPlan.PdfRef>)
    requires |pdfs| == |docs| && DocsDone(docs, pdfs, tools, outputDir, cache)
    ensures SectionPdfs(docs, tools, outputDir, cache) == Success(pdfs)
  {
    MapAllOfSuccesses(docs, doc => DocPdf(doc, tools, outputDir, cache), pdfs);
  }

  lemma SectionPdfsFirstFailure(docs: seq<DocumentParser.DocLink>, tools: Tools, outputDir: string, cache: DocumentCache, j: nat)
    requires j < |docs| && DocPdf(docs[j], tools, outputDir, cache).Failure?
    requires forall k :: 0 <= k < j ==> DocPdf(docs[k], tools, outputDir, cache).Success?
    ensures SectionPdfs(docs, tools, outputDir, cache) == Failure(DocPdf(docs[j], tools, outputDir, cache).error)
  {
    MapAllFirstFailure(docs, doc => DocPdf(doc, tools, outputDir, cache), j);
  }

  /** The merge list entries built so far are those of the first sections, in order. */
  predicate SectionsDone(sections: seq<DocumentParser.Section>, entries: seq<PdfPlan.MergeSection>,
                         tools: Tools, outputDir: string, cache: DocumentCache) {
    |entries| <= |sections|
    && forall k :: 0 <= k < |entries| ==> SectionEntry(sections[k], tools, outputDir, cache) == Success(entries[k])
  }

  lemma SectionsDoneSnoc(sections: seq<DocumentParser.Section>, entries: seq<PdfPlan.MergeSection>, entry: PdfPlan.MergeSection,
                         tools: Tools, outputDir: string, cache: DocumentCache)
    requires SectionsDone(sections, entries, tools, outputDir, cache) && |entries| < |sections|
    requires SectionEntry(sections[|entries|], tools, outputDir, cache) == Success(entry)
    ensures SectionsDone(sections, entries + [entry], tools, outputDir, cache)
  {
    MapPrefixSnoc(sections, section => SectionEntry(section, tools, outputDir, cache), entries, entry);
  }

  lemma MergeListOfSuccesses(sections: seq<DocumentParser.Section>, tools: Tools, outputDir: string, cache: DocumentCache,
                             entries: seq<PdfPlan.MergeSection>)
    requires |entries| == |sections| && SectionsDone(sections, entries, tools, outputDir, cache)
    ensures MergeList(sections, tools, outputDir, cache) == Success(entries)
  {
    MapAllOfSuccesses(sections, section => SectionEntry(section, tools, outputDir, cache), entries);
  }

  lemma MergeListFirstFailure(sections: seq<DocumentParser.Section>, tools: Tools, outputDir: string, cache: DocumentCache, i: nat)
    requires i < |sections| && SectionEntry(sections[i], tools, outputDir, cache).Failure?
    requires forall k :: 0 <= k < i ==> SectionEntry(sections[k], tools, outputDir, cache).Success?
    ensures MergeList(sections, tools, outputDir, cache) == Failure(SectionEntry(sections[i], tools, outputDir, cache).error)
  {
    MapAllFirstFailure(sections, section => SectionEntry(section, tools, outputDir, cache), i);
  }

  /** The report `processSections` sends before section `i` of `n`: `i/n*100` percent of its section, and the section's title. */
  function SectionReport(ss: seq<ProgressSection>, index: int, i: nat, n: nat, title: string): ProgressEvent
    requires i < n && TotalWeight(ss) > 0.0
  {
    ProgressEvent(SectionProgress(ss, index, ProgressBefore(i, n)), SectionMessage(i, n, title))
  }

  /** The reports before the first `m` of `sections`, in order; none without a bus. */
  function SectionReports(ss: seq<ProgressSection>, index: int, sections: seq<DocumentParser.Section>, m: nat, bus: bool)
    : (events: seq<ProgressEvent>)
    requires m <= |sections| && TotalWeight(ss) > 0.0
    ensures |events| == if bus then m else 0
  {
    if !bus then []
    else seq(m, k requires 0 <= k < m => SectionReport(ss, index, k, |sections|, sections[k].title))
  }

  lemma SectionReportsSnoc(ss: seq<ProgressSection>, index: int, sections: seq<DocumentParser.Section>, m: nat, bus: bool)
    requires m < |sections| && TotalWeight(ss) > 0.0
    ensures SectionReports(ss, index, sections, m + 1, bus)
      == SectionReports(ss, index, sections, m, bus)
         + (if bus then [SectionReport(ss, index, m, |sections|, sections[m].title)] else [])
  {
  }

  /** The progress report before section `i` of `n`: exactly one event when there is a bus, none otherwise. */
  method ReportSection(progress: ProgressManager, index: int, i: nat, n: nat, title: string, bus: bool)
    requires i < n && NonNegativeWeights(progress.sections) && TotalWeight(progress.sections) > 0.0
    modifies progress
    ensures progress.sections == old(progress.sections)
    ensures progress.events == old(progress.events) + (if bus then [SectionReport(progress.sections, index, i, n, title)] else [])
  {
    var p := ProgressBefore(i, n);
    var message := SectionMessage(i, n, title);
    assert message[0] == 'P';
    var _ := progress.UpdateSection(index, p, message, bus);
  }

  lemma TotalWeightSnoc(ss: seq<ProgressSection>, s: ProgressSection)
    ensures TotalWeight(ss + [s]) == TotalWeight(ss) + s.weight
  {
    WeightOfFirstPrefix(ss, [s], |ss|);
  }

  lemma {:induction false} WeightOfFirstPrefix(a: seq<ProgressSection>, b: seq<ProgressSection>, n: nat)
    requires n <= |a|
    ensures WeightOfFirst(a + b, n) == WeightOfFirst(a, n)
  {
    if n > 0 {
      WeightOfFirstPrefix(a, b, n - 1);
      assert (a + b)[n - 1] == a[n - 1];
    }
  }

  /** Adding a section of positive weight to non-negative ones gives a positive total. */
  lemma AddedSectionMakesTotalPositive(ss: seq<ProgressSection>, s: ProgressSection)
    requires NonNegativeWeights(ss) && s.weight > 0.0
    ensures NonNegativeWeights(ss + [s]) && TotalWeight(ss + [s]) > 0.0
  {
    WeightOfFirstBounds(ss, |ss|, |ss|);
    TotalWeightSnoc(ss, s);
  }

  /** One iteration of `processSections`: the progress report, then the section's documents. */
  method ProcessSection(section: DocumentParser.Section, i: nat, n: nat, progressIndex: int,
                        tools: Tools, outputDir: string, cache: DocumentCache, progress: ProgressManager, bus: bool)
    returns (r: Result<PdfPlan.MergeSection, MergeError>)
    requires i < n && NonNegativeWeights(progress.sections) && TotalWeight(progress.sections) > 0.0
    modifies progress
    ensures r == SectionEntry(section, tools, outputDir, cache)
    ensures progress.sections == old(progress.sections)
    ensures progress.events
      == old(progress.events) + (if bus then [SectionReport(progress.sections, progressIndex, i, n, section.title)] else [])
  {
    ReportSection(progress, progressIndex, i, n, section.title, bus);
    var sectionPdfs := ProcessDocs(section.docs, tools, outputDir, cache);
    if sectionPdfs.Failure? {
      return Failure(sectionPdfs.error);
    }
    return Success(PdfPlan.MergeSection(section.title, sectionPdfs.value, []));
  }

  /**
   * `processSections`: registers its progress section of weight 40, reports before each
   * section and collects the merge list; the first failure stops it, after the report
   * for the failing section.
   */
  method ProcessSections(sections: seq<DocumentParser.Section>, tools: Tools, outputDir: string, cache: DocumentCache,
                         progress: ProgressManager, bus: bool)
    returns (r: Result<seq<PdfPlan.MergeSection>, MergeError>)
    requires NonNegativeWeights(progress.sections)
    modifies progress
    ensures r == MergeList(sections, tools, outputDir, cache)
    ensures progress.sections == old(progress.sections) + [ProgressSection("Processing Sections", 40.0)]
    ensures TotalWeight(progress.sections) > 0.0
    ensures r.Success? ==>
      progress.events == old(progress.events) + SectionReports(progress.sections, |old(progress.sections)|, sections, |sections|, bus)
    ensures r.Failure? ==>
      exists m :: (0 <= m < |sections|
        && SectionEntry(sections[m], tools, outputDir, cache).Failure?
        && (forall k :: 0 <= k < m ==> SectionEntry(sections[k], tools, outputDir, cache).Success?)
        && progress.events == old(progress.events) + SectionReports(progress.sections, |old(progress.sections)|, sections, m + 1, bus))
  {
    AddedSectionMakesTotalPositive(progress.sections, ProgressSection("Processing Sections", 40.0));
    var sectionProgressIndex := progress.AddSection("Processing Sections", 40.0);
    ghost var ss := progress.sections;
    ghost var before := old(progress.events);
    var mergeList: seq<PdfPlan.MergeSection> := [];
    var i := 0;
    while i < |sections|
      invariant 0 <= i <= |sections| && |mergeList| == i
      invariant SectionsDone(sections, mergeList, tools, outputDir, cache)
      invariant progress.sections == ss && NonNegativeWeights(ss) && TotalWeight(ss) > 0.0
      invariant progress.events == before + SectionReports(ss, sectionProgressIndex, sections, i, bus)
    {
      ghost var sofar := progress.events;
      var entry := ProcessSection(sections[i], i, |sections|, sectionProgressIndex, tools, outputDir, cache, progress, bus);
      SectionReportsSnoc(ss, sectionProgressIndex, sections, i, bus);
      AppendAssoc(before, SectionReports(ss, sectionProgressIndex, sections, i, bus),
                  if bus then [SectionReport(ss, sectionProgressIndex, i, |sections|, sections[i].title)] else []);
      if entry.Failure? {
        MergeListFirstFailure(sections, tools, outputDir, cache, i);
        return Failure(entry.error);
      }
      SectionsDoneSnoc(sections, mergeList, entry.value, tools, outputDir, cache);
      mergeList := mergeList + [entry.value];
      i := i + 1;
    }
    MergeListOfSuccesses(sections, tools, outputDir, cache, mergeList);
    return Success(mergeList);
  }
}

=== FILE: node_path.dfy ===
/**
 * The parts of Node's POSIX `path` module the conversion code relies on, simplified:
 * `resolve` puts a relative path after the working directory without collapsing `.`,
 * `..` or repeated separators, `join` inserts one separator, and `basename`, `extname`
 * and `dirname` look at the last component once trailing separators are dropped.
 */
module NodePath {
  import opened Wrappers
  import opened Text

  /** Index of the last occurrence of `c` in `s`. */
  function LastIndexOf(s: string, c: char): (r: Option<nat>)
    ensures r.Some? ==> r.value < |s| && s[r.value] == c && forall k :: r.value < k < |s| ==> s[k] != c
    ensures r.None? ==> forall k :: 0 <= k < |s| ==> s[k] != c
  {
    if s == [] then None
    else if s[|s| - 1] == c then Some(|s| - 1)
    else LastIndexOf(s[..|s| - 1], c)
  }

  /** `p` without its trailing separators (a lone root separator is kept). */
  function DropTrailingSlashes(p: string): (q: string)
    ensures |q| <= |p| && q == p[..|q|]
    ensures |q| > 1 ==> q[|q| - 1] != '/'
    ensures |p| > 0 ==> |q| > 0
  {
    if |p| > 1 && p[|p| - 1] == '/' then DropTrailingSlashes(p[..|p| - 1]) else p
  }

  /** Only separators are dropped. */
  lemma {:induction false} DroppedAreSlashes(p: string)
    ensures forall k :: |DropTrailingSlashes(p)| <= k < |p| ==> p[k] == '/'
  {
    if |p| > 1 && p[|p| - 1] == '/' {
      DroppedAreSlashes(p[..|p| - 1]);
    }
  }

  /** `path.basename(p)`: the last component, without separators. */
  function Basename(p: string): (b: string)
    ensures '/' !in b
  {
    LastComponent(DropTrailingSlashes(p))
  }

  /** What follows the last separator of `q`; nothing for the root itself. */
  function LastComponent(q: string): (b: string)
    ensures '/' !in b
  {
    if q == "/" then ""
    else match LastIndexOf(q, '/')
      case None => q
      case Some(i) =>
        var b := q[i + 1..];
        assert '/' !in b by {
          forall k | 0 <= k < |b| ensures b[k] != '/' {
            assert b[k] == q[i + 1 + k];
          }
        }
        b
  }

  /**
   * The last component is the longest suffix without a separator: it ends `q` and is
   * preceded by a separator whenever it is not all of `q`.
   */
  lemma LastComponentIsSuffix(q: string)
    ensures var b := LastComponent(q);
      EndsWith(q, b) && (|b| < |q| ==> q[|q| - |b| - 1] == '/')
  {
    if q != "/" && LastIndexOf(q, '/').None? {
      assert q[|q| - |q|..] == q;
    }
  }

  /**
   * The base name is what follows the last separator once trailing separators are
   * dropped: it ends that path and a separator precedes it unless it is the whole path.
   */
  lemma {:induction false} BasenameAfterLastSeparator(p: string)
    ensures var q := DropTrailingSlashes(p);
      var b := Basename(p);
      EndsWith(q, b) && (|b| < |q| ==> q[|q| - |b| - 1] == '/')
  {
    LastComponentIsSuffix(DropTrailingSlashes(p));
  }

  /**
   * `path.extname(p)`: from the last `.` of the last component to its end; empty when
   * the component has no dot, when its last dot is its first character (`.bashrc`), or
   * when it is `..`.
   */
  function Extname(p: string): string {
    var name := Basename(p);
    match LastIndexOf(name, '.')
    case None => ""
    case Some(d) => if d == 0 || name == ".." then "" else name[d..]
  }

  /** `path.basename(p, path.extname(p))`: the last component without its extension. */
  function Stem(p: string): string {
    var name := Basename(p);
    name[..|name| - |Extname(p)|]
  }

  /** A file name splits into a non-empty stem and an extension that is empty or starts with its last dot. */
  lemma StemAndExtension(p: string)
    ensures Stem(p) + Extname(p) == Basename(p)
    ensures Extname(p) != "" ==> Extname(p)[0] == '.' && Stem(p) != "" && '.' !in Extname(p)[1..]
  {
    var name := Basename(p);
    match LastIndexOf(name, '.')
    case None =>
      assert Extname(p) == "";
      assert Stem(p) == name[..|name|] == name;
    case Some(d) =>
      if d != 0 && name != ".." {
        assert Extname(p) == name[d..];
        SplitAtLastDot(name, d);
      } else {
        assert Extname(p) == "";
        assert Stem(p) == name[..|name|] == name;
      }
  }

  /** Splitting a name at its last dot `d > 0`: a non-empty stem, and an extension that is the dot and no other. */
  lemma SplitAtLastDot(name: string, d: nat)
    requires 0 < d < |name| && name[d] == '.' && forall k :: d < k < |name| ==> name[k] != '.'
    ensures name[..|name| - |name[d..]|] == name[..d] && name[..d] + name[d..] == name
    ensures name[d..][0] == '.' && '.' !in name[d..][1..]
  {
    var ext := name[d..];
    assert |name| - |ext| == d;
    assert forall k :: 0 <= k < |ext[1..]| ==> ext[1..][k] == name[d + 1 + k];
  }

  /** `path.join(dir, name)` for a directory and a plain file name. */
  function Join(dir: string, name: string): string {
    if dir == "" then name else if EndsWith(dir, "/") then dir + name else dir + "/" + name
  }

  /**
   * A joined path is the directory, at most one added character, then the name, with a
   * separator just before the name whenever the directory is not empty.
   */
  lemma JoinShape(dir: string, name: string)
    ensures var r := Join(dir, name);
      StartsWith(r, dir) && EndsWith(r, name)
      && |dir| + |name| <= |r| <= |dir| + 1 + |name|
      && (dir != "" ==> r[|r| - |name| - 1] == '/')
  {
    var r := Join(dir, name);
    assert r[|r| - |name|..] == name;
    assert r[..|dir|] == dir;
  }

  predicate IsAbsolute(p: string) {
    StartsWith(p, "/")
  }

  /** `path.resolve(p)` against the working directory `cwd`. */
  function Resolve(cwd: string, p: string): string {
    if IsAbsolute(p) then p else if p == "" then cwd else cwd + "/" + p
  }

  /** Resolving gives an absolute path, and resolving again changes nothing. */
  lemma ResolveIsAbsolute(cwd: string, p: string)
    requires IsAbsolute(cwd)
    ensures IsAbsolute(Resolve(cwd, p))
    ensures Resolve(cwd, Resolve(cwd, p)) == Resolve(cwd, p)
  {
    if !IsAbsolute(p) && p != "" {
      assert (cwd + "/" + p)[..1] == cwd[..1];
    }
  }

  /** `path.dirname(p)`: everything before the last separator. */
  function Dirname(p: string): string {
    var q := DropTrailingSlashes(p);
    match LastIndexOf(q, '/')
    case None => "."
    case Some(i) => if i == 0 then "/" else q[..i]
  }
}

=== FILE: pdf_plan.dfy ===
/**
 * The integer bookkeeping behind merging sections into one PDF: which sections are
 * main sections, the page plan the table of contents (ToC) displays, the pages the
 * merge appends, the ToC layout, the link targets and the overlay requests. These
 * functions are the specification the methods of `PdfProcessing` are proved against.
 */
module PdfPlan {
  import opened Wrappers
  import opened Text
  import opened SectionPatterns

  /** The files the merge can read: an existing PDF and its page count. A path that is absent does not exist. */
  type FileSystem = map<string, nat>

  /** Pages a file contributes: a missing file is skipped, so it contributes none. */
  function PagesOf(fs: FileSystem, path: string): nat {
    if path in fs then fs[path] else 0
  }

  datatype PdfRef = PdfRef(path: string, fitToPage: bool)

  datatype SubSection = SubSection(title: string, pdfs: seq<PdfRef>)

  /** One entry of the merge list. `subSections` empty stands for the property being absent. */
  datatype MergeSection = MergeSection(title: string, pdfs: seq<PdfRef>, subSections: seq<SubSection>)

  /** The merge lists the section mapping produces never carry subsections. */
  predicate Flat(ms: seq<MergeSection>) {
    forall i :: 0 <= i < |ms| ==> ms[i].subSections == []
  }

  function PdfPages(pdfs: seq<PdfRef>, fs: FileSystem): nat {
    if pdfs == [] then 0 else PagesOf(fs, pdfs[0].path) + PdfPages(pdfs[1..], fs)
  }

  /** 1 for a main section (its separator page), 0 otherwise. */
  function SeparatorCount(title: string): nat {
    if IsMainTitle(title) then 1 else 0
  }

  /** Pages a section adds to the merged document: its separator, if main, and its content. */
  function SectionSize(s: MergeSection, fs: FileSystem): nat {
    SeparatorCount(s.title) + PdfPages(s.pdfs, fs)
  }

  function TotalPages(ms: seq<MergeSection>, fs: FileSystem): nat {
    if ms == [] then 0 else SectionSize(ms[0], fs) + TotalPages(ms[1..], fs)
  }

  function MainCount(ms: seq<MergeSection>): nat {
    if ms == [] then 0 else SeparatorCount(ms[0].title) + MainCount(ms[1..])
  }

  function ContentPages(ms: seq<MergeSection>, fs: FileSystem): nat {
    if ms == [] then 0 else PdfPages(ms[0].pdfs, fs) + ContentPages(ms[1..], fs)
  }

  /** The page total the merge computes first: content pages of existing files plus one separator per main section. */
  lemma {:induction false} TotalIsContentPlusSeparators(ms: seq<MergeSection>, fs: FileSystem)
    ensures TotalPages(ms, fs) == ContentPages(ms, fs) + MainCount(ms)
  {
    if ms != [] {
      TotalIsContentPlusSeparators(ms[1..], fs);
    }
  }

  lemma {:induction false} TotalPagesAppend(a: seq<MergeSection>, b: seq<MergeSection>, fs: FileSystem)
    ensures TotalPages(a + b, fs) == TotalPages(a, fs) + TotalPages(b, fs)
  {
    if a == [] {
      assert a + b == b;
    } else {
      assert (a + b)[1..] == a[1..] + b;
      TotalPagesAppend(a[1..], b, fs);
    }
  }

  // ---------------------------------------------------------------------------
  // The page plan shown in the table of contents

  /** Page numbers the ToC assigns to a section; pages count from 1 after the ToC. */
  datatype PageInfo = PageInfo(title: string, isMain: bool, startPage: int, contentPage: int, endPage: int, pageCount: nat)

  function SectionInfo(s: MergeSection, fs: FileSystem, current: int): PageInfo {
    var main := IsMainTitle(s.title);
    var count := PdfPages(s.pdfs, fs);
    PageInfo(s.title, main, current, if main then current + 1 else current,
             current + count - (if main then 0 else 1), count)
  }

  function SubPagesTotal(subs: seq<SubSection>, fs: FileSystem): nat {
    if subs == [] then 0 else PdfPages(subs[0].pdfs, fs) + SubPagesTotal(subs[1..], fs)
  }

  /** Plan entries of subsections: they start on the parent's start page and run on from there. */
  function SubInfos(subs: seq<SubSection>, fs: FileSystem, current: int): seq<PageInfo> {
    if subs == [] then []
    else
      var count := PdfPages(subs[0].pdfs, fs);
      [PageInfo(subs[0].title, false, current, current, current + count - 1, count)]
      + SubInfos(subs[1..], fs, current + count)
  }

  /** The whole plan, starting at page `current`. */
  function PageInfos(ms: seq<MergeSection>, fs: FileSystem, current: int): seq<PageInfo> {
    if ms == [] then []
    else
      [SectionInfo(ms[0], fs, current)] + SubInfos(ms[0].subSections, fs, current)
      + PageInfos(ms[1..], fs, current + SubPagesTotal(ms[0].subSections, fs) + SectionSize(ms[0], fs))
  }

  lemma {:induction false} SubInfosLength(subs: seq<SubSection>, fs: FileSystem, current: int)
    ensures |SubInfos(subs, fs, current)| == |subs|
  {
    if subs != [] {
      SubInfosLength(subs[1..], fs, current + PdfPages(subs[0].pdfs, fs));
    }
  }

  /** Every section has a plan entry at or after its own index, so `info[i]` always exists. */
  lemma {:induction false} PageInfosCoverSections(ms: seq<MergeSection>, fs: FileSystem, current: int)
    ensures |PageInfos(ms, fs, current)| >= |ms|
    ensures Flat(ms) ==> |PageInfos(ms, fs, current)| == |ms|
  {
    if ms != [] {
      var next := current + SubPagesTotal(ms[0].subSections, fs) + SectionSize(ms[0], fs);
      SubInfosLength(ms[0].subSections, fs, current);
      PageInfosCoverSections(ms[1..], fs, next);
      var subs, tail := SubInfos(ms[0].subSections, fs, current), PageInfos(ms[1..], fs, next);
      assert PageInfos(ms, fs, current) == [SectionInfo(ms[0], fs, current)] + subs + tail;
      if Flat(ms) {
        assert ms[0].subSections == [];
        assert Flat(ms[1..]);
      }
    }
  }

  /**
   * For a flat list, section `i` starts right after everything before it: page
   * `current` plus the separators and content of the earlier sections.
   */
  lemma FlatUnfold(ms: seq<MergeSection>, fs: FileSystem, current: int)
    requires Flat(ms) && ms != []
    ensures Flat(ms[1..])
    ensures PageInfos(ms, fs, current)
         == [SectionInfo(ms[0], fs, current)] + PageInfos(ms[1..], fs, current + SectionSize(ms[0], fs))
  {
    var subs := ms[0].subSections;
    assert subs == [];
    assert SubInfos(subs, fs, current) == [] && SubPagesTotal(subs, fs) == 0;
    var head, rest := [SectionInfo(ms[0], fs, current)], PageInfos(ms[1..], fs, current + SectionSize(ms[0], fs));
    assert PageInfos(ms, fs, current) == head + [] + rest;
    assert head + [] == head;
  }

  lemma TotalPagesCons(ms: seq<MergeSection>, i: nat, fs: FileSystem)
    requires 0 < i <= |ms|
    ensures TotalPages(ms[..i], fs) == SectionSize(ms[0], fs) + TotalPages(ms[1..][..i - 1], fs)
  {
    assert ms[..i][1..] == ms[1..][..i - 1];
  }

  /** The plan of a list without subsections: entry `k` is section `k`'s, starting after the sections before it. */
  function FlatInfos(ms: seq<MergeSection>, fs: FileSystem, current: int): (r: seq<PageInfo>)
    ensures |r| == |ms|
  {
    seq(|ms|, k requires 0 <= k < |ms| => SectionInfo(ms[k], fs, current + TotalPages(ms[..k], fs)))
  }

  /** The flat plan of a non-empty list is its first entry followed by the flat plan of the rest. */
  lemma FlatInfosCons(ms: seq<MergeSection>, fs: FileSystem, current: int)
    requires ms != []
    ensures FlatInfos(ms, fs, current)
         == [SectionInfo(ms[0], fs, current)] + FlatInfos(ms[1..], fs, current + SectionSize(ms[0], fs))
  {
    var next := current + SectionSize(ms[0], fs);
    var lhs, rest := FlatInfos(ms, fs, current), FlatInfos(ms[1..], fs, next);
    var rhs := [SectionInfo(ms[0], fs, current)] + rest;
    assert ms[..0] == [];
    forall k | 1 <= k < |ms|
      ensures lhs[k] == rhs[k]
    {
      FlatInfosShift(ms, fs, current, k);
      assert rhs[k] == rest[k - 1];
    }
  }

  lemma FlatInfosShift(ms: seq<MergeSection>, fs: FileSystem, current: int, k: nat)
    requires 1 <= k < |ms|
    ensures FlatInfos(ms, fs, current)[k] == FlatInfos(ms[1..], fs, current + SectionSize(ms[0], fs))[k - 1]
  {
    var tail := ms[1..];
    TotalPagesCons(ms, k, fs);
    assert tail[k - 1] == ms[k];
    assert current + TotalPages(ms[..k], fs) == current + SectionSize(ms[0], fs) + TotalPages(tail[..k - 1], fs);
  }

  lemma {:induction false} FlatInfosArePageInfos(ms: seq<MergeSection>, fs: FileSystem, current: int)
    requires Flat(ms)
    ensures PageInfos(ms, fs, current) == FlatInfos(ms, fs, current)
  {
    if ms != [] {
      FlatUnfold(ms, fs, current);
      FlatInfosArePageInfos(ms[1..], fs, current + SectionSize(ms[0], fs));
      FlatInfosCons(ms, fs, current);
    } else {
      assert FlatInfos(ms, fs, current) == [];
    }
  }

  lemma FlatPageInfoAt(ms: seq<MergeSection>, fs: FileSystem, current: int, i: nat)
    requires Flat(ms) && i < |ms|
    ensures |PageInfos(ms, fs, current)| == |ms|
    ensures PageInfos(ms, fs, current)[i] == SectionInfo(ms[i], fs, current + TotalPages(ms[..i], fs))
  {
    FlatInfosArePageInfos(ms, fs, current);
  }

  /**
   * The plan of a flat list: the first section starts on page 1, a main section's
   * content starts after its separator, its last page is start + pageCount (start +
   * pageCount - 1 for a subsection), and the next section starts on the page after
   * it, with no gap and no overlap.
   */
  lemma FlatPlanIsContiguous(ms: seq<MergeSection>, fs: FileSystem, i: nat)
    requires Flat(ms) && i < |ms|
    ensures |PageInfos(ms, fs, 1)| == |ms|
    ensures var info := PageInfos(ms, fs, 1);
      && (i == 0 ==> info[i].startPage == 1)
      && info[i].title == ms[i].title
      && info[i].isMain == IsMainTitle(ms[i].title)
      && info[i].pageCount == PdfPages(ms[i].pdfs, fs)
      && info[i].contentPage == info[i].startPage + SeparatorCount(ms[i].title)
      && info[i].endPage == info[i].startPage + SectionSize(ms[i], fs) - 1
      && info[i].endPage >= info[i].contentPage - 1
      && (i + 1 < |ms| ==> info[i + 1].startPage == info[i].endPage + 1
                           && info[i + 1].startPage == info[i].startPage + info[i].pageCount + SeparatorCount(ms[i].title))
      && (i + 1 == |ms| ==> info[i].endPage == TotalPages(ms, fs))
  {
    FlatEntryFields(ms, fs, i);
    TotalPagesSnoc(ms, i, fs);
    if i == 0 {
      assert ms[..0] == [];
    }
    if i + 1 < |ms| {
      FlatEntryFields(ms, fs, i + 1);
    } else {
      assert ms[..i + 1] == ms;
    }
  }

  /** The fields of entry `i` of a flat plan. */
  lemma FlatEntryFields(ms: seq<MergeSection>, fs: FileSystem, i: nat)
    requires Flat(ms) && i < |ms|
    ensures |PageInfos(ms, fs, 1)| == |ms|
    ensures var e := PageInfos(ms, fs, 1)[i];
      var start := 1 + TotalPages(ms[..i], fs);
      e.title == ms[i].title && e.isMain == IsMainTitle(ms[i].title) && e.startPage == start
      && e.pageCount == PdfPages(ms[i].pdfs, fs)
      && e.contentPage == start + SeparatorCount(ms[i].title)
      && e.endPage == start + SectionSize(ms[i], fs) - 1
  {
    FlatPageInfoAt(ms, fs, 1, i);
    SectionInfoFields(ms[i], fs, 1 + TotalPages(ms[..i], fs));
  }

  lemma SectionInfoFields(s: MergeSection, fs: FileSystem, current: int)
    ensures var info := SectionInfo(s, fs, current);
      info.title == s.title && info.isMain == IsMainTitle(s.title) && info.startPage == current
      && info.pageCount == PdfPages(s.pdfs, fs)
      && info.contentPage == current + SeparatorCount(s.title)
      && info.endPage == current + SectionSize(s, fs) - 1
  {
  }

  lemma TotalPagesSnoc(ms: seq<MergeSection>, i: nat, fs: FileSystem)
    requires i < |ms|
    ensures TotalPages(ms[..i + 1], fs) == TotalPages(ms[..i], fs) + SectionSize(ms[i], fs)
  {
    assert ms[..i + 1] == ms[..i] + [ms[i]];
    TotalPagesAppend(ms[..i], [ms[i]], fs);
    assert TotalPages([ms[i]], fs) == SectionSize(ms[i], fs) by {
      assert [ms[i]][1..] == [];
    }
  }

  /**
   * The subsection branch, kept as written: a subsection starts on its parent's start
   * page (the parent's separator page when the parent is main), and its extra plan
   * entry shifts every later section's entry, so entry 1 describes the subsection and
   * not the second section.
   */
  lemma SubsectionsOverlapAndShiftThePlan()
    ensures var a := PdfRef("a.pdf", false);
      var b := PdfRef("b.pdf", false);
      var fs := map["a.pdf" := 2, "b.pdf" := 3];
      var ms := [MergeSection("1. Intro", [a], [SubSection("1.1 Detail", [b])]),
                 MergeSection("2. Spec", [a], [])];
      var info := PageInfos(ms, fs, 1);
      |info| == 3 && info[1].title == "1.1 Detail" && info[1].startPage == info[0].startPage == 1
      && info[2].title == "2. Spec" && info[2].startPage == 7
  {
    var a := PdfRef("a.pdf", false);
    var b := PdfRef("b.pdf", false);
    var fs := map["a.pdf" := 2, "b.pdf" := 3];
    assert PdfPages([a], fs) == 2 by { assert [a][1..] == []; }
    assert PdfPages([b], fs) == 3 by { assert [b][1..] == []; }
    var subs := [SubSection("1.1 Detail", [b])];
    assert subs[1..] == [];
    assert SubPagesTotal(subs, fs) == 3;
    assert IsMainTitle("1. Intro") && IsMainTitle("2. Spec") by {
      assert SkipDigits("1. Intro", 0) == 1;
      assert SkipDigits("2. Spec", 0) == 1;
    }
    var ms := [MergeSection("1. Intro", [a], subs), MergeSection("2. Spec", [a], [])];
    assert ms[1..] == [MergeSection("2. Spec", [a], [])];
    assert ms[1..][1..] == [];
    assert SectionSize(ms[0], fs) == 3;
    assert SubInfos(subs, fs, 1) == [PageInfo("1.1 Detail", false, 1, 1, 3, 3)] + SubInfos([], fs, 4);
    assert PageInfos(ms[1..], fs, 7) == [SectionInfo(ms[1], fs, 7)] + SubInfos([], fs, 7) + PageInfos([], fs, 10);
    assert PageInfos(ms, fs, 1) == [SectionInfo(ms[0], fs, 1)] + SubInfos(subs, fs, 1) + PageInfos(ms[1..], fs, 7);
  }

  // ---------------------------------------------------------------------------
  // The pages the merge appends after the ToC

  datatype Link = Link(title: string, target: int)

  datatype Bookmark = Bookmark(title: string, target: int)

  /** A page of the merged document, as the model records it. */
  datatype Page =
    | TocPage(continued: bool, links: seq<Link>)
    | SeparatorPage(title: string)
    | ContentPage(title: string, path: string, sourceIndex: nat, fitToPage: bool)

  /** One new page per page of an existing file, in source order; none for a missing file. */
  function FileContent(title: string, pdf: PdfRef, fs: FileSystem): (r: seq<Page>)
    ensures |r| == PagesOf(fs, pdf.path)
  {
    seq(PagesOf(fs, pdf.path), k requires 0 <= k => ContentPage(title, pdf.path, k, pdf.fitToPage))
  }

  function PdfContent(title: string, pdfs: seq<PdfRef>, fs: FileSystem): seq<Page> {
    if pdfs == [] then [] else FileContent(title, pdfs[0], fs) + PdfContent(title, pdfs[1..], fs)
  }

  /** The separator page a main section gets before its content. */
  function SeparatorPages(title: string): (r: seq<Page>)
    ensures |r| == SeparatorCount(title)
  {
    if IsMainTitle(title) then [SeparatorPage(title)] else []
  }

  function SectionPages(s: MergeSection, fs: FileSystem): seq<Page> {
    SeparatorPages(s.title) + PdfContent(s.title, s.pdfs, fs)
  }

  /** Everything appended after the ToC pages, in merge-list order. */
  function Assembled(ms: seq<MergeSection>, fs: FileSystem): seq<Page> {
    if ms == [] then [] else SectionPages(ms[0], fs) + Assembled(ms[1..], fs)
  }

  lemma {:induction false} PdfContentLength(title: string, pdfs: seq<PdfRef>, fs: FileSystem)
    ensures |PdfContent(title, pdfs, fs)| == PdfPages(pdfs, fs)
  {
    if pdfs != [] {
      PdfContentLength(title, pdfs[1..], fs);
    }
  }

  /** The merge appends exactly as many pages as it counted beforehand. */
  lemma {:induction false} AssembledLength(ms: seq<MergeSection>, fs: FileSystem)
    ensures |Assembled(ms, fs)| == TotalPages(ms, fs)
  {
    if ms != [] {
      PdfContentLength(ms[0].title, ms[0].pdfs, fs);
      AssembledLength(ms[1..], fs);
    }
  }

  lemma {:induction false} AssembledAppend(a: seq<MergeSection>, b: seq<MergeSection>, fs: FileSystem)
    ensures Assembled(a + b, fs) == Assembled(a, fs) + Assembled(b, fs)
  {
    if a == [] {
      assert a + b == b;
    } else {
      var ab := a + b;
      assert ab[0] == a[0] && ab[1..] == a[1..] + b;
      AssembledAppend(a[1..], b, fs);
      AppendAssoc(SectionPages(a[0], fs), Assembled(a[1..], fs), Assembled(b, fs));
    }
  }

  /**
   * In a flat list, the pages numbered startPage..endPage by the plan are exactly the
   * section's own pages in the assembled document (page p is element p - 1).
   */
  lemma PlanMatchesAssembly(ms: seq<MergeSection>, fs: FileSystem, i: nat)
    requires Flat(ms) && i < |ms|
    ensures |PageInfos(ms, fs, 1)| == |ms| && |Assembled(ms, fs)| == TotalPages(ms, fs)
    ensures var info := PageInfos(ms, fs, 1)[i];
      1 <= info.startPage <= info.endPage + 1 <= TotalPages(ms, fs) + 1
      && Assembled(ms, fs)[info.startPage - 1..info.endPage] == SectionPages(ms[i], fs)
  {
    FlatPageInfoAt(ms, fs, 1, i);
    AssembledLength(ms, fs);
    AssembledAround(ms, fs, i);
    AssembledLength(ms[..i], fs);
    PdfContentLength(ms[i].title, ms[i].pdfs, fs);
    MiddleSlice(Assembled(ms[..i], fs), SectionPages(ms[i], fs), Assembled(ms[i + 1..], fs));
  }

  /** The assembled pages around section `i`: what comes before it, its own pages, and what follows. */
  lemma AssembledAround(ms: seq<MergeSection>, fs: FileSystem, i: nat)
    requires i < |ms|
    ensures Assembled(ms, fs) == Assembled(ms[..i], fs) + SectionPages(ms[i], fs) + Assembled(ms[i + 1..], fs)
  {
    var before, after := ms[..i], ms[i + 1..];
    assert ms == before + [ms[i]] + after;
    AssembledAppend(before + [ms[i]], after, fs);
    AssembledAppend(before, [ms[i]], fs);
    AssembledSingle(ms[i], fs);
  }

  lemma AssembledSingle(s: MergeSection, fs: FileSystem)
    ensures Assembled([s], fs) == SectionPages(s, fs)
  {
    assert [s][1..] == [];
  }

  lemma MiddleSlice<T>(a: seq<T>, b: seq<T>, c: seq<T>)
    ensures (a + b + c)[|a|..|a| + |b|] == b
    ensures b != [] ==> (a + b + c)[|a|] == b[0]
  {
  }

  // ---------------------------------------------------------------------------
  // ToC layout. Heights are in hundredths of a point.

  const A4Height: int := 84189
  const TopMargin: int := 5000
  const BottomMargin: int := 5000
  const LineHeight: int := 2000
  /** y of the first entry on the first ToC page, below the 24-pt title. */
  const FirstPageTop: int := A4Height - TopMargin - 4000
  /** y of the first entry on a continuation page, below the 18-pt title. */
  const ContinuedPageTop: int := A4Height - TopMargin - 3000

  /** The layout state: ToC pages opened so far and the y cursor. */
  datatype Cursor = Cursor(pages: nat, y: int)

  /** Opens the first page before the first entry, and a new page when the next line would cross the bottom margin. */
  function Place(c: Cursor): Cursor {
    var c1 := if c.pages == 0 then Cursor(1, FirstPageTop) else c;
    if c1.y - LineHeight < BottomMargin then Cursor(c1.pages + 1, ContinuedPageTop) else c1
  }

  /** The layout state once `n` entries are placed. */
  function LayoutAfter(n: nat): Cursor {
    if n == 0 then Cursor(0, A4Height - TopMargin)
    else
      var p := Place(LayoutAfter(n - 1));
      Cursor(p.pages, p.y - LineHeight)
  }

  /** Number of ToC pages for `n` entries. */
  function TocPageCount(n: nat): nat {
    LayoutAfter(n).pages
  }

  /** Top y of ToC page `p`. */
  function PageTop(p: nat): int {
    if p == 0 then FirstPageTop else ContinuedPageTop
  }

  const EntriesPerPage: nat := 35

  lemma DivModStep(n: nat)
    requires n >= 1
    ensures (n - 1) % 35 == 34 ==> n / 35 == (n - 1) / 35 + 1 && n % 35 == 0
    ensures (n - 1) % 35 != 34 ==> n / 35 == (n - 1) / 35 && n % 35 == (n - 1) % 35 + 1
  {
  }

  /** After `n >= 1` entries, page (n-1)/35 is the last one and holds (n-1)%35 + 1 entries. */
  lemma {:induction false} LayoutClosedForm(n: nat)
    requires n >= 1
    ensures LayoutAfter(n) == Cursor((n - 1) / 35 + 1, PageTop((n - 1) / 35) - LineHeight * ((n - 1) % 35 + 1))
  {
    if n > 1 {
      LayoutClosedForm(n - 1);
      DivModStep(n - 1);
    }
  }

  /**
   * Entry `i` lands on ToC page i / 35 at y = top - 20 pt * (i % 35): the first
   * page starts at 841.89 - 90, the continuation pages at 841.89 - 80, and a page
   * holds 35 entries.
   */
  lemma EntrySlot(i: nat)
    ensures Place(LayoutAfter(i)) == Cursor(i / 35 + 1, PageTop(i / 35) - LineHeight * (i % 35))
    ensures LayoutAfter(i + 1).pages == i / 35 + 1
  {
    if i >= 1 {
      LayoutClosedForm(i);
      DivModStep(i);
    }
  }

  /** A new ToC page is opened for entry `i` exactly when `i` is a positive multiple of 35. */
  lemma NewPageEvery35(i: nat)
    ensures LayoutAfter(i).pages > 0 ==>
      (LayoutAfter(i).y - LineHeight < BottomMargin <==> i % 35 == 0)
  {
    if i >= 1 {
      LayoutClosedForm(i);
      DivModStep(i);
    }
  }

  /** No entries, no ToC page; otherwise ⌈n / 35⌉ pages. */
  lemma TocPageCountIsCeiling(n: nat)
    ensures TocPageCount(n) == (n + 34) / 35
  {
    if n >= 1 {
      LayoutClosedForm(n);
    }
  }

  lemma {:induction false} TocPagesGrow(i: nat, n: nat)
    requires i <= n
    ensures LayoutAfter(i).pages <= LayoutAfter(n).pages
    decreases n - i
  {
    if i < n {
      TocPagesGrow(i + 1, n);
    }
  }

  /** A ToC entry: the page it displays, the page its link targets, its indentation and its position. */
  datatype TocEntry = TocEntry(title: string, pageNumber: int, linkPageNumber: int, level: nat, indent: nat,
                               tocPageIndex: nat, yPosition: int)

  /** The entry for section `i`; both numbers are `info[i].startPage`, whatever that entry describes. */
  function EntryFor(ms: seq<MergeSection>, info: seq<PageInfo>, i: nat): TocEntry
    requires i < |ms| && i < |info|
  {
    var slot := Place(LayoutAfter(i));
    TocEntry(ms[i].title, info[i].startPage, info[i].startPage, TocLevel(ms[i].title), 20 * TocLevel(ms[i].title),
             slot.pages - 1, slot.y)
  }

  function Entries(ms: seq<MergeSection>, info: seq<PageInfo>, n: nat): (es: seq<TocEntry>)
    requires n <= |ms| && n <= |info|
    ensures |es| == n
  {
    if n == 0 then [] else Entries(ms, info, n - 1) + [EntryFor(ms, info, n - 1)]
  }

  /** Entry `i` of the list is the entry laid out for section `i`. */
  lemma {:induction false} EntriesAt(ms: seq<MergeSection>, info: seq<PageInfo>, n: nat, i: nat)
    requires n <= |ms| && n <= |info| && i < n
    ensures Entries(ms, info, n)[i] == EntryFor(ms, info, i)
  {
    var prefix := Entries(ms, info, n - 1);
    var last := EntryFor(ms, info, n - 1);
    assert Entries(ms, info, n) == prefix + [last];
    if i < n - 1 {
      EntriesAt(ms, info, n - 1, i);
      assert (prefix + [last])[i] == prefix[i];
    } else {
      assert (prefix + [last])[i] == last;
    }
  }

  /** Every entry lies on one of the ToC pages the layout opened. */
  lemma EntriesOnTocPages(ms: seq<MergeSection>, info: seq<PageInfo>, n: nat)
    requires n <= |ms| && n <= |info|
    ensures forall i :: 0 <= i < n ==> Entries(ms, info, n)[i].tocPageIndex < TocPageCount(n)
  {
    forall i | 0 <= i < n ensures Entries(ms, info, n)[i].tocPageIndex < TocPageCount(n) {
      EntriesAt(ms, info, n, i);
      EntryBeforeNextPage(ms, info, i, n);
    }
  }

  /** Entry `i` is on a page the layout has opened once it is placed, and so once all `n` are. */
  lemma EntryBeforeNextPage(ms: seq<MergeSection>, info: seq<PageInfo>, i: nat, n: nat)
    requires i < n <= |ms| && n <= |info|
    ensures EntryFor(ms, info, i).tocPageIndex < TocPageCount(n)
  {
    var slot := Place(LayoutAfter(i));
    assert EntryFor(ms, info, i).tocPageIndex == slot.pages - 1;
    assert LayoutAfter(i + 1).pages == slot.pages;
    TocPagesGrow(i + 1, n);
  }

  /** Page index of a link or bookmark: the ToC pages come first and plan pages count from 1. */
  function LinkTarget(tocPages: nat, e: TocEntry): int {
    tocPages + e.linkPageNumber - 1
  }

  /** The link annotations on ToC page `k`, in entry order. */
  function LinksOn(es: seq<TocEntry>, k: nat, tocPages: nat): seq<Link> {
    if es == [] then []
    else
      var e := es[|es| - 1];
      LinksOn(es[..|es| - 1], k, tocPages) + (if e.tocPageIndex == k then [Link(e.title, LinkTarget(tocPages, e))] else [])
  }

  function Bookmarks(es: seq<TocEntry>, tocPages: nat): seq<Bookmark> {
    if es == [] then []
    else Bookmarks(es[..|es| - 1], tocPages) + [Bookmark(es[|es| - 1].title, LinkTarget(tocPages, es[|es| - 1]))]
  }

  /** The ToC pages once every entry's link is on its page. */
  function TocPages(es: seq<TocEntry>, count: nat): (r: seq<Page>)
    ensures |r| == count
  {
    seq(count, k requires 0 <= k => TocPage(k > 0, LinksOn(es, k, count)))
  }

  /** ToC pages before any link is added. */
  function BlankTocPages(count: nat): (r: seq<Page>)
    ensures |r| == count
  {
    seq(count, k => TocPage(k > 0, []))
  }

  /**
   * In a flat list, the link and the bookmark of entry `i` target the first page of
   * section `i` in the merged document: its separator page when it is a main
   * section. Only the ToC pages precede the assembled pages.
   */
  lemma LinksReachSections(ms: seq<MergeSection>, fs: FileSystem, i: nat, toc: seq<Page>)
    requires Flat(ms) && i < |ms| && |toc| == TocPageCount(|ms|)
    ensures |PageInfos(ms, fs, 1)| == |ms|
    ensures var info := PageInfos(ms, fs, 1);
      var doc := toc + Assembled(ms, fs);
      var target := LinkTarget(|toc|, EntryFor(ms, info, i));
      target == |toc| + TotalPages(ms[..i], fs)
      && EntryFor(ms, info, i).pageNumber == EntryFor(ms, info, i).linkPageNumber == info[i].startPage
      && (IsMainTitle(ms[i].title) ==> 0 <= target < |doc| && doc[target] == SeparatorPage(ms[i].title))
      && (SectionPages(ms[i], fs) != [] ==> 0 <= target < |doc| && doc[target] == SectionPages(ms[i], fs)[0])
  {
    FirstPageOfSection(ms, fs, i);
    EntryTarget(ms, PageInfos(ms, fs, 1), i, |toc|);
    SectionFirstPageInDoc(ms, fs, i, toc, LinkTarget(|toc|, EntryFor(ms, PageInfos(ms, fs, 1), i)));
  }

  lemma EntryTarget(ms: seq<MergeSection>, info: seq<PageInfo>, i: nat, T: nat)
    requires i < |ms| && i < |info|
    ensures EntryFor(ms, info, i).pageNumber == EntryFor(ms, info, i).linkPageNumber == info[i].startPage
    ensures LinkTarget(T, EntryFor(ms, info, i)) == T + info[i].startPage - 1
  {
  }

  lemma SectionFirstPageInDoc(ms: seq<MergeSection>, fs: FileSystem, i: nat, toc: seq<Page>, target: int)
    requires Flat(ms) && i < |ms|
    requires |PageInfos(ms, fs, 1)| == |ms| && target == |toc| + PageInfos(ms, fs, 1)[i].startPage - 1
    ensures IsMainTitle(ms[i].title)
            ==> 0 <= target < |toc + Assembled(ms, fs)| && (toc + Assembled(ms, fs))[target] == SeparatorPage(ms[i].title)
    ensures SectionPages(ms[i], fs) != []
            ==> 0 <= target < |toc + Assembled(ms, fs)| && (toc + Assembled(ms, fs))[target] == SectionPages(ms[i], fs)[0]
  {
    FirstPageOfSection(ms, fs, i);
    var s := PageInfos(ms, fs, 1)[i].startPage;
    var own := SectionPages(ms[i], fs);
    if IsMainTitle(ms[i].title) {
      assert own == [SeparatorPage(ms[i].title)] + PdfContent(ms[i].title, ms[i].pdfs, fs);
      assert own[0] == SeparatorPage(ms[i].title);
    }
    if own != [] {
      var all := Assembled(ms, fs);
      assert 0 <= s - 1 < |all| && all[s - 1] == own[0];
      IndexAfterPrefix(toc, all, s - 1);
      assert target == |toc| + (s - 1);
    }
  }

  /** Where section `i` of a flat list begins among the assembled pages. */
  lemma FirstPageOfSection(ms: seq<MergeSection>, fs: FileSystem, i: nat)
    requires Flat(ms) && i < |ms|
    ensures |PageInfos(ms, fs, 1)| == |ms|
    ensures var s := PageInfos(ms, fs, 1)[i].startPage;
      s == 1 + TotalPages(ms[..i], fs)
      && (SectionPages(ms[i], fs) != [] ==> s - 1 < |Assembled(ms, fs)| && Assembled(ms, fs)[s - 1] == SectionPages(ms[i], fs)[0])
  {
    FlatPageInfoAt(ms, fs, 1, i);
    AssembledAround(ms, fs, i);
    AssembledLength(ms[..i], fs);
    MiddleSlice(Assembled(ms[..i], fs), SectionPages(ms[i], fs), Assembled(ms[i + 1..], fs));
  }

  lemma ConsIndex<T>(all: seq<T>, head: T, rest: seq<T>, k: nat)
    requires all == [head] + rest && 0 < k <= |rest|
    ensures all[k] == rest[k - 1]
  {
  }

  lemma IndexAfterPrefix<T>(a: seq<T>, b: seq<T>, k: nat)
    requires k < |b|
    ensures (a + b)[|a| + k] == b[k]
  {
  }


  // ---------------------------------------------------------------------------
  // The nested-section summary handed to separator overlays

  datatype SubRef = SubRef(title: string, startPage: Option<int>, endPage: Option<int>)

  datatype NestedSection = NestedSection(title: string, isMain: bool, startPage: int, endPage: int, subSections: seq<SubRef>)

  /** `title.split('.')[0]`: the text before the first dot. */
  function BeforeFirstDot(title: string): (r: string)
    ensures StartsWith(title, r) && '.' !in r
    ensures r == title || (|r| < |title| && title[|r|] == '.')
  {
    match IndexOfChar(title, '.', 0)
    case None => title
    case Some(d) => title[..d]
  }

  /** For a main section title ("12. Intro") the text before the first dot is its leading number. */
  lemma MainTitleNumber(title: string)
    requires IsMainTitle(title)
    ensures var e := SkipDigits(title, 0);
      BeforeFirstDot(title) == title[..e] && |title[..e]| > 0 && AllDigits(title[..e])
  {
    var e := SkipDigits(title, 0);
    var r := BeforeFirstDot(title);
    assert title[e] == '.';
    assert forall k :: 0 <= k < e ==> IsDigit(title[k]) by {
      assert AllDigits(title[0..e]);
      forall k | 0 <= k < e ensures IsDigit(title[k]) {
        assert title[0..e][k] == title[k];
      }
    }
    assert |r| == e;
    assert title[0..e] == title[..e];
  }

  /** `info.find(x => x.title === title)`. */
  function FindInfo(info: seq<PageInfo>, title: string): (r: Option<PageInfo>)
    ensures r.Some? ==> r.value in info && r.value.title == title
    ensures r.None? ==> forall k :: 0 <= k < |info| ==> info[k].title != title
  {
    if info == [] then None
    else if info[0].title == title then Some(info[0])
    else FindInfo(info[1..], title)
  }

  /** Like `Array.prototype.find`, the entry found is the first one with the title. */
  lemma {:induction false} FindInfoIsFirst(info: seq<PageInfo>, title: string)
    ensures FindInfo(info, title).Some? ==>
      exists k :: 0 <= k < |info| && info[k] == FindInfo(info, title).value
        && forall j :: 0 <= j < k ==> info[j].title != title
  {
    if info != [] {
      if info[0].title == title {
        assert info[0] == FindInfo(info, title).value;
      } else {
        FindInfoIsFirst(info[1..], title);
        if FindInfo(info[1..], title).Some? {
          var k :| 0 <= k < |info[1..]| && info[1..][k] == FindInfo(info[1..], title).value
            && forall j :: 0 <= j < k ==> info[1..][j].title != title;
          assert forall j :: 0 <= j < k + 1 ==> info[j].title != title by {
            forall j | 0 <= j < k + 1 ensures info[j].title != title {
              if j > 0 { assert info[j] == info[1..][j - 1]; }
            }
          }
          assert info[k + 1] == FindInfo(info, title).value;
        }
      }
    }
  }

  /** Whether `sub` belongs under the main section titled `mainTitle`. */
  predicate IsSubOf(sub: string, mainTitle: string) {
    StartsWith(sub, BeforeFirstDot(mainTitle) + ".") && sub != mainTitle
  }

  function SubRefOf(info: seq<PageInfo>, title: string): SubRef {
    match FindInfo(info, title)
    case None => SubRef(title, None, None)
    case Some(p) => SubRef(title, Some(p.startPage), Some(p.endPage))
  }

  /** The sections of `ms` that belong under `mainTitle`, in list order. */
  function SubRefs(ms: seq<MergeSection>, info: seq<PageInfo>, mainTitle: string): seq<SubRef> {
    if ms == [] then []
    else (if IsSubOf(ms[0].title, mainTitle) then [SubRefOf(info, ms[0].title)] else [])
         + SubRefs(ms[1..], info, mainTitle)
  }

  function NestedFrom(ms: seq<MergeSection>, info: seq<PageInfo>, i: nat): seq<NestedSection>
    requires |info| >= |ms| && i <= |ms|
    decreases |ms| - i
  {
    if i == |ms| then []
    else (if info[i].isMain
          then [NestedSection(ms[i].title, info[i].isMain, info[i].startPage, info[i].endPage, SubRefs(ms, info, ms[i].title))]
          else [])
         + NestedFrom(ms, info, i + 1)
  }

  function NestedSections(ms: seq<MergeSection>, info: seq<PageInfo>): seq<NestedSection>
    requires |info| >= |ms|
  {
    NestedFrom(ms, info, 0)
  }

  function MainSections(ms: seq<MergeSection>): seq<MergeSection> {
    if ms == [] then []
    else (if IsMainTitle(ms[0].title) then [ms[0]] else []) + MainSections(ms[1..])
  }

  lemma NestedShift(ms: seq<MergeSection>, info: seq<PageInfo>, i: nat, n: NestedSection, m: MergeSection)
    requires |info| >= |ms|
    requires exists j :: i + 1 <= j < |ms| && ms[j] == m
               && n == NestedSection(ms[j].title, true, info[j].startPage, info[j].endPage, SubRefs(ms, info, ms[j].title))
    ensures exists j :: i <= j < |ms| && ms[j] == m
              && n == NestedSection(ms[j].title, true, info[j].startPage, info[j].endPage, SubRefs(ms, info, ms[j].title))
  {
  }

  lemma {:induction false} NestedFromMains(ms: seq<MergeSection>, info: seq<PageInfo>, i: nat)
    requires |info| >= |ms| && i <= |ms|
    requires forall j :: i <= j < |ms| ==> info[j].isMain == IsMainTitle(ms[j].title)
    ensures var nested := NestedFrom(ms, info, i);
      var mains := MainSections(ms[i..]);
      |nested| == |mains|
      && forall k :: 0 <= k < |nested| ==>
           exists j :: i <= j < |ms| && ms[j] == mains[k]
             && nested[k] == NestedSection(ms[j].title, true, info[j].startPage, info[j].endPage, SubRefs(ms, info, ms[j].title))
    decreases |ms| - i
  {
    if i < |ms| {
      NestedFromMains(ms, info, i + 1);
      assert ms[i..][1..] == ms[i + 1..];
      var rest := NestedFrom(ms, info, i + 1);
      var restMains := MainSections(ms[i + 1..]);
      var nested := NestedFrom(ms, info, i);
      var mains := MainSections(ms[i..]);
      if info[i].isMain {
        assert nested == [nested[0]] + rest;
        assert mains == [ms[i]] + restMains;
        forall k | 0 <= k < |nested|
          ensures exists j :: (i <= j < |ms| && ms[j] == mains[k]
            && nested[k] == NestedSection(ms[j].title, true, info[j].startPage, info[j].endPage, SubRefs(ms, info, ms[j].title)))
        {
          if k == 0 {
            assert ms[i] == mains[0];
            assert nested[0] == NestedSection(ms[i].title, true, info[i].startPage, info[i].endPage, SubRefs(ms, info, ms[i].title));
          } else {
            ConsIndex(nested, nested[0], rest, k);
            ConsIndex(mains, ms[i], restMains, k);
            NestedShift(ms, info, i, rest[k - 1], restMains[k - 1]);
          }
        }
      } else {
        assert nested == rest && mains == restMains;
      }
    } else {
      assert ms[i..] == [];
    }
  }

  /**
   * For a flat list the summary has one record per main section, in list order, with
   * that section's start and end pages and its subsections.
   */
  lemma NestedSectionsFollowMainSections(ms: seq<MergeSection>, fs: FileSystem)
    requires Flat(ms)
    ensures |PageInfos(ms, fs, 1)| == |ms|
    ensures var info := PageInfos(ms, fs, 1);
      var nested := NestedSections(ms, info);
      |nested| == |MainSections(ms)|
      && forall k :: 0 <= k < |nested| ==>
           nested[k].title == MainSections(ms)[k].title && nested[k].isMain
           && exists j :: 0 <= j < |ms| && ms[j] == MainSections(ms)[k]
                && nested[k].startPage == info[j].startPage && nested[k].endPage == info[j].endPage
                && nested[k].subSections == SubRefs(ms, info, ms[j].title)
  {
    var info := PageInfos(ms, fs, 1);
    PageInfosCoverSections(ms, fs, 1);
    forall j | 0 <= j < |ms| ensures info[j].isMain == IsMainTitle(ms[j].title) {
      FlatPlanIsContiguous(ms, fs, j);
    }
    NestedFromMains(ms, info, 0);
    assert ms[0..] == ms;
  }

  /** A section's plan entry is always found by title, so every subsection reference carries page numbers. */
  lemma {:induction false} SubRefsAreResolved(ms: seq<MergeSection>, fs: FileSystem, prefix: seq<MergeSection>, mainTitle: string)
    requires forall k :: 0 <= k < |prefix| ==> prefix[k] in ms
    ensures forall r :: r in SubRefs(prefix, PageInfos(ms, fs, 1), mainTitle) ==> r.startPage.Some? && r.endPage.Some?
  {
    if prefix != [] {
      SubRefsAreResolved(ms, fs, prefix[1..], mainTitle);
      var info := PageInfos(ms, fs, 1);
      var j :| 0 <= j < |ms| && ms[j] == prefix[0];
      InfoHasTitle(ms, fs, 1, j);
    }
  }

  lemma {:induction false} InfoHasTitle(ms: seq<MergeSection>, fs: FileSystem, current: int, j: nat)
    requires j < |ms|
    ensures FindInfo(PageInfos(ms, fs, current), ms[j].title).Some?
  {
    var title := ms[j].title;
    var next := current + SubPagesTotal(ms[0].subSections, fs) + SectionSize(ms[0], fs);
    PageInfosHead(ms, fs, current, next);
    if ms[0].title != title {
      var tail := ms[1..];
      assert j > 0 && tail[j - 1].title == title;
      InfoHasTitle(tail, fs, next, j - 1);
      FindInfoPastHead(ms, fs, current, next, title);
    }
  }

  /** A title other than the first section's is found in the plan if it is found in the rest's plan. */
  lemma FindInfoPastHead(ms: seq<MergeSection>, fs: FileSystem, current: int, next: int, title: string)
    requires ms != [] && ms[0].title != title
    requires next == current + SubPagesTotal(ms[0].subSections, fs) + SectionSize(ms[0], fs)
    requires FindInfo(PageInfos(ms[1..], fs, next), title).Some?
    ensures FindInfo(PageInfos(ms, fs, current), title).Some?
  {
    var info := PageInfos(ms, fs, current);
    var subs := SubInfos(ms[0].subSections, fs, current);
    var rest := PageInfos(ms[1..], fs, next);
    PageInfosHead(ms, fs, current, next);
    FindInfoInSuffix(info[1..], subs, rest, title);
  }

  /** The plan of a non-empty list starts with its first section's entry, followed by its subsections' and the rest's. */
  lemma {:induction false} PageInfosHead(ms: seq<MergeSection>, fs: FileSystem, current: int, next: int)
    requires ms != []
    requires next == current + SubPagesTotal(ms[0].subSections, fs) + SectionSize(ms[0], fs)
    ensures var info := PageInfos(ms, fs, current);
      info != [] && info[0].title == ms[0].title
      && info[1..] == SubInfos(ms[0].subSections, fs, current) + PageInfos(ms[1..], fs, next)
  {
    var head := SectionInfo(ms[0], fs, current);
    var subs := SubInfos(ms[0].subSections, fs, current);
    var rest := PageInfos(ms[1..], fs, next);
    assert PageInfos(ms, fs, current) == [head] + subs + rest;
    AppendAssoc([head], subs, rest);
    ConsParts(head, subs + rest);
  }

  lemma ConsParts<T>(x: T, tail: seq<T>)
    ensures ([x] + tail)[0] == x && ([x] + tail)[1..] == tail
  {
  }

  lemma {:induction false} FindInfoInSuffix(all: seq<PageInfo>, a: seq<PageInfo>, b: seq<PageInfo>, title: string)
    requires all == a + b && FindInfo(b, title).Some?
    ensures FindInfo(all, title).Some?
  {
    if a != [] && a[0].title != title {
      assert all[1..] == a[1..] + b;
      FindInfoInSuffix(all[1..], a[1..], b, title);
    } else if a == [] {
      assert all == b;
    }
  }

  // ---------------------------------------------------------------------------
  // Overlay requests

  /** The data handed to the header/footer template. */
  datatype OverlayData = OverlayData(pageNumber: int, pageTotal: nat, sectionTitle: string, pageTitle: string,
                                     subSections: seq<SubRef>, projectTitle: string)

  /** One overlay drawn on the page at `pageIndex` of the merged document. */
  datatype OverlayCall = OverlayCall(pageIndex: nat, isSeparator: bool, data: OverlayData)

  /** `nestedSections.find(s => s.title === title)?.subSections || []`. */
  function SeparatorSubSections(nested: seq<NestedSection>, title: string): seq<SubRef> {
    if nested == [] then []
    else if nested[0].title == title then nested[0].subSections
    else SeparatorSubSections(nested[1..], title)
  }

  /** The overlay drawn on page `p`: always on a separator, on content only outside draft mode. */
  function OverlayAt(p: nat, page: Page, total: nat, draft: bool, nested: seq<NestedSection>, project: string): seq<OverlayCall> {
    match page
    case SeparatorPage(t) => [OverlayCall(p, true, OverlayData(p, total, t, t, SeparatorSubSections(nested, t), project))]
    case ContentPage(t, _, _, _) => if draft then [] else [OverlayCall(p, false, OverlayData(p, total, t, t, [], project))]
    case TocPage(_, _) => []
  }

  /** The overlays drawn on `pages`, the first of which sits at index `base`. */
  function OverlaysOf(pages: seq<Page>, base: nat, total: nat, draft: bool, nested: seq<NestedSection>, project: string): seq<OverlayCall> {
    if pages == [] then []
    else OverlayAt(base, pages[0], total, draft, nested, project) + OverlaysOf(pages[1..], base + 1, total, draft, nested, project)
  }

  lemma {:induction false} OverlaysOfAppend(a: seq<Page>, b: seq<Page>, base: nat, total: nat, draft: bool, nested: seq<NestedSection>, project: string)
    ensures OverlaysOf(a + b, base, total, draft, nested, project)
         == OverlaysOf(a, base, total, draft, nested, project) + OverlaysOf(b, base + |a|, total, draft, nested, project)
  {
    if a == [] {
      assert a + b == b;
    } else {
      assert (a + b)[1..] == a[1..] + b;
      OverlaysOfAppend(a[1..], b, base + 1, total, draft, nested, project);
    }
  }

  lemma OverlayAtFacts(p: nat, page: Page, total: nat, draft: bool, nested: seq<NestedSection>, project: string)
    requires !page.TocPage?
    ensures var os := OverlayAt(p, page, total, draft, nested, project);
      (|os| == 1 <==> (page.SeparatorPage? || !draft)) && (|os| == 0 <==> !(page.SeparatorPage? || !draft))
      && forall o :: o in os ==> o.pageIndex == p && o.data.pageNumber == p && o.data.pageTotal == total
                                 && (o.isSeparator <==> page.SeparatorPage?)
  {
  }

  /**
   * Each overlay names, as its page number, the 0-based index of the page it is drawn
   * on, carries the page total, and is a separator overlay exactly when that page is
   * a separator.
   */
  lemma {:induction false} OverlayNumbersAreIndices(pages: seq<Page>, base: nat, total: nat, draft: bool, nested: seq<NestedSection>, project: string)
    requires forall k :: 0 <= k < |pages| ==> !pages[k].TocPage?
    ensures forall o :: o in OverlaysOf(pages, base, total, draft, nested, project) ==>
      base <= o.pageIndex < base + |pages| && o.data.pageNumber == o.pageIndex && o.data.pageTotal == total
      && (o.isSeparator <==> pages[o.pageIndex - base].SeparatorPage?)
  {
    if pages != [] {
      OverlayNumbersAreIndices(pages[1..], base + 1, total, draft, nested, project);
      OverlayAtFacts(base, pages[0], total, draft, nested, project);
      forall o | o in OverlaysOf(pages, base, total, draft, nested, project)
        ensures base <= o.pageIndex < base + |pages| && o.data.pageNumber == o.pageIndex && o.data.pageTotal == total
          && (o.isSeparator <==> pages[o.pageIndex - base].SeparatorPage?)
      {
        if o !in OverlayAt(base, pages[0], total, draft, nested, project) {
          assert pages[1..][o.pageIndex - (base + 1)] == pages[o.pageIndex - base];
        }
      }
    }
  }

  /** Overlays are drawn in page order, at most one per page. */
  lemma {:induction false} OverlaysInPageOrder(pages: seq<Page>, base: nat, total: nat, draft: bool, nested: seq<NestedSection>, project: string)
    requires forall k :: 0 <= k < |pages| ==> !pages[k].TocPage?
    ensures forall a, b :: 0 <= a < b < |OverlaysOf(pages, base, total, draft, nested, project)| ==>
      OverlaysOf(pages, base, total, draft, nested, project)[a].pageIndex < OverlaysOf(pages, base, total, draft, nested, project)[b].pageIndex
  {
    if pages != [] {
      OverlaysInPageOrder(pages[1..], base + 1, total, draft, nested, project);
      OverlayNumbersAreIndices(pages[1..], base + 1, total, draft, nested, project);
      OverlayAtFacts(base, pages[0], total, draft, nested, project);
      var os := OverlaysOf(pages, base, total, draft, nested, project);
      var head := OverlayAt(base, pages[0], total, draft, nested, project);
      var rest := OverlaysOf(pages[1..], base + 1, total, draft, nested, project);
      assert os == head + rest;
      forall a, b | 0 <= a < b < |os| ensures os[a].pageIndex < os[b].pageIndex {
        assert |head| <= 1;
        if a < |head| {
          assert os[a] == head[a] && head[a] in head;
          assert os[a].pageIndex == base;
          assert os[b] == rest[b - |head|] && rest[b - |head|] in rest;
          assert os[b].pageIndex >= base + 1;
        } else {
          assert os[a] == rest[a - |head|] && os[b] == rest[b - |head|];
          assert 0 <= a - |head| < b - |head| < |rest|;
          assert rest[a - |head|].pageIndex < rest[b - |head|].pageIndex;
        }
      }
    }
  }

  /** A page gets an overlay exactly when it is a separator or draft mode is off. */
  lemma {:induction false} OverlayPresence(pages: seq<Page>, base: nat, total: nat, draft: bool, nested: seq<NestedSection>, project: string, k: nat)
    requires forall j :: 0 <= j < |pages| ==> !pages[j].TocPage?
    requires k < |pages|
    ensures (exists o :: o in OverlaysOf(pages, base, total, draft, nested, project) && o.pageIndex == base + k)
        <==> (pages[k].SeparatorPage? || !draft)
  {
    var os := OverlaysOf(pages, base, total, draft, nested, project);
    var head := OverlayAt(base, pages[0], total, draft, nested, project);
    var rest := OverlaysOf(pages[1..], base + 1, total, draft, nested, project);
    OverlayAtFacts(base, pages[0], total, draft, nested, project);
    OverlayNumbersAreIndices(pages[1..], base + 1, total, draft, nested, project);
    if k == 0 {
      if pages[0].SeparatorPage? || !draft {
        assert head[0] in os;
      }
    } else {
      OverlayPresence(pages[1..], base + 1, total, draft, nested, project, k - 1);
      assert pages[1..][k - 1] == pages[k];
      if pages[k].SeparatorPage? || !draft {
        var o :| o in rest && o.pageIndex == base + 1 + (k - 1);
        assert o in os;
      }
    }
  }

  /** Overlays drawn after the ToC: one per separator, plus one per content page outside draft mode. */
  lemma {:induction false} OverlayCount(ms: seq<MergeSection>, fs: FileSystem, base: nat, total: nat, draft: bool, nested: seq<NestedSection>, project: string)
    ensures |OverlaysOf(Assembled(ms, fs), base, total, draft, nested, project)|
         == MainCount(ms) + (if draft then 0 else ContentPages(ms, fs))
  {
    if ms != [] {
      var own := SectionPages(ms[0], fs);
      OverlaysOfAppend(own, Assembled(ms[1..], fs), base, total, draft, nested, project);
      SectionOverlayCount(ms[0], fs, base, total, draft, nested, project);
      OverlayCount(ms[1..], fs, base + |own|, total, draft, nested, project);
    }
  }

  lemma SectionOverlayCount(s: MergeSection, fs: FileSystem, base: nat, total: nat, draft: bool, nested: seq<NestedSection>, project: string)
    ensures |OverlaysOf(SectionPages(s, fs), base, total, draft, nested, project)|
         == SeparatorCount(s.title) + (if draft then 0 else PdfPages(s.pdfs, fs))
  {
    var sep, content := SeparatorPages(s.title), PdfContent(s.title, s.pdfs, fs);
    assert SectionPages(s, fs) == sep + content;
    OverlaysOfAppend(sep, content, base, total, draft, nested, project);
    SeparatorOverlayCount(s.title, base, total, draft, nested, project);
    ContentOverlayCount(s.title, s.pdfs, fs, base + |sep|, total, draft, nested, project);
  }

  lemma SeparatorOverlayCount(title: string, base: nat, total: nat, draft: bool, nested: seq<NestedSection>, project: string)
    ensures |OverlaysOf(SeparatorPages(title), base, total, draft, nested, project)| == SeparatorCount(title)
  {
    var sep := SeparatorPages(title);
    if sep != [] {
      assert sep[1..] == [];
      OverlayAtFacts(base, sep[0], total, draft, nested, project);
    }
  }

  lemma {:induction false} ContentOverlayCount(title: string, pdfs: seq<PdfRef>, fs: FileSystem, base: nat, total: nat, draft: bool, nested: seq<NestedSection>, project: string)
    ensures |OverlaysOf(PdfContent(title, pdfs, fs), base, total, draft, nested, project)| == (if draft then 0 else PdfPages(pdfs, fs))
  {
    if pdfs != [] {
      var f := FileContent(title, pdfs[0], fs);
      OverlaysOfAppend(f, PdfContent(title, pdfs[1..], fs), base, total, draft, nested, project);
      FileOverlayCount(f, base, total, draft, nested, project);
      ContentOverlayCount(title, pdfs[1..], fs, base + |f|, total, draft, nested, project);
    }
  }

  lemma {:induction false} FileOverlayCount(pages: seq<Page>, base: nat, total: nat, draft: bool, nested: seq<NestedSection>, project: string)
    requires forall k :: 0 <= k < |pages| ==> pages[k].ContentPage?
    ensures |OverlaysOf(pages, base, total, draft, nested, project)| == (if draft then 0 else |pages|)
  {
    if pages != [] {
      OverlayAtFacts(base, pages[0], total, draft, nested, project);
      FileOverlayCount(pages[1..], base + 1, total, draft, nested, project);
    }
  }

  /**
   * The ToC shows a main section on page startPage, counting from 1 after the ToC,
   * while its separator's overlay says tocPages + startPage - 1, its 0-based index in
   * the merged document. The two agree only when there is exactly one ToC page.
   */
  lemma SeparatorNumberAgreesWithTocOnlyForOneTocPage(ms: seq<MergeSection>, fs: FileSystem, i: nat)
    requires Flat(ms) && i < |ms| && IsMainTitle(ms[i].title)
    ensures |PageInfos(ms, fs, 1)| == |ms| && |Assembled(ms, fs)| == TotalPages(ms, fs)
    ensures var T := TocPageCount(|ms|);
      var info := PageInfos(ms, fs, 1);
      var os := OverlaysOf(Assembled(ms, fs), T, TotalPages(ms, fs), false, [], "");
      exists o :: o in os && o.isSeparator && o.data.sectionTitle == ms[i].title
        && o.data.pageNumber == T + info[i].startPage - 1
        && (o.data.pageNumber == EntryFor(ms, info, i).pageNumber <==> T == 1)
  {
    PlanMatchesAssembly(ms, fs, i);
    var info := PageInfos(ms, fs, 1)[i];
    var pages := Assembled(ms, fs);
    assert SectionPages(ms[i], fs)[0] == SeparatorPage(ms[i].title);
    assert pages[info.startPage - 1] == pages[info.startPage - 1..info.endPage][0];
    SeparatorHasOverlay(pages, TocPageCount(|ms|), TotalPages(ms, fs), [], "", info.startPage - 1, ms[i].title);
  }

  lemma SeparatorHasOverlay(pages: seq<Page>, base: nat, total: nat, nested: seq<NestedSection>, project: string, k: nat, title: string)
    requires k < |pages| && pages[k] == SeparatorPage(title)
    ensures exists o :: (o in OverlaysOf(pages, base, total, false, nested, project) && o.isSeparator
      && o.data.sectionTitle == title && o.data.pageNumber == base + k)
  {
    OverlayOfPage(pages, base, total, false, nested, project, k);
    var o := OverlayAt(base + k, pages[k], total, false, nested, project)[0];
    assert o in OverlayAt(base + k, pages[k], total, false, nested, project);
  }

  /** The overlay of page `k` is among the overlays of the pages. */
  lemma {:induction false} OverlayOfPage(pages: seq<Page>, base: nat, total: nat, draft: bool, nested: seq<NestedSection>, project: string, k: nat)
    requires k < |pages|
    ensures forall o :: o in OverlayAt(base + k, pages[k], total, draft, nested, project) ==> o in OverlaysOf(pages, base, total, draft, nested, project)
  {
    if k > 0 {
      OverlayOfPage(pages[1..], base + 1, total, draft, nested, project, k - 1);
      assert pages[1..][k - 1] == pages[k];
    }
  }
}

=== FILE: pdf_processing.dfy ===
/**
 * `mergeWithTemplates` and `generateTableOfContents`: the counting passes, the ToC
 * layout and render passes and the assembly loop, over a document object that only
 * ever grows. Drawing, fonts, page geometry and template rendering are not modelled;
 * each page is a record and each overlay a record of the data handed to the template.
 */
module PdfProcessing {
  import opened Text
  import opened SectionPatterns
  import opened PdfPlan

  /** The output PDF: its pages in order and its outline (bookmarks). */
  class PdfDocument {
    var pages: seq<Page>
    var outline: seq<Bookmark>

    constructor ()
      ensures pages == [] && outline == []
    {
      pages := [];
      outline := [];
    }

    /** `addPage`: appends a page and gives its index. */
    method AddPage(p: Page) returns (index: nat)
      modifies this
      ensures pages == old(pages) + [p] && index == |old(pages)|
      ensures outline == old(outline)
    {
      index := |pages|;
      pages := pages + [p];
    }

    /** `insertPage(index, ...)`. */
    method InsertPage(index: nat, p: Page)
      requires index <= |pages|
      modifies this
      ensures pages == old(pages)[..index] + [p] + old(pages)[index..]
      ensures outline == old(outline)
    {
      pages := pages[..index] + [p] + pages[index..];
    }

    /** `page.node.addAnnot(link)` on a ToC page. */
    method AddAnnot(index: nat, link: Link)
      requires index < |pages| && pages[index].TocPage?
      modifies this
      ensures pages == old(pages)[index := TocPage(old(pages)[index].continued, old(pages)[index].links + [link])]
      ensures outline == old(outline)
    {
      pages := pages[index := TocPage(pages[index].continued, pages[index].links + [link])];
    }

    /** `addOutline(title, [target])`. */
    method AddOutline(title: string, target: int)
      modifies this
      ensures outline == old(outline) + [Bookmark(title, target)]
      ensures pages == old(pages)
    {
      outline := outline + [Bookmark(title, target)];
    }
  }

  /** Pages of the existing files among `pdfs`; a missing file is skipped. */
  method CountPdfPages(pdfs: seq<PdfRef>, fs: FileSystem) returns (count: nat)
    ensures count == PdfPages(pdfs, fs)
  {
    count := 0;
    var j := 0;
    assert pdfs[0..] == pdfs;
    while j < |pdfs|
      invariant 0 <= j <= |pdfs|
      invariant count + PdfPages(pdfs[j..], fs) == PdfPages(pdfs, fs)
    {
      assert pdfs[j..][1..] == pdfs[j + 1..];
      assert PdfPages(pdfs[j..], fs) == PagesOf(fs, pdfs[j].path) + PdfPages(pdfs[j + 1..], fs);
      if pdfs[j].path in fs {
        count := count + fs[pdfs[j].path];
      }
      j := j + 1;
    }
  }

  /** One step of the subsection loop keeps "entries so far + entries still to come == all entries". */
  lemma SubInfosStep(subs: seq<SubSection>, j: nat, fs: FileSystem, infos: seq<PageInfo>, current: int, all: seq<PageInfo>,
                     info: PageInfo, next: int)
    requires j < |subs|
    requires infos + SubInfos(subs[j..], fs, current) == all
    requires var count := PdfPages(subs[j].pdfs, fs);
      info == PageInfo(subs[j].title, false, current, current, current + count - 1, count) && next == current + count
    ensures infos + [info] + SubInfos(subs[j + 1..], fs, next) == all
    ensures SubPagesTotal(subs[j..], fs) == next - current + SubPagesTotal(subs[j + 1..], fs)
  {
    var t := subs[j..];
    assert t[0] == subs[j] && t[1..] == subs[j + 1..];
    assert SubInfos(t, fs, current) == [info] + SubInfos(subs[j + 1..], fs, next);
    AppendAssoc(infos, [info], SubInfos(subs[j + 1..], fs, next));
  }

  /** The subsection branch of the first loop: each subsection's entry starts where the previous one ended. */
  method PlanSubSections(subs: seq<SubSection>, fs: FileSystem, start: int) returns (infos: seq<PageInfo>, currentPage: int)
    ensures infos == SubInfos(subs, fs, start)
    ensures currentPage == start + SubPagesTotal(subs, fs)
  {
    ghost var all, end := SubInfos(subs, fs, start), start + SubPagesTotal(subs, fs);
    infos := [];
    currentPage := start;
    var j := 0;
    assert subs[0..] == subs;
    while j < |subs|
      invariant 0 <= j <= |subs|
      invariant infos + SubInfos(subs[j..], fs, currentPage) == all
      invariant currentPage + SubPagesTotal(subs[j..], fs) == end
    {
      var subPageInfo, next := PlanSubSection(subs[j], fs, currentPage);
      SubInfosStep(subs, j, fs, infos, currentPage, all, subPageInfo, next);
      infos := infos + [subPageInfo];
      currentPage := next;
      j := j + 1;
    }
    assert subs[j..] == [];
  }

  /** One subsection: its entry covers its own pages from `currentPage` on, and the next one starts after them. */
  method PlanSubSection(subSection: SubSection, fs: FileSystem, currentPage: int) returns (subPageInfo: PageInfo, next: int)
    ensures var count := PdfPages(subSection.pdfs, fs);
      subPageInfo == PageInfo(subSection.title, false, currentPage, currentPage, currentPage + count - 1, count)
      && next == currentPage + count
  {
    var subSectionPageCount := CountPdfPages(subSection.pdfs, fs);
    subPageInfo := PageInfo(subSection.title, false, currentPage, currentPage,
                            currentPage + subSectionPageCount - 1, subSectionPageCount);
    next := currentPage + subSectionPageCount;
  }

  lemma PageInfosUnfold(t: seq<MergeSection>, fs: FileSystem, current: int)
    requires t != []
    ensures PageInfos(t, fs, current)
         == [SectionInfo(t[0], fs, current)] + SubInfos(t[0].subSections, fs, current)
            + PageInfos(t[1..], fs, current + SubPagesTotal(t[0].subSections, fs) + SectionSize(t[0], fs))
  {
  }

  /** Splitting the remainder of a "done + remainder == all" sum. */
  lemma Regroup<T>(done: seq<T>, rest: seq<T>, a: seq<T>, b: seq<T>, c: seq<T>, all: seq<T>)
    requires done + rest == all && rest == a + b + c
    ensures done + a + b + c == all
  {
    assert done + a + b + c == done + (a + b + c);
  }

  /** One step of the section loop, in the same form. */
  lemma PageInfosStep(ms: seq<MergeSection>, i: nat, fs: FileSystem, infos: seq<PageInfo>, current: int, all: seq<PageInfo>,
                      pageInfo: PageInfo, subInfos: seq<PageInfo>, next: int)
    requires i < |ms|
    requires infos + PageInfos(ms[i..], fs, current) == all
    requires pageInfo == SectionInfo(ms[i], fs, current) && subInfos == SubInfos(ms[i].subSections, fs, current)
    requires next == current + SubPagesTotal(ms[i].subSections, fs) + SectionSize(ms[i], fs)
    ensures infos + [pageInfo] + subInfos + PageInfos(ms[i + 1..], fs, next) == all
  {
    PageInfosUnfold(ms[i..], fs, current);
    assert ms[i..][1..] == ms[i + 1..];
    Regroup(infos, PageInfos(ms[i..], fs, current), [pageInfo], subInfos, PageInfos(ms[i + 1..], fs, next), all);
  }

  /** One iteration of the first loop: the section's entry, its subsections' entries and the page after them. */
  method PlanSection(section: MergeSection, fs: FileSystem, currentPage: int)
    returns (pageInfo: PageInfo, subInfos: seq<PageInfo>, next: int)
    ensures pageInfo == SectionInfo(section, fs, currentPage) && subInfos == SubInfos(section.subSections, fs, currentPage)
    ensures next == currentPage + SubPagesTotal(section.subSections, fs) + SectionSize(section, fs)
  {
    var isMainSection := IsMainTitle(section.title);
    var sectionPageCount := CountPdfPages(section.pdfs, fs);
    pageInfo := PageInfo(section.title, isMainSection, currentPage,
                         if isMainSection then currentPage + 1 else currentPage,
                         currentPage + sectionPageCount - (if isMainSection then 0 else 1),
                         sectionPageCount);
    var afterSubs;
    subInfos, afterSubs := PlanSubSections(section.subSections, fs, currentPage);
    next := afterSubs + sectionPageCount + (if isMainSection then 1 else 0);
  }

  /** The first loop of `generateTableOfContents`: one plan entry per section and per subsection. */
  method PlanSectionPages(mergeList: seq<MergeSection>, fs: FileSystem) returns (sectionPageInfo: seq<PageInfo>)
    ensures sectionPageInfo == PageInfos(mergeList, fs, 1)
  {
    ghost var all := PageInfos(mergeList, fs, 1);
    sectionPageInfo := [];
    var currentPage := 1;
    var i := 0;
    assert mergeList[0..] == mergeList;
    while i < |mergeList|
      invariant 0 <= i <= |mergeList|
      invariant sectionPageInfo + PageInfos(mergeList[i..], fs, currentPage) == all
    {
      var pageInfo, subInfos, next := PlanSection(mergeList[i], fs, currentPage);
      PageInfosStep(mergeList, i, fs, sectionPageInfo, currentPage, all, pageInfo, subInfos, next);
      sectionPageInfo := sectionPageInfo + [pageInfo] + subInfos;
      currentPage := next;
      i := i + 1;
    }
    assert mergeList[i..] == [];
  }

  lemma BlankTocPagesGrow(t: nat)
    ensures BlankTocPages(t) + [TocPage(t > 0, [])] == BlankTocPages(t + 1)
    ensures BlankTocPages(t)[..t] + [TocPage(t > 0, [])] + BlankTocPages(t)[t..] == BlankTocPages(t + 1)
  {
    assert BlankTocPages(t)[..t] == BlankTocPages(t) && BlankTocPages(t)[t..] == [];
  }

  lemma EntriesSnoc(ms: seq<MergeSection>, info: seq<PageInfo>, i: nat, e: TocEntry)
    requires i < |ms| && i < |info| && EntryFor(ms, info, i) == e
    ensures Entries(ms, info, i + 1) == Entries(ms, info, i) + [e]
  {
  }

  /**
   * The page breaks of the layout loop: the first ToC page is added before the first
   * entry, and a continued page is inserted after the current one when the next line
   * would cross the bottom margin.
   */
  method MakeRoom(finalDoc: PdfDocument, currentPageIndex: nat, currentY: int) returns (pageIndex: nat, y: int)
    requires finalDoc.pages == BlankTocPages(currentPageIndex)
    modifies finalDoc
    ensures Cursor(pageIndex, y) == Place(Cursor(currentPageIndex, currentY))
    ensures finalDoc.pages == BlankTocPages(pageIndex) && finalDoc.outline == old(finalDoc.outline)
  {
    pageIndex, y := currentPageIndex, currentY;
    if pageIndex == 0 {
      BlankTocPagesGrow(0);
      var _ := finalDoc.AddPage(TocPage(false, []));
      pageIndex := 1;
      y := A4Height - TopMargin - 4000;
    }
    if y - LineHeight < BottomMargin {
      BlankTocPagesGrow(pageIndex);
      finalDoc.InsertPage(pageIndex, TocPage(true, []));
      pageIndex := pageIndex + 1;
      y := A4Height - TopMargin - 3000;
    }
  }

  /**
   * The layout loop: opens ToC pages as entries need them and records each entry's
   * page and y position. Page numbers come from `info[i]` whatever section it describes.
   */
  method LayoutTocEntries(mergeList: seq<MergeSection>, info: seq<PageInfo>, finalDoc: PdfDocument)
    returns (tocEntries: seq<TocEntry>, tocPageCount: nat)
    requires |info| >= |mergeList|
    requires finalDoc.pages == []
    modifies finalDoc
    ensures tocPageCount == TocPageCount(|mergeList|)
    ensures tocEntries == Entries(mergeList, info, |mergeList|)
    ensures finalDoc.pages == BlankTocPages(tocPageCount) && finalDoc.outline == old(finalDoc.outline)
  {
    var currentPageIndex := 0;
    var currentY := A4Height - TopMargin;
    tocEntries := [];
    var i := 0;
    while i < |mergeList|
      invariant 0 <= i <= |mergeList|
      invariant Cursor(currentPageIndex, currentY) == LayoutAfter(i)
      invariant finalDoc.pages == BlankTocPages(currentPageIndex) && finalDoc.outline == old(finalDoc.outline)
      invariant tocEntries == Entries(mergeList, info, i)
    {
      var entry;
      entry, currentPageIndex, currentY := PlaceEntry(mergeList, info, i, finalDoc, currentPageIndex, currentY);
      EntriesSnoc(mergeList, info, i, entry);
      tocEntries := tocEntries + [entry];
      i := i + 1;
    }
    tocPageCount := currentPageIndex;
  }

  /** One iteration of the layout loop: room for section `i`'s line, its entry, and the cursor one line lower. */
  method PlaceEntry(mergeList: seq<MergeSection>, info: seq<PageInfo>, i: nat, finalDoc: PdfDocument,
                    currentPageIndex: nat, currentY: int)
    returns (entry: TocEntry, pageIndex: nat, y: int)
    requires i < |mergeList| && i < |info|
    requires Cursor(currentPageIndex, currentY) == LayoutAfter(i)
    requires finalDoc.pages == BlankTocPages(currentPageIndex)
    modifies finalDoc
    ensures entry == EntryFor(mergeList, info, i)
    ensures Cursor(pageIndex, y) == LayoutAfter(i + 1)
    ensures finalDoc.pages == BlankTocPages(pageIndex) && finalDoc.outline == old(finalDoc.outline)
  {
    var section := mergeList[i];
    var pageInfo := info[i];
    var level := TocLevel(section.title);
    pageIndex, y := MakeRoom(finalDoc, currentPageIndex, currentY);
    entry := TocEntry(section.title, pageInfo.startPage, pageInfo.startPage, level, 20 * level, pageIndex - 1, y);
    y := y - LineHeight;
  }

  lemma TocPagesSnoc(es: seq<TocEntry>, e: TocEntry, count: nat)
    requires e.tocPageIndex < count
    ensures var k := e.tocPageIndex;
      TocPages(es + [e], count)
      == TocPages(es, count)[k := TocPage(k > 0, LinksOn(es, k, count) + [Link(e.title, LinkTarget(count, e))])]
    ensures Bookmarks(es + [e], count) == Bookmarks(es, count) + [Bookmark(e.title, LinkTarget(count, e))]
  {
    var all := es + [e];
    assert all[..|all| - 1] == es && all[|all| - 1] == e;
    var idx := e.tocPageIndex;
    var lhs := TocPages(all, count);
    var rhs := TocPages(es, count)[idx := TocPage(idx > 0, LinksOn(es, idx, count) + [Link(e.title, LinkTarget(count, e))])];
    forall k | 0 <= k < count
      ensures lhs[k] == rhs[k]
    {
      assert LinksOn(all, k, count)
          == LinksOn(es, k, count) + (if idx == k then [Link(e.title, LinkTarget(count, e))] else []);
    }
    assert lhs == rhs;
  }

  /** The render loop, reduced to what it decides: each entry's link annotation and bookmark target. */
  method RenderTocEntries(tocEntries: seq<TocEntry>, tocPageCount: nat, finalDoc: PdfDocument, outlineSupported: bool)
    requires finalDoc.pages == BlankTocPages(tocPageCount)
    requires forall k :: 0 <= k < |tocEntries| ==> tocEntries[k].tocPageIndex < tocPageCount
    modifies finalDoc
    ensures finalDoc.pages == TocPages(tocEntries, tocPageCount)
    ensures finalDoc.outline == old(finalDoc.outline) + (if outlineSupported then Bookmarks(tocEntries, tocPageCount) else [])
  {
    var j := 0;
    assert tocEntries[..0] == [];
    while j < |tocEntries|
      invariant 0 <= j <= |tocEntries|
      invariant finalDoc.pages == TocPages(tocEntries[..j], tocPageCount)
      invariant finalDoc.outline == old(finalDoc.outline) + (if outlineSupported then Bookmarks(tocEntries[..j], tocPageCount) else [])
    {
      var entry := tocEntries[j];
      var targetPageNumber := tocPageCount + entry.linkPageNumber - 1;
      ghost var done := tocEntries[..j + 1];
      TocPagesSnoc(tocEntries[..j], entry, tocPageCount);
      assert done == tocEntries[..j] + [entry];
      finalDoc.AddAnnot(entry.tocPageIndex, Link(entry.title, targetPageNumber));
      if outlineSupported {
        var bookmarkTarget := tocPageCount + entry.linkPageNumber - 1;
        finalDoc.AddOutline(entry.title, bookmarkTarget);
      }
      j := j + 1;
    }
    assert tocEntries[..j] == tocEntries;
  }

  /**
   * `generateTableOfContents` on the freshly created output document: the plan, the
   * ToC pages with every link in place, the bookmarks, and the nested-section summary.
   */
  method GenerateTableOfContents(mergeList: seq<MergeSection>, fs: FileSystem, finalDoc: PdfDocument, outlineSupported: bool)
    returns (pageCount: nat, nestedSections: seq<NestedSection>)
    requires finalDoc.pages == [] && finalDoc.outline == []
    modifies finalDoc
    ensures |PageInfos(mergeList, fs, 1)| >= |mergeList|
    ensures pageCount == TocPageCount(|mergeList|)
    ensures var es := Entries(mergeList, PageInfos(mergeList, fs, 1), |mergeList|);
      finalDoc.pages == TocPages(es, pageCount)
      && finalDoc.outline == (if outlineSupported then Bookmarks(es, pageCount) else [])
    ensures nestedSections == NestedSections(mergeList, PageInfos(mergeList, fs, 1))
  {
    var sectionPageInfo := PlanSectionPages(mergeList, fs);
    PageInfosCoverSections(mergeList, fs, 1);
    var tocEntries, tocPages := LayoutTocEntries(mergeList, sectionPageInfo, finalDoc);
    EntriesOnTocPages(mergeList, sectionPageInfo, |mergeList|);
    RenderTocEntries(tocEntries, tocPages, finalDoc, outlineSupported);
    nestedSections := NestedSections(mergeList, sectionPageInfo);
    pageCount := tocPages;
  }

  lemma {:induction false} PdfContentAppend(title: string, a: seq<PdfRef>, b: seq<PdfRef>, fs: FileSystem)
    ensures PdfContent(title, a + b, fs) == PdfContent(title, a, fs) + PdfContent(title, b, fs)
  {
    if a == [] {
      assert a + b == b;
    } else {
      assert (a + b)[1..] == a[1..] + b;
      PdfContentAppend(title, a[1..], b, fs);
    }
  }

  lemma OverlaysOfSnoc(a: seq<Page>, p: Page, base: nat, total: nat, draft: bool, nested: seq<NestedSection>, project: string)
    ensures OverlaysOf(a + [p], base, total, draft, nested, project)
         == OverlaysOf(a, base, total, draft, nested, project) + OverlayAt(base + |a|, p, total, draft, nested, project)
  {
    OverlaysOfAppend(a, [p], base, total, draft, nested, project);
    assert [p][1..] == [];
  }

  /** The inner page loop for one existing file: copies its pages in order, drawing an overlay on each outside draft mode. */
  method AppendFilePages(title: string, pdf: PdfRef, pageCount: nat, ghost fs: FileSystem, finalDoc: PdfDocument,
                         totalPages: nat, draftMode: bool, ghost nested: seq<NestedSection>, projectTitle: string)
    returns (added: seq<OverlayCall>)
    requires pdf.path in fs && pageCount == fs[pdf.path]
    modifies finalDoc
    ensures finalDoc.pages == old(finalDoc.pages) + FileContent(title, pdf, fs)
    ensures added == OverlaysOf(FileContent(title, pdf, fs), |old(finalDoc.pages)|, totalPages, draftMode, nested, projectTitle)
    ensures finalDoc.outline == old(finalDoc.outline)
  {
    ghost var content := FileContent(title, pdf, fs);
    ghost var base := |finalDoc.pages|;
    added := [];
    var k := 0;
    assert content[..0] == [];
    while k < pageCount
      invariant 0 <= k <= pageCount
      invariant finalDoc.pages == old(finalDoc.pages) + content[..k]
      invariant added == OverlaysOf(content[..k], base, totalPages, draftMode, nested, projectTitle)
      invariant finalDoc.outline == old(finalDoc.outline)
    {
      var page := ContentPage(title, pdf.path, k, pdf.fitToPage);
      assert content[..k + 1] == content[..k] + [page];
      OverlaysOfSnoc(content[..k], page, base, totalPages, draftMode, nested, projectTitle);
      var index := finalDoc.AddPage(page);
      if !draftMode {
        added := added + [OverlayCall(index, false, OverlayData(index, totalPages, title, title, [], projectTitle))];
      }
      k := k + 1;
    }
    assert content[..k] == content;
  }

  lemma PdfContentSnoc(title: string, pdfs: seq<PdfRef>, j: nat, fs: FileSystem)
    requires j < |pdfs|
    ensures PdfContent(title, pdfs[..j + 1], fs) == PdfContent(title, pdfs[..j], fs) + FileContent(title, pdfs[j], fs)
  {
    assert pdfs[..j + 1] == pdfs[..j] + [pdfs[j]];
    assert [pdfs[j]][1..] == [];
    PdfContentAppend(title, pdfs[..j], [pdfs[j]], fs);
  }

  /** The overlays of `done` pages followed by those of `more` pages are the overlays of both. */
  lemma OverlaysStep(done: seq<Page>, more: seq<Page>, base: nat, next: nat, added: seq<OverlayCall>, extra: seq<OverlayCall>,
                     total: nat, draft: bool, nested: seq<NestedSection>, project: string)
    requires next == base + |done|
    requires added == OverlaysOf(done, base, total, draft, nested, project)
    requires extra == OverlaysOf(more, next, total, draft, nested, project)
    ensures added + extra == OverlaysOf(done + more, base, total, draft, nested, project)
  {
    OverlaysOfAppend(done, more, base, total, draft, nested, project);
  }

  /** The file loop of one section: missing files are skipped. */
  method AppendPdfs(title: string, pdfs: seq<PdfRef>, fs: FileSystem, finalDoc: PdfDocument,
                    totalPages: nat, draftMode: bool, ghost nested: seq<NestedSection>, projectTitle: string)
    returns (added: seq<OverlayCall>)
    modifies finalDoc
    ensures finalDoc.pages == old(finalDoc.pages) + PdfContent(title, pdfs, fs)
    ensures added == OverlaysOf(PdfContent(title, pdfs, fs), |old(finalDoc.pages)|, totalPages, draftMode, nested, projectTitle)
    ensures finalDoc.outline == old(finalDoc.outline)
  {
    ghost var start := finalDoc.pages;
    ghost var done: seq<Page> := [];
    added := [];
    var j := 0;
    assert pdfs[..0] == [];
    while j < |pdfs|
      invariant 0 <= j <= |pdfs|
      invariant done == PdfContent(title, pdfs[..j], fs)
      invariant finalDoc.pages == start + done
      invariant added == OverlaysOf(done, |start|, totalPages, draftMode, nested, projectTitle)
      invariant finalDoc.outline == old(finalDoc.outline)
    {
      var pdf := pdfs[j];
      ghost var more := FileContent(title, pdf, fs);
      PdfContentSnoc(title, pdfs, j, fs);
      AppendAssoc(start, done, more);
      var extra: seq<OverlayCall> := [];
      if pdf.path in fs {
        extra := AppendFilePages(title, pdf, fs[pdf.path], fs, finalDoc, totalPages, draftMode, nested, projectTitle);
      } else {
        assert more == [];
        assert start + done + more == start + done;
      }
      OverlaysStep(done, more, |start|, |start| + |done|, added, extra, totalPages, draftMode, nested, projectTitle);
      added := added + extra;
      done := done + more;
      j := j + 1;
    }
    assert pdfs[..j] == pdfs;
  }

  /** The first pass of `mergeWithTemplates`: content pages of existing files, and one separator per main section. */
  method CountTotalPages(mergeList: seq<MergeSection>, fs: FileSystem) returns (totalPages: nat)
    ensures totalPages == TotalPages(mergeList, fs)
  {
    ghost var content := ContentPages(mergeList, fs);
    ghost var mains := MainCount(mergeList);
    totalPages := 0;
    var blankPagesCount := 0;
    var i := 0;
    assert mergeList[0..] == mergeList;
    while i < |mergeList|
      invariant 0 <= i <= |mergeList|
      invariant totalPages + ContentPages(mergeList[i..], fs) == content
      invariant blankPagesCount + MainCount(mergeList[i..]) == mains
    {
      assert mergeList[i..][1..] == mergeList[i + 1..];
      var section := mergeList[i];
      if IsMainTitle(section.title) {
        blankPagesCount := blankPagesCount + 1;
      }
      var sectionPages := CountPdfPages(section.pdfs, fs);
      totalPages := totalPages + sectionPages;
      i := i + 1;
    }
    totalPages := totalPages + blankPagesCount;
    TotalIsContentPlusSeparators(mergeList, fs);
  }

  lemma AssembledSnoc(ms: seq<MergeSection>, i: nat, fs: FileSystem)
    requires i < |ms|
    ensures Assembled(ms[..i + 1], fs) == Assembled(ms[..i], fs) + SectionPages(ms[i], fs)
  {
    assert ms[..i + 1] == ms[..i] + [ms[i]];
    assert [ms[i]][1..] == [];
    AssembledAppend(ms[..i], [ms[i]], fs);
  }

  lemma SeparatorOverlays(title: string, base: nat, total: nat, draft: bool, nested: seq<NestedSection>, project: string)
    ensures OverlaysOf(SeparatorPages(title), base, total, draft, nested, project)
         == if IsMainTitle(title)
            then [OverlayCall(base, true, OverlayData(base, total, title, title, SeparatorSubSections(nested, title), project))]
            else []
  {
    if IsMainTitle(title) {
      assert SeparatorPages(title)[1..] == [];
    }
  }

  /** One iteration of the section loop: the separator of a main section, then its files. */
  method AppendSection(section: MergeSection, fs: FileSystem, finalDoc: PdfDocument,
                       totalPages: nat, draftMode: bool, nested: seq<NestedSection>, projectTitle: string)
    returns (added: seq<OverlayCall>)
    modifies finalDoc
    ensures finalDoc.pages == old(finalDoc.pages) + SectionPages(section, fs)
    ensures added == OverlaysOf(SectionPages(section, fs), |old(finalDoc.pages)|, totalPages, draftMode, nested, projectTitle)
    ensures finalDoc.outline == old(finalDoc.outline)
  {
    ghost var start := finalDoc.pages;
    ghost var sep := SeparatorPages(section.title);
    ghost var content := PdfContent(section.title, section.pdfs, fs);
    SeparatorOverlays(section.title, |start|, totalPages, draftMode, nested, projectTitle);
    var sepOverlays: seq<OverlayCall> := [];
    if IsMainTitle(section.title) {
      var index := finalDoc.AddPage(SeparatorPage(section.title));
      sepOverlays := [OverlayCall(index, true, OverlayData(index, totalPages, section.title, section.title,
                                                           SeparatorSubSections(nested, section.title), projectTitle))];
    } else {
      assert start + sep == start;
    }
    OverlaysStep([], sep, |start|, |start|, [], sepOverlays, totalPages, draftMode, nested, projectTitle);
    ghost var mid := finalDoc.pages;
    assert mid == start + sep && |mid| == |start| + |sep|;
    var more := AppendPdfs(section.title, section.pdfs, fs, finalDoc, totalPages, draftMode, nested, projectTitle);
    assert more == OverlaysOf(content, |mid|, totalPages, draftMode, nested, projectTitle);
    OverlaysStep(sep, content, |start|, |mid|, sepOverlays, more, totalPages, draftMode, nested, projectTitle);
    AppendAssoc(start, sep, content);
    added := sepOverlays + more;
  }

  /** The section loop of `mergeWithTemplates`: every section's pages after what the document holds. */
  method AppendSections(mergeList: seq<MergeSection>, fs: FileSystem, finalDoc: PdfDocument,
                        totalPages: nat, draftMode: bool, nested: seq<NestedSection>, projectTitle: string)
    returns (overlays: seq<OverlayCall>)
    modifies finalDoc
    ensures finalDoc.pages == old(finalDoc.pages) + Assembled(mergeList, fs)
    ensures overlays == OverlaysOf(Assembled(mergeList, fs), |old(finalDoc.pages)|, totalPages, draftMode, nested, projectTitle)
    ensures finalDoc.outline == old(finalDoc.outline)
  {
    ghost var tocDoc := finalDoc.pages;
    ghost var done: seq<Page> := [];
    overlays := [];
    var i := 0;
    assert mergeList[..0] == [];
    while i < |mergeList|
      invariant 0 <= i <= |mergeList|
      invariant done == Assembled(mergeList[..i], fs)
      invariant finalDoc.pages == tocDoc + done
      invariant overlays == OverlaysOf(done, |tocDoc|, totalPages, draftMode, nested, projectTitle)
      invariant finalDoc.outline == old(finalDoc.outline)
    {
      AssembledSnoc(mergeList, i, fs);
      AppendAssoc(tocDoc, done, SectionPages(mergeList[i], fs));
      ghost var base := |finalDoc.pages|;
      assert base == |tocDoc| + |done|;
      var more := AppendSection(mergeList[i], fs, finalDoc, totalPages, draftMode, nested, projectTitle);
      OverlaysStep(done, SectionPages(mergeList[i], fs), |tocDoc|, base, overlays, more, totalPages, draftMode, nested, projectTitle);
      overlays := overlays + more;
      done := done + SectionPages(mergeList[i], fs);
      i := i + 1;
    }
    assert mergeList[..i] == mergeList;
  }

  /**
   * `mergeWithTemplates`: counts the pages, generates the ToC, then appends a separator
   * before each main section and one page per page of each existing file, drawing an
   * overlay on every separator and, outside draft mode, on every content page.
   */
  method MergeWithTemplates(mergeList: seq<MergeSection>, fs: FileSystem, draftMode: bool, projectTitle: string, outlineSupported: bool)
    returns (doc: seq<Page>, bookmarks: seq<Bookmark>, overlays: seq<OverlayCall>, totalPages: nat, tocPageCount: nat)
    ensures totalPages == TotalPages(mergeList, fs)
    ensures tocPageCount == TocPageCount(|mergeList|)
    ensures |PageInfos(mergeList, fs, 1)| >= |mergeList|
    ensures |doc| == tocPageCount + totalPages
    ensures var es := Entries(mergeList, PageInfos(mergeList, fs, 1), |mergeList|);
      doc == TocPages(es, tocPageCount) + Assembled(mergeList, fs)
      && bookmarks == (if outlineSupported then Bookmarks(es, tocPageCount) else [])
    ensures overlays == OverlaysOf(Assembled(mergeList, fs), tocPageCount, totalPages, draftMode,
                                   NestedSections(mergeList, PageInfos(mergeList, fs, 1)), projectTitle)
  {
    totalPages := CountTotalPages(mergeList, fs);
    var finalDoc := new PdfDocument();
    var nestedSections;
    tocPageCount, nestedSections := GenerateTableOfContents(mergeList, fs, finalDoc, outlineSupported);
    overlays := AppendSections(mergeList, fs, finalDoc, totalPages, draftMode, nestedSections, projectTitle);
    AssembledLength(mergeList, fs);
    doc := finalDoc.pages;
    bookmarks := finalDoc.outline;
  }
}

=== FILE: progress_manager.dfy ===
/**
 * Weighted progress reporting for the merge: the work is split into named sections with
 * weights, and the overall percentage for "section `i` is `p` percent done" counts every
 * earlier section as finished, section `i` in proportion to `p` and later sections as not
 * started. Percentages are reals (JavaScript numbers without their rounding); the bus that
 * receives progress messages is recorded as the sequence of events it was sent.
 */
module Progress {

  datatype ProgressSection = ProgressSection(name: string, weight: real)

  datatype ProgressEvent = ProgressEvent(progress: int, message: string)

  /** Sum of the weights of the first `n` sections. */
  function WeightOfFirst(ss: seq<ProgressSection>, n: nat): real
    requires n <= |ss|
  {
    if n == 0 then 0.0 else WeightOfFirst(ss, n - 1) + ss[n - 1].weight
  }

  /** `sections.reduce((sum, s) => sum + s.weight, 0)`. */
  function TotalWeight(ss: seq<ProgressSection>): real {
    WeightOfFirst(ss, |ss|)
  }

  predicate NonNegativeWeights(ss: seq<ProgressSection>) {
    forall k :: 0 <= k < |ss| ==> ss[k].weight >= 0.0
  }

  /** What the loop has added up after looking at the first `n` sections. */
  function PartialSum(ss: seq<ProgressSection>, n: nat, index: int, progress: real): real
    requires n <= |ss|
  {
    if n == 0 then 0.0
    else
      var i := n - 1;
      var step := if i < index then ss[i].weight else if i == index then ss[i].weight * (progress / 100.0) else 0.0;
      PartialSum(ss, i, index, progress) + step
  }

  /** The weight done: all sections before `index`, and `progress` percent of section `index`. */
  function WeightDone(ss: seq<ProgressSection>, index: int, progress: real): real {
    if index < 0 then 0.0
    else if index >= |ss| then TotalWeight(ss)
    else WeightOfFirst(ss, index) + ss[index].weight * (progress / 100.0)
  }

  /** `Math.round`: halves go up. */
  function Round(x: real): int {
    (x + 0.5).Floor
  }

  /** The overall percentage for section `index` at `progress` percent. */
  function SectionProgress(ss: seq<ProgressSection>, index: int, progress: real): int
    requires TotalWeight(ss) > 0.0
  {
    Round(WeightDone(ss, index, progress) / TotalWeight(ss) * 100.0)
  }

  /** After the whole loop, the running sum is the weight done. */
  lemma {:induction false} PartialSumIsWeightDone(ss: seq<ProgressSection>, n: nat, index: int, progress: real)
    requires n <= |ss|
    ensures PartialSum(ss, n, index, progress) ==
      if index < 0 then 0.0
      else if index >= n then WeightOfFirst(ss, n)
      else WeightOfFirst(ss, index) + ss[index].weight * (progress / 100.0)
  {
    if n > 0 {
      PartialSumIsWeightDone(ss, n - 1, index, progress);
    }
  }

  lemma {:induction false} WeightOfFirstBounds(ss: seq<ProgressSection>, m: nat, n: nat)
    requires NonNegativeWeights(ss)
    requires m <= n <= |ss|
    ensures 0.0 <= WeightOfFirst(ss, m) <= WeightOfFirst(ss, n)
    decreases n
  {
    if m < n {
      WeightOfFirstBounds(ss, m, n - 1);
    } else if n > 0 {
      WeightOfFirstBounds(ss, n - 1, n - 1);
    }
  }

  /** With non-negative weights and a progress between 0 and 100, the weight done lies between 0 and the total, growing with the progress. */
  lemma WeightDoneBounds(ss: seq<ProgressSection>, index: int, p: real, q: real)
    requires NonNegativeWeights(ss)
    requires 0.0 <= p <= q <= 100.0
    ensures 0.0 <= WeightDone(ss, index, p) <= WeightDone(ss, index, q) <= TotalWeight(ss)
  {
    WeightOfFirstBounds(ss, 0, |ss|);
    if 0 <= index < |ss| {
      var before, w := WeightOfFirst(ss, index), ss[index].weight;
      WeightOfFirstBounds(ss, index, index);
      WeightOfFirstBounds(ss, index + 1, |ss|);
      assert WeightOfFirst(ss, index + 1) == before + w;
      var x, y := p / 100.0, q / 100.0;
      Scale(w, x, y);
      assert WeightDone(ss, index, p) == before + w * x;
      assert WeightDone(ss, index, q) == before + w * y;
      assert before + w * x <= before + w * y;
    }
  }

  lemma Scale(w: real, x: real, y: real)
    requires w >= 0.0 && 0.0 <= x <= y <= 1.0
    ensures 0.0 <= w * x <= w * y <= w
  {
    assert w * y - w * x == w * (y - x);
    assert w - w * y == w * (1.0 - y);
  }

  lemma ScaledBounds(a: real, b: real, total: real)
    requires 0.0 <= a <= b <= total && total > 0.0
    ensures 0.0 <= a / total * 100.0 <= b / total * 100.0 <= 100.0
  {
    var x, y := a / total, b / total;
    assert x * total == a && y * total == b;
    assert (y - x) * total == b - a;
    assert (1.0 - y) * total == total - b;
  }

  /**
   * With non-negative weights, a positive total and progress between 0 and 100, the
   * overall percentage lies between 0 and 100 and never goes down as the progress grows.
   */
  lemma SectionProgressBounds(ss: seq<ProgressSection>, index: int, p: real, q: real)
    requires NonNegativeWeights(ss) && TotalWeight(ss) > 0.0
    requires 0.0 <= p <= q <= 100.0
    ensures 0 <= SectionProgress(ss, index, p) <= SectionProgress(ss, index, q) <= 100
  {
    WeightDoneBounds(ss, index, p, q);
    ScaledBounds(WeightDone(ss, index, p), WeightDone(ss, index, q), TotalWeight(ss));
  }

  /** The last section at 100 percent is the whole job. */
  lemma LastSectionComplete(ss: seq<ProgressSection>)
    requires TotalWeight(ss) > 0.0
    ensures SectionProgress(ss, |ss| - 1, 100.0) == 100
  {
    assert WeightDone(ss, |ss| - 1, 100.0) == TotalWeight(ss);
  }

  /** The percentage `processSections` reports before section `i` of `n`: from 0 up to, not including, 100. */
  function ProgressBefore(i: nat, n: nat): (p: real)
    requires i < n
    ensures 0.0 <= p < 100.0
  {
    assert (i as real) / (n as real) < 1.0;
    (i as real) / (n as real) * 100.0
  }

  class ProgressManager {
    var totalSteps: int
    var currentStep: int
    var sections: seq<ProgressSection>
    /** The messages sent to the bus so far. */
    var events: seq<ProgressEvent>

    constructor(totalSteps: int)
      ensures this.totalSteps == totalSteps && currentStep == 0
      ensures sections == [] && events == []
    {
      this.totalSteps := totalSteps;
      currentStep := 0;
      sections := [];
      events := [];
    }

    /** `addSection`: appends a section and answers its index. */
    method AddSection(name: string, weight: real) returns (index: int)
      modifies this
      ensures sections == old(sections) + [ProgressSection(name, weight)]
      ensures index == |old(sections)| && sections[index] == ProgressSection(name, weight)
      ensures events == old(events) && totalSteps == old(totalSteps) && currentStep == old(currentStep)
    {
      sections := sections + [ProgressSection(name, weight)];
      index := |sections| - 1;
    }

    /** `calculateSectionProgress`: the accumulation loop over the sections. */
    method CalculateSectionProgress(sectionIndex: int, progress: real) returns (r: int)
      requires TotalWeight(sections) > 0.0
      ensures r == SectionProgress(sections, sectionIndex, progress)
    {
      var totalWeight := 0.0;
      var i := 0;
      while i < |sections|
        invariant 0 <= i <= |sections|
        invariant totalWeight == WeightOfFirst(sections, i)
      {
        totalWeight := totalWeight + sections[i].weight;
        i := i + 1;
      }
      var progressSum := 0.0;
      i := 0;
      while i < |sections|
        invariant 0 <= i <= |sections|
        invariant progressSum == PartialSum(sections, i, sectionIndex, progress)
      {
        if i < sectionIndex {
          progressSum := progressSum + sections[i].weight;
        } else if i == sectionIndex {
          progressSum := progressSum + sections[i].weight * (progress / 100.0);
        }
        i := i + 1;
      }
      PartialSumIsWeightDone(sections, |sections|, sectionIndex, progress);
      assert progressSum == WeightDone(sections, sectionIndex, progress);
      assert totalWeight == TotalWeight(sections);
      r := Round(progressSum / totalWeight * 100.0);
    }

    /**
     * `updateSection`: with a bus, sends the overall percentage and the message, or the
     * section's name when the message is empty; reading the name of a section that does
     * not exist throws.
     */
    method UpdateSection(sectionIndex: int, progress: real, message: string, bus: bool) returns (thrown: bool)
      requires TotalWeight(sections) > 0.0
      modifies this
      ensures sections == old(sections) && totalSteps == old(totalSteps) && currentStep == old(currentStep)
      ensures thrown <==> bus && message == "" && !(0 <= sectionIndex < |sections|)
      ensures events == old(events) + (if bus && !thrown then
        [ProgressEvent(SectionProgress(sections, sectionIndex, progress), if message != "" then message else sections[sectionIndex].name)]
        else [])
    {
      var sectionProgress := CalculateSectionProgress(sectionIndex, progress);
      thrown := false;
      if bus {
        if message != "" {
          events := events + [ProgressEvent(sectionProgress, message)];
        } else if 0 <= sectionIndex < |sections| {
          events := events + [ProgressEvent(sectionProgress, sections[sectionIndex].name)];
        } else {
          thrown := true;
        }
      }
    }
  }
}

=== FILE: section_patterns.dfy ===
/**
 * The regular expressions that recognise section numbers and file links in section
 * titles and outline lines, each written as a scanner. Every scanner below commits to
 * the greedy reading of its pattern; the comment beside it says why backtracking
 * cannot find a different match.
 */
module SectionPatterns {
  import opened Wrappers
  import opened Text

  /**
   * The longest prefix of `s` of the form `\d+(\.\d+)*`: how many dot-separated
   * numeric groups it has (0 when `s` does not start with a digit) and where it ends.
   */
  datatype NumberPrefix = NumberPrefix(groups: nat, end: nat)

  /**
   * `s` has the form `\d+(\.\d+)*`: digits and dots, starting and ending with a digit,
   * with no two dots side by side.
   */
  predicate IsNumber(s: string) {
    |s| > 0 && IsDigit(s[0]) && IsDigit(s[|s| - 1])
    && (forall k :: 0 <= k < |s| ==> IsDigit(s[k]) || s[k] == '.')
    && (forall j, k {:trigger s[j], s[k]} :: 0 <= j < |s| && 0 <= k < |s| && k == j + 1 ==> IsDigit(s[j]) || IsDigit(s[k]))
  }

  /** How many dots `s` holds; a number `\d+(\.\d+)*` has one group more than it has dots. */
  function DotCount(s: string): nat {
    multiset(s)['.']
  }

  /** A number `\d+(\.\d+)*` starts `s` and ends at `e`, and neither a digit nor ".digit" follows it. */
  predicate NumberEndsAt(s: string, e: nat) {
    e <= |s| && IsNumber(s[..e])
    && (e < |s| ==> !IsDigit(s[e]))
    && (e + 1 < |s| && s[e] == '.' ==> !IsDigit(s[e + 1]))
  }

  /** `^\d+(\.\d+)*` read greedily: its groups and where it ends; no groups when `s` does not start with a digit. */
  function LeadingNumber(s: string): (n: NumberPrefix)
    ensures n.end <= |s|
    ensures n.groups == 0 <==> n.end == 0
    ensures n.groups == 0 <==> (|s| == 0 || !IsDigit(s[0]))
    ensures n.end < |s| ==> !IsDigit(s[n.end])
  {
    if |s| == 0 || !IsDigit(s[0]) then NumberPrefix(0, 0)
    else MoreGroups(s, SkipDigits(s, 0), 1)
  }

  /** Reads further `.digits` groups after the number `s[..i]`, which has `groups` groups. */
  function MoreGroups(s: string, i: nat, groups: nat): (n: NumberPrefix)
    requires 0 < i <= |s|
    requires i < |s| ==> !IsDigit(s[i])
    ensures i <= n.end <= |s| && n.groups >= groups
    ensures n.end < |s| ==> !IsDigit(s[n.end])
    decreases |s| - i
  {
    if i + 1 < |s| && s[i] == '.' && IsDigit(s[i + 1]) then MoreGroups(s, SkipDigits(s, i + 1), groups + 1)
    else NumberPrefix(groups, i)
  }

  /**
   * What `LeadingNumber` finds is a number `\d+(\.\d+)*` that cannot be extended, with
   * one group more than it has dots.
   */
  lemma LeadingNumberReadsNumber(s: string)
    ensures var n := LeadingNumber(s);
      n.groups > 0 ==> NumberEndsAt(s, n.end) && n.groups == DotCount(s[..n.end]) + 1
  {
    if |s| > 0 && IsDigit(s[0]) {
      var j := SkipDigits(s, 0);
      DigitsAreNumber(s, j);
      MoreGroupsReadsNumber(s, j, 1);
    }
  }

  lemma {:induction false} MoreGroupsReadsNumber(s: string, i: nat, groups: nat)
    requires 0 < i <= |s| && IsNumber(s[..i]) && groups == DotCount(s[..i]) + 1
    requires i < |s| ==> !IsDigit(s[i])
    ensures var n := MoreGroups(s, i, groups);
      NumberEndsAt(s, n.end) && n.groups == DotCount(s[..n.end]) + 1
    decreases |s| - i
  {
    if i + 1 < |s| && s[i] == '.' && IsDigit(s[i + 1]) {
      var j := SkipDigits(s, i + 1);
      NumberStep(s, i, j);
      MoreGroupsReadsNumber(s, j, groups + 1);
    }
  }

  /** A leading run of digits is a number without dots. */
  lemma DigitsAreNumber(s: string, j: nat)
    requires 0 < j <= |s| && AllDigits(s[0..j])
    ensures IsNumber(s[..j]) && DotCount(s[..j]) == 0
  {
    assert s[..j] == s[0..j];
    assert '.' !in s[..j] by {
      forall k | 0 <= k < j ensures s[..j][k] != '.' {
        assert IsDigit(s[..j][k]);
      }
    }
  }

  /** A number followed by a dot and a run of digits is a number with one dot more. */
  lemma NumberStep(s: string, i: nat, j: nat)
    requires 0 < i && i + 1 < j <= |s| && IsNumber(s[..i]) && s[i] == '.' && AllDigits(s[i + 1..j])
    ensures IsNumber(s[..j]) && DotCount(s[..j]) == DotCount(s[..i]) + 1
  {
    var a, d := s[..i], s[i + 1..j];
    var b := s[..j];
    assert b == a + ['.'] + d;
    assert b[0] == a[0] && b[j - 1] == d[|d| - 1];
    forall k | 0 <= k < j ensures IsDigit(b[k]) || b[k] == '.' {
      if k < i {
        assert b[k] == a[k];
      } else if k > i {
        assert b[k] == d[k - i - 1];
      }
    }
    forall x, y | 0 <= x < j && 0 <= y < j && y == x + 1 ensures IsDigit(b[x]) || IsDigit(b[y]) {
      if y < i {
        assert b[x] == a[x] && b[y] == a[y];
      } else if y == i {
        assert b[x] == a[i - 1];
      } else {
        assert b[y] == d[y - i - 1];
      }
    }
    assert '.' !in d by {
      forall k | 0 <= k < |d| ensures d[k] != '.' {
        assert IsDigit(d[k]);
      }
    }
    assert multiset(b) == multiset(a) + multiset(['.']) + multiset(d);
  }

  /** Inside a number, every character is a digit or a dot with a digit after it. */
  lemma NumberCharAt(s: string, e: nat, k: nat)
    requires e <= |s| && IsNumber(s[..e]) && k < e
    ensures IsDigit(s[k]) || (s[k] == '.' && k + 1 < e && IsDigit(s[k + 1]))
  {
    var b := s[..e];
    assert b[k] == s[k];
    if !IsDigit(s[k]) {
      assert k != e - 1;
      assert b[k + 1] == s[k + 1];
    }
  }

  /**
   * No number `\d+(\.\d+)*` at the start of `s` is longer than the one `LeadingNumber`
   * finds, and that one is the only number there that cannot be extended.
   */
  lemma LeadingNumberIsLongest(s: string, e: nat)
    requires e <= |s| && IsNumber(s[..e])
    ensures LeadingNumber(s).groups > 0 && e <= LeadingNumber(s).end
    ensures NumberEndsAt(s, e) ==> e == LeadingNumber(s).end
  {
    NumberCharAt(s, e, 0);
    LeadingNumberReadsNumber(s);
    var n := LeadingNumber(s);
    if n.end < e {
      NumberCharAt(s, e, n.end);
      assert false;
    }
    if NumberEndsAt(s, e) && e < n.end {
      NumberCharAt(s, n.end, e);
      assert false;
    }
  }

  /**
   * The main-section test `^\d+\.\s+` of the merge code. The digit run cannot stop
   * early, because the character after a shorter run is a digit and not '.'.
   */
  predicate IsMainTitle(t: string) {
    var e := SkipDigits(t, 0);
    0 < e && e + 1 < |t| && t[e] == '.' && IsSpace(t[e + 1])
  }

  lemma {:induction false} SkipDigitsPastDigits(s: string, i: nat, k: nat)
    requires i <= k <= |s| && AllDigits(s[i..k])
    ensures SkipDigits(s, i) >= k
    decreases k - i
  {
    if i < k {
      assert IsDigit(s[i..k][0]);
      assert s[i + 1..k] == s[i..k][1..];
      SkipDigitsPastDigits(s, i + 1, k);
    }
  }

  /** `IsMainTitle` is exactly the set of strings the pattern `^\d+\.\s+` matches somewhere. */
  lemma MainTitleMeansPattern(t: string)
    ensures IsMainTitle(t) <==>
      exists k :: 1 <= k && k + 1 < |t| && AllDigits(t[..k]) && t[k] == '.' && IsSpace(t[k + 1])
  {
    var e := SkipDigits(t, 0);
    if IsMainTitle(t) {
      assert t[..e] == t[0..e];
    }
    if k :| 1 <= k && k + 1 < |t| && AllDigits(t[..k]) && t[k] == '.' && IsSpace(t[k + 1]) {
      assert t[..k] == t[0..k];
      SkipDigitsPastDigits(t, 0, k);
      assert e == k;
    }
  }

  lemma SubsectionNumbersAreNotMain()
    ensures !IsMainTitle("3.1 Hardware")
    ensures !IsMainTitle("1.2.3. Section")
    ensures IsMainTitle("12. Intro")
    ensures !IsMainTitle("Intro")
  {
    assert SkipDigits("3.1 Hardware", 0) == 1;
    assert SkipDigits("1.2.3. Section", 0) == 1;
    assert SkipDigits("12. Intro", 0) == 2;
  }

  /**
   * `^(\d+(?:\.\d+)*)\.?\s+` matches `s` with its number `s[..e]`: the number, then
   * `\s` or a dot and `\s`.
   */
  predicate NumberedAt(s: string, e: nat) {
    0 < e < |s| && IsNumber(s[..e])
    && (IsSpace(s[e]) || (s[e] == '.' && e + 1 < |s| && IsSpace(s[e + 1])))
  }

  /** The index just past the whitespace after the number ending at `e` and its optional dot. */
  function PastSpaces(s: string, e: nat): nat
    requires e < |s|
  {
    SkipSpaces(s, if s[e] == '.' then e + 1 else e)
  }

  /** A match can only use the number `LeadingNumber` finds. */
  lemma NumberedAtIsLeading(s: string, e: nat)
    requires NumberedAt(s, e)
    ensures LeadingNumber(s).groups > 0 && LeadingNumber(s).end == e
  {
    assert NumberEndsAt(s, e);
    LeadingNumberIsLongest(s, e);
  }

  lemma NumberedAtIsLeadingEverywhere(s: string)
    ensures forall e: nat :: NumberedAt(s, e) ==> LeadingNumber(s).groups > 0 && LeadingNumber(s).end == e
  {
    forall e: nat | NumberedAt(s, e)
      ensures LeadingNumber(s).groups > 0 && LeadingNumber(s).end == e
    {
      NumberedAtIsLeading(s, e);
    }
  }

  /** `^(\d+(?:\.\d+)*)\.?\s+`: the number of groups and the index just past the whitespace. */
  function NumberedPrefix(s: string): (r: Option<NumberPrefix>)
    ensures r.Some? ==> 0 < r.value.groups && 0 < r.value.end <= |s|
  {
    var n := LeadingNumber(s);
    if n.groups == 0 then None
    else if n.end + 1 < |s| && s[n.end] == '.' && IsSpace(s[n.end + 1]) then Some(NumberPrefix(n.groups, SkipSpaces(s, n.end + 1)))
    else if n.end < |s| && IsSpace(s[n.end]) then Some(NumberPrefix(n.groups, SkipSpaces(s, n.end)))
    else None
  }

  /**
   * The pattern matches exactly when a section number ends at some `e` and is followed by
   * `\.?\s`; the groups are the number's dots plus one and the whitespace run is skipped. A
   * shorter number is always followed by a digit, or by a dot and a digit, so only the
   * longest number can match.
   */
  lemma NumberedPrefixMatches(s: string)
    ensures NumberedPrefix(s).None? <==> forall e: nat :: !NumberedAt(s, e)
    ensures forall e: nat :: NumberedAt(s, e) ==>
      NumberedPrefix(s) == Some(NumberPrefix(DotCount(s[..e]) + 1, PastSpaces(s, e)))
  {
    if NumberedPrefix(s).Some? {
      MatchIsNumberedAt(s);
    }
    forall e: nat | NumberedAt(s, e)
      ensures NumberedPrefix(s) == Some(NumberPrefix(DotCount(s[..e]) + 1, PastSpaces(s, e)))
    {
      NumberedAtMatches(s, e);
    }
  }

  lemma MatchIsNumberedAt(s: string)
    requires NumberedPrefix(s).Some?
    ensures NumberedAt(s, LeadingNumber(s).end)
  {
    LeadingNumberReadsNumber(s);
  }

  lemma NumberedAtMatches(s: string, e: nat)
    requires NumberedAt(s, e)
    ensures NumberedPrefix(s) == Some(NumberPrefix(DotCount(s[..e]) + 1, PastSpaces(s, e)))
  {
    NumberedAtIsLeading(s, e);
    LeadingNumberReadsNumber(s);
  }

  /**
   * The nesting level the table of contents gives a title: the number of numeric groups
   * in its leading number minus one, or 0 when it has none.
   */
  function TocLevel(title: string): (level: nat)
  {
    match NumberedPrefix(title)
    case None => 0
    case Some(n) => n.groups - 1
  }

  /**
   * The level is one less than the number of parts `split('.')` cuts the matched section
   * number into, and 0 when the title does not start with a section number and `\s`.
   */
  lemma TocLevelCountsGroups(title: string)
    ensures (forall e: nat :: !NumberedAt(title, e)) ==> TocLevel(title) == 0
    ensures forall e: nat :: NumberedAt(title, e) ==> TocLevel(title) == |Split(title[..e], '.')| - 1
  {
    NumberedPrefixMatches(title);
    forall e: nat | NumberedAt(title, e)
      ensures TocLevel(title) == |Split(title[..e], '.')| - 1
    {
      SplitCount(title[..e], '.');
    }
  }

  lemma TocLevelOfMainTitle()
    ensures TocLevel("1. Intro") == 0
  {
    var s := "1. Intro";
    assert s[..1] == "1";
    assert NumberedAt(s, 1);
  }

  lemma TocLevelOfSubsectionTitle()
    ensures TocLevel("3.1 Hardware") == 1
  {
    var s := "3.1 Hardware";
    assert s[..3] == "3.1";
    assert NumberedAt(s, 3);
    assert multiset(s[..3]) == multiset{'3', '.', '1'};
  }

  lemma TocLevelWithoutSpaceIsZero()
    ensures TocLevel("1.2x") == 0
  {
    var s := "1.2x";
    assert s[..3] == "1.2";
    assert NumberEndsAt(s, 3);
    LeadingNumberIsLongest(s, 3);
  }

  /** `s.replace(/^\s*\d+(?:\.\d+)*\.?\s+/, '')`. */
  function StripLeadingNumber(s: string): (r: string)
    ensures |r| <= |s|
  {
    var q := SkipSpaces(s, 0);
    match NumberedPrefix(s[q..])
    case None => s
    case Some(n) => s[q + n.end..]
  }

  /** Text whose first non-whitespace part does not match the numbered prefix is kept. */
  lemma StripLeadingNumberKeeps(s: string)
    requires forall e: nat :: !NumberedAt(s[SkipSpaces(s, 0)..], e)
    ensures StripLeadingNumber(s) == s
  {
    NumberedPrefixMatches(s[SkipSpaces(s, 0)..]);
  }

  /**
   * After the leading whitespace `s[..q]`, a match of the numbered prefix is cut, through
   * the whitespace after it.
   */
  lemma StripLeadingNumberCuts(s: string, e: nat)
    requires NumberedAt(s[SkipSpaces(s, 0)..], e)
    ensures var q := SkipSpaces(s, 0);
      StripLeadingNumber(s) == s[q + PastSpaces(s[q..], e)..]
  {
    NumberedPrefixMatches(s[SkipSpaces(s, 0)..]);
  }



  /**
   * `^\d+(?:\.\d+)*\.\s+.+`, the outline-item test. A shorter number is followed by
   * a digit or by ".<digit>", so the dot and the whitespace can only follow the
   * longest number.
   */
  predicate IsListItem(t: string) {
    var n := LeadingNumber(t);
    0 < n.groups && n.end < |t| && t[n.end] == '.' && SpaceThenChar(t, n.end + 1)
  }

  /** `\s+.+` matched at `k`: some whitespace, then a character other than a line terminator. */
  predicate SpaceThenChar(t: string, k: nat)
    decreases |t| - k
  {
    k < |t| && IsSpace(t[k]) && ((k + 1 < |t| && !IsLineTerminator(t[k + 1])) || SpaceThenChar(t, k + 1))
  }

  /** `\s+.+` matches at `k`: a non-empty run of `\s`, then a character that is not a line terminator. */
  lemma {:induction false} SpaceThenCharMeansPattern(t: string, k: nat)
    ensures SpaceThenChar(t, k) <==>
      exists m :: k < m < |t| && AllSpaces(t[k..m]) && !IsLineTerminator(t[m])
    decreases |t| - k
  {
    if k < |t| {
      SpaceThenCharMeansPattern(t, k + 1);
      if SpaceThenChar(t, k) {
        if k + 1 < |t| && !IsLineTerminator(t[k + 1]) {
          assert AllSpaces(t[k..k + 1]);
        } else {
          var m :| k + 1 < m < |t| && AllSpaces(t[k + 1..m]) && !IsLineTerminator(t[m]);
          assert t[k..m] == [t[k]] + t[k + 1..m];
        }
      }
      if m :| k < m < |t| && AllSpaces(t[k..m]) && !IsLineTerminator(t[m]) {
        assert t[k..m][0] == t[k];
        if m > k + 1 {
          assert t[k + 1..m] == t[k..m][1..];
        }
      }
    }
  }

  /** `\s+.+` after a number and a dot, with the number ending at `e`. */
  predicate ListItemAt(t: string, e: nat, m: nat) {
    0 < e && e + 1 < m < |t| && IsNumber(t[..e]) && t[e] == '.'
    && AllSpaces(t[e + 1..m]) && !IsLineTerminator(t[m])
  }

  /**
   * `IsListItem` is exactly the set of strings `^\d+(?:\.\d+)*\.\s+.+` matches: a number,
   * a dot, a non-empty run of `\s` and then a character that is not a line terminator.
   */
  lemma ListItemMeansPattern(t: string)
    ensures IsListItem(t) <==> exists e, m :: ListItemAt(t, e, m)
  {
    if IsListItem(t) {
      ListItemHasPattern(t);
    }
    if e, m :| ListItemAt(t, e, m) {
      PatternIsListItem(t, e, m);
    }
  }

  lemma ListItemHasPattern(t: string)
    requires IsListItem(t)
    ensures exists e, m :: ListItemAt(t, e, m)
  {
    var n := LeadingNumber(t);
    LeadingNumberReadsNumber(t);
    SpaceThenCharMeansPattern(t, n.end + 1);
    var m :| n.end + 1 < m < |t| && AllSpaces(t[n.end + 1..m]) && !IsLineTerminator(t[m]);
    assert ListItemAt(t, n.end, m);
  }

  lemma PatternIsListItem(t: string, e: nat, m: nat)
    requires ListItemAt(t, e, m)
    ensures IsListItem(t)
  {
    assert IsSpace(t[e + 1]) by {
      assert t[e + 1..m][0] == t[e + 1];
    }
    assert NumberEndsAt(t, e);
    LeadingNumberIsLongest(t, e);
    SpaceThenCharMeansPattern(t, e + 1);
  }

  lemma ListItemExamples()
    ensures IsListItem("1. Intro")
    ensures IsListItem("1.2.3. Deep")
    ensures !IsListItem("2.1 Foo")
    ensures !IsListItem("1.")
    ensures !IsListItem("- 1. Foo")
  {
    TopLevelItem();
    DeepItem();
    NotItems();
  }

  lemma TopLevelItem()
    ensures IsListItem("1. Intro")
  {
    var t := "1. Intro";
    assert t[..1] == "1" && t[2..3] == " ";
    PatternIsListItem(t, 1, 3);
  }

  lemma DeepItem()
    ensures IsListItem("1.2.3. Deep")
  {
    var t := "1.2.3. Deep";
    assert t[..5] == "1.2.3" && t[6..7] == " ";
    assert IsNumber("1.2.3") by {
      var n := "1.2.3";
      assert n[0] == '1' && n[1] == '.' && n[2] == '2' && n[3] == '.' && n[4] == '3';
    }
    PatternIsListItem(t, 5, 7);
  }

  lemma NotItems()
    ensures !IsListItem("2.1 Foo")
    ensures !IsListItem("1.")
    ensures !IsListItem("- 1. Foo")
  {
    var a := "2.1 Foo";
    assert a[..3] == "2.1" && NumberEndsAt(a, 3);
    LeadingNumberIsLongest(a, 3);
    var b := "1.";
    assert b[..1] == "1" && NumberEndsAt(b, 1);
    LeadingNumberIsLongest(b, 1);
  }

  /** A match of `\[([^\]]+)\]\((file:\/\/[^)]+)\)`: the link text, the URL and the index just past ')'. */
  datatype FileLink = FileLink(text: string, url: string, end: nat)

  /**
   * The file link starting exactly at `i`, if any. `[^\]]+` cannot pass the first ']'
   * and `[^)]+` cannot pass the first ')', so both are forced.
   */
  function LinkAt(s: string, i: nat): (r: Option<FileLink>)
    ensures r.Some? ==> i < r.value.end <= |s| && StartsWith(r.value.url, "file://") && |r.value.url| > 7
    ensures r.Some? ==> |r.value.text| > 0 && s[i] == '['
  {
    if i >= |s| || s[i] != '[' then None
    else match IndexOfChar(s, ']', i + 1)
      case None => None
      case Some(j) =>
        if j == i + 1 || j + 1 >= |s| || s[j + 1] != '(' || !StartsWith(s[j + 2..], "file://") then None
        else match IndexOfChar(s, ')', j + 9)
          case None => None
          case Some(k) =>
            if k == j + 9 then None
            else
              assert s[j + 2..k][..7] == s[j + 2..][..7];
              Some(FileLink(s[i + 1..j], s[j + 2..k], k + 1))
  }

  /** `s.match(link)`: the leftmost file link at or after `from`. */
  function FirstLink(s: string, from: nat): (r: Option<FileLink>)
    ensures r.Some? ==> exists i :: from <= i < |s| && LinkAt(s, i) == r
    ensures r.None? ==> forall i :: from <= i < |s| ==> LinkAt(s, i).None?
    decreases |s| - from
  {
    if from >= |s| then None
    else if LinkAt(s, from).Some? then LinkAt(s, from)
    else FirstLink(s, from + 1)
  }

  /** No file link starts at any position from `from` up to, but not including, `to`. */
  predicate NoLinkIn(s: string, from: nat, to: nat)
    decreases to - from
  {
    from >= to || (LinkAt(s, from).None? && NoLinkIn(s, from + 1, to))
  }

  lemma {:induction false} NoLinkInAt(s: string, from: nat, to: nat, j: nat)
    requires NoLinkIn(s, from, to) && from <= j < to
    ensures LinkAt(s, j).None?
    decreases j - from
  {
    if from < j {
      NoLinkInAt(s, from + 1, to, j);
    }
  }

  /** The link found starts at the leftmost position from `from` on where a link starts. */
  lemma {:induction false} FirstLinkIsLeftmost(s: string, from: nat)
    ensures FirstLink(s, from).Some? ==>
      exists i :: from <= i < |s| && LinkAt(s, i) == FirstLink(s, from) && NoLinkIn(s, from, i)
    decreases |s| - from
  {
    if from < |s| {
      if LinkAt(s, from).Some? {
        assert FirstLink(s, from) == LinkAt(s, from);
        assert from <= from < |s| && LinkAt(s, from) == FirstLink(s, from) && NoLinkIn(s, from, from);
      } else {
        assert FirstLink(s, from) == FirstLink(s, from + 1);
        FirstLinkIsLeftmost(s, from + 1);
        if FirstLink(s, from + 1).Some? {
          var i :| from + 1 <= i < |s| && LinkAt(s, i) == FirstLink(s, from + 1) && NoLinkIn(s, from + 1, i);
          assert NoLinkIn(s, from, i);
          assert from <= i < |s| && LinkAt(s, i) == FirstLink(s, from) && NoLinkIn(s, from, i);
        }
      }
    }
  }

  /** `s.replace(link, '')` with the global flag, scanning from `from`. */
  function RemoveLinks(s: string, from: nat): (r: string)
    requires from <= |s|
    ensures |r| <= |s| - from
    ensures FirstLink(s, from).None? ==> r == s[from..]
    decreases |s| - from
  {
    if from == |s| then []
    else match LinkAt(s, from)
      case Some(l) => RemoveLinks(s, l.end)
      case None => [s[from]] + RemoveLinks(s, from + 1)
  }

  /**
   * What the global replace removes: the text before the leftmost link is kept, that
   * link is dropped, and the scan goes on right after it.
   */
  lemma {:induction false} RemoveLinksDropsLeftmost(s: string, from: nat, i: nat)
    requires from <= i < |s| && LinkAt(s, i).Some? && NoLinkIn(s, from, i)
    ensures RemoveLinks(s, from) == s[from..i] + RemoveLinks(s, LinkAt(s, i).value.end)
  {
    var rest := RemoveLinks(s, LinkAt(s, i).value.end);
    KeptBeforeLink(s, from, i, rest);
  }

  lemma {:induction false} KeptBeforeLink(s: string, from: nat, i: nat, rest: string)
    requires from <= i < |s| && NoLinkIn(s, from, i) && RemoveLinks(s, i) == rest
    ensures RemoveLinks(s, from) == s[from..i] + rest
    decreases i - from
  {
    if from < i {
      NoLinkInTail(s, from, i);
      RemoveLinksKeepsChar(s, from);
      KeptBeforeLink(s, from + 1, i, rest);
      ConsOntoSlice(s, from, i, rest, RemoveLinks(s, from), RemoveLinks(s, from + 1));
    } else {
      assert s[from..i] == [];
    }
  }

  lemma NoLinkInTail(s: string, from: nat, i: nat)
    requires from < i && NoLinkIn(s, from, i)
    ensures LinkAt(s, from).None? && NoLinkIn(s, from + 1, i)
  {
  }

  lemma ConsOntoSlice(s: string, from: nat, i: nat, rest: string, r0: string, r1: string)
    requires from < i <= |s| && r0 == [s[from]] + r1 && r1 == s[from + 1..i] + rest
    ensures r0 == s[from..i] + rest
  {
    SliceCons(s, from, i);
    AppendAssoc([s[from]], s[from + 1..i], rest);
  }

  lemma RemoveLinksKeepsChar(s: string, from: nat)
    requires from < |s| && LinkAt(s, from).None?
    ensures RemoveLinks(s, from) == [s[from]] + RemoveLinks(s, from + 1)
  {
  }

  /**
   * `\s*\[.*\]\(.*\)\s*$` matched at `p`. The leading `\s*` must stop at '[', the
   * final ')' must be the last character that is not `\s`, and the two `.*` may hold
   * anything but a line terminator.
   */
  predicate TrailingLinkAt(t: string, p: nat)
    requires p <= |t|
  {
    var q := SkipSpaces(t, p);
    var e := TrimmedEnd(t);
    q < e && t[q] == '[' && t[e - 1] == ')' && NoLineTerminator(t[q..e])
    && IndexOfFrom(t[..e - 1], "](", q + 1).Some?
  }

  function FirstTrailingLink(t: string, p: nat): (r: Option<nat>)
    requires p <= |t|
    ensures r.Some? ==> p <= r.value <= |t| && TrailingLinkAt(t, r.value)
    ensures r.Some? ==> forall k :: p <= k < r.value ==> !TrailingLinkAt(t, k)
    ensures r.None? ==> forall k :: p <= k <= |t| ==> !TrailingLinkAt(t, k)
    decreases |t| - p
  {
    if TrailingLinkAt(t, p) then Some(p)
    else if p == |t| then None
    else FirstTrailingLink(t, p + 1)
  }

  /** No match of the trailing-link pattern starts before `p`. */
  predicate NoTrailingLinkBefore(t: string, p: nat)
    requires p <= |t|
  {
    forall k :: 0 <= k < p ==> !TrailingLinkAt(t, k)
  }

  /** `t.replace(/\s*\[.*\]\(.*\)\s*$/, '')`. */
  function StripTrailingLink(t: string): (r: string)
    ensures |r| <= |t|
  {
    match FirstTrailingLink(t, 0)
    case None => t
    case Some(p) => t[..p]
  }

  /** Everything from the leftmost position where the pattern matches is dropped; without a match the text is kept. */
  lemma StripTrailingLinkCuts(t: string)
    ensures (forall k :: 0 <= k <= |t| ==> !TrailingLinkAt(t, k)) ==> StripTrailingLink(t) == t
    ensures forall p :: 0 <= p <= |t| && TrailingLinkAt(t, p) && NoTrailingLinkBefore(t, p) ==> StripTrailingLink(t) == t[..p]
  {
    match FirstTrailingLink(t, 0)
    case None =>
    case Some(q) =>
      forall p | 0 <= p <= |t| && TrailingLinkAt(t, p) && NoTrailingLinkBefore(t, p)
        ensures StripTrailingLink(t) == t[..p]
      {
        assert !(p < q) && !(q < p);
      }
  }

  /**
   * `#+\s*` matches `t[..k]` greedily: `t[..h]` is all '#', `t[h..k]` is all `\s`, and
   * neither run can go on.
   */
  predicate HashesThenSpaces(t: string, h: nat, k: nat) {
    0 < h <= k <= |t|
    && (forall x :: 0 <= x < h ==> t[x] == '#') && (h < |t| ==> t[h] != '#')
    && AllSpaces(t[h..k]) && (k < |t| ==> !IsSpace(t[k]))
  }

  // `t.replace(/^#+\s*/, '')`.
  function StripHashes(t: string): (r: string)
    ensures |r| <= |t|
  {
    var h := SkipHashes(t, 0);
    if h == 0 then t else t[SkipSpaces(t, h)..]
  }

  /** The leading '#'s and the whitespace after them are cut; text without a leading '#' is kept. */
  lemma StripHashesCuts(t: string)
    ensures !StartsWith(t, "#") ==> StripHashes(t) == t
    ensures StartsWith(t, "#") ==> exists h: nat, k: nat :: HashesThenSpaces(t, h, k) && StripHashes(t) == t[k..]
  {
    var h := SkipHashes(t, 0);
    if h > 0 {
      assert HashesThenSpaces(t, h, SkipSpaces(t, h));
    }
  }

  function SkipHashes(s: string, i: nat): (j: nat)
    requires i <= |s|
    ensures i <= j <= |s|
    ensures j == i <==> (i == |s| || s[i] != '#')
    ensures forall x :: i <= x < j ==> s[x] == '#'
    ensures j < |s| ==> s[j] != '#'
    decreases |s| - i
  {
    if i < |s| && s[i] == '#' then SkipHashes(s, i + 1) else i
  }
}

=== FILE: text.dfy ===
/**
 * String helpers with the meaning JavaScript gives them. Strings are sequences of
 * Unicode scalar values; JavaScript strings are sequences of UTF-16 code units, so
 * lengths differ only for characters outside the Basic Multilingual Plane.
 */
module Text {
  import opened Wrappers

  /** Membership in the regular-expression class `\s` (and the set `String.prototype.trim` removes). */
  predicate IsSpace(c: char) {
    c == ' ' || c == '\t' || c == '\n' || c == '\r' || c == '\U{B}' || c == '\U{C}'
    || c == '\U{A0}' || c == '\U{1680}' || ('\U{2000}' <= c <= '\U{200A}')
    || c == '\U{2028}' || c == '\U{2029}' || c == '\U{202F}' || c == '\U{205F}'
    || c == '\U{3000}' || c == '\U{FEFF}'
  }

  /** The characters the regular-expression `.` does not match. */
  predicate IsLineTerminator(c: char) {
    c == '\n' || c == '\r' || c == '\U{2028}' || c == '\U{2029}'
  }

  lemma LineTerminatorIsSpace(c: char)
    requires IsLineTerminator(c)
    ensures IsSpace(c)
  {
  }

  predicate IsDigit(c: char) {
    '0' <= c <= '9'
  }

  predicate AllDigits(s: string) {
    forall i :: 0 <= i < |s| ==> IsDigit(s[i])
  }

  predicate AllSpaces(s: string) {
    forall i :: 0 <= i < |s| ==> IsSpace(s[i])
  }

  predicate NoLineTerminator(s: string) {
    forall i :: 0 <= i < |s| ==> !IsLineTerminator(s[i])
  }

  predicate StartsWith(s: string, prefix: string) {
    |prefix| <= |s| && s[..|prefix|] == prefix
  }

  predicate EndsWith(s: string, suffix: string) {
    |suffix| <= |s| && s[|s| - |suffix|..] == suffix
  }

  predicate OccursAt(s: string, pat: string, i: nat) {
    i + |pat| <= |s| && s[i..i + |pat|] == pat
  }

  /** Index just past the run of characters satisfying `\s` that starts at `i`. */
  function SkipSpaces(s: string, i: nat): (j: nat)
    requires i <= |s|
    ensures i <= j <= |s|
    ensures AllSpaces(s[i..j])
    ensures j < |s| ==> !IsSpace(s[j])
    ensures i < |s| && IsSpace(s[i]) ==> i < j && IsSpace(s[j - 1])
    decreases |s| - i
  {
    if i < |s| && IsSpace(s[i]) then SkipSpaces(s, i + 1) else i
  }

  /** Index just past the run of decimal digits that starts at `i`. */
  function SkipDigits(s: string, i: nat): (j: nat)
    requires i <= |s|
    ensures i <= j <= |s|
    ensures AllDigits(s[i..j])
    ensures j < |s| ==> !IsDigit(s[j])
    ensures i < |s| && IsDigit(s[i]) ==> i < j && IsDigit(s[j - 1])
    decreases |s| - i
  {
    if i < |s| && IsDigit(s[i]) then SkipDigits(s, i + 1) else i
  }

  /** Length of `s` once trailing `\s` characters are dropped. */
  function TrimmedEnd(s: string): (n: nat)
    ensures n <= |s|
    ensures AllSpaces(s[n..])
    ensures n > 0 ==> !IsSpace(s[n - 1])
  {
    if |s| > 0 && IsSpace(s[|s| - 1]) then
      var n := TrimmedEnd(s[..|s| - 1]);
      assert s[n..] == s[..|s| - 1][n..] + [s[|s| - 1]];
      n
    else |s|
  }

  /** Text that neither starts nor ends with `\s` is its own trim. */
  lemma TrimKeepsTrimmed(s: string)
    requires s != [] ==> !IsSpace(s[0]) && !IsSpace(s[|s| - 1])
    ensures Trim(s) == s
  {
    if s != [] {
      assert SkipSpaces(s, 0) == 0;
      assert s[0..] == s;
    }
  }

  /** `String.prototype.trim`. */
  function Trim(s: string): (t: string)
    ensures |t| <= |s|
    ensures t != [] ==> !IsSpace(t[0]) && !IsSpace(t[|t| - 1])
    ensures exists i, j :: 0 <= i <= j <= |s| && t == s[i..j] && AllSpaces(s[..i]) && AllSpaces(s[j..])
  {
    var i := SkipSpaces(s, 0);
    var rest := s[i..];
    var t := rest[..TrimmedEnd(rest)];
    assert t == s[i..i + TrimmedEnd(rest)];
    assert s[i + TrimmedEnd(rest)..] == rest[TrimmedEnd(rest)..];
    t
  }

  /** First index at or after `from` where `pat` occurs in `s`. */
  function IndexOfFrom(s: string, pat: string, from: nat): (r: Option<nat>)
    ensures r.Some? ==> from <= r.value && OccursAt(s, pat, r.value)
    ensures r.Some? ==> forall k :: from <= k < r.value ==> !OccursAt(s, pat, k)
    ensures r.None? ==> forall k :: from <= k ==> !OccursAt(s, pat, k)
    decreases |s| - from
  {
    if from + |pat| > |s| then None
    else if s[from..from + |pat|] == pat then Some(from)
    else IndexOfFrom(s, pat, from + 1)
  }

  function IndexOf(s: string, pat: string): Option<nat> {
    IndexOfFrom(s, pat, 0)
  }

  predicate Contains(s: string, pat: string) {
    IndexOf(s, pat).Some?
  }

  /**
   * `GetSubstitution` of ECMA-262 for a string pattern (no capture groups): in the
   * replacement, `$$` stands for '$', `$&` for the matched text, `` $` `` for the text
   * before the match and `$'` for the text after it; any other '$' is kept as it is.
   */
  function Substitution(rep: string, matched: string, before: string, after: string): string
    decreases |rep|
  {
    if rep == [] then []
    else if rep[0] == '$' && |rep| >= 2 && rep[1] in "$&`'" then
      (if rep[1] == '$' then "$" else if rep[1] == '&' then matched else if rep[1] == '`' then before else after)
      + Substitution(rep[2..], matched, before, after)
    else [rep[0]] + Substitution(rep[1..], matched, before, after)
  }

  /** A replacement without '$' is inserted as it is. */
  lemma {:induction false} SubstitutionWithoutDollar(rep: string, matched: string, before: string, after: string)
    requires '$' !in rep
    ensures Substitution(rep, matched, before, after) == rep
    decreases |rep|
  {
    if rep != [] {
      assert rep[0] != '$';
      assert '$' !in rep[1..] by {
        forall k | 0 <= k < |rep[1..]| ensures rep[1..][k] != '$' {
          assert rep[1..][k] == rep[k + 1];
        }
      }
      SubstitutionWithoutDollar(rep[1..], matched, before, after);
      assert rep == [rep[0]] + rep[1..];
    }
  }

  /** "$$" in a replacement becomes a single '$', and "$'" brings in the text after the match. */
  lemma DollarPatterns()
    ensures Substitution("a$$b", "%input", "x ", " y") == "a$b"
    ensures Substitution("a$'", "%input", "x ", " y") == "a y"
  {
    assert "a$$b"[1..] == "$$b" && "$$b"[2..] == "b";
    assert "a$'"[1..] == "$'" && "$'"[2..] == "";
  }

  /**
   * `s.replace(pat, rep)` with a string pattern: only the first occurrence is replaced,
   * by `rep` with its `$`-patterns substituted.
   */
  function ReplaceFirst(s: string, pat: string, rep: string): string {
    match IndexOf(s, pat)
    case None => s
    case Some(i) => s[..i] + Substitution(rep, pat, s[..i], s[i + |pat|..]) + s[i + |pat|..]
  }

  /**
   * Without a match the string is unchanged; otherwise exactly the first match is replaced,
   * by the replacement's text itself when it holds no `$`.
   */
  lemma ReplaceFirstSplices(s: string, pat: string, rep: string)
    ensures IndexOf(s, pat).None? ==> ReplaceFirst(s, pat, rep) == s
    ensures IndexOf(s, pat).Some? ==>
      var i := IndexOf(s, pat).value;
      ReplaceFirst(s, pat, rep) == s[..i] + Substitution(rep, pat, s[..i], s[i + |pat|..]) + s[i + |pat|..]
    ensures '$' !in rep && IndexOf(s, pat).Some? ==>
      var i := IndexOf(s, pat).value;
      ReplaceFirst(s, pat, rep) == s[..i] + rep + s[i + |pat|..]
  {
    if '$' !in rep && IndexOf(s, pat).Some? {
      var i := IndexOf(s, pat).value;
      SubstitutionWithoutDollar(rep, pat, s[..i], s[i + |pat|..]);
    }
  }

  /** `parts.join(sep)`. */
  function Join(parts: seq<string>, sep: string): string {
    if |parts| == 0 then ""
    else if |parts| == 1 then parts[0]
    else parts[0] + sep + Join(parts[1..], sep)
  }

  /** First index at or after `from` holding `c`. */
  function IndexOfChar(s: string, c: char, from: nat): (r: Option<nat>)
    ensures r.Some? ==> from <= r.value < |s| && s[r.value] == c
    ensures r.Some? ==> forall k :: from <= k < r.value ==> s[k] != c
    ensures r.None? ==> forall k :: from <= k < |s| ==> s[k] != c
    decreases |s| - from
  {
    if from >= |s| then None
    else if s[from] == c then Some(from)
    else IndexOfChar(s, c, from + 1)
  }

  /** `s.split(sep)` for a one-character separator. */
  function Split(s: string, sep: char): (parts: seq<string>)
    ensures |parts| >= 1
    ensures forall k :: 0 <= k < |parts| ==> sep !in parts[k]
    decreases |s|
  {
    match IndexOfChar(s, sep, 0)
    case None =>
      assert forall k :: 0 <= k < |s| ==> s[k] != sep;
      [s]
    case Some(i) =>
      assert forall k :: 0 <= k < i ==> s[..i][k] != sep;
      [s[..i]] + Split(s[i + 1..], sep)
  }

  lemma JoinCons(head: string, rest: seq<string>, sep: string)
    requires |rest| >= 1
    ensures Join([head] + rest, sep) == head + sep + Join(rest, sep)
  {
    assert ([head] + rest)[1..] == rest;
  }

  /** Splitting on a character and joining with it again gives back the text. */
  lemma {:induction false} SplitJoin(s: string, sep: char)
    ensures Join(Split(s, sep), [sep]) == s
    decreases |s|
  {
    match IndexOfChar(s, sep, 0)
    case None =>
    case Some(i) =>
      SplitJoin(s[i + 1..], sep);
      JoinCons(s[..i], Split(s[i + 1..], sep), [sep]);
      assert s == s[..i] + [sep] + s[i + 1..];
  }

  /** `split` cuts the text into one part more than it has separators. */
  lemma {:induction false} SplitCount(s: string, sep: char)
    ensures |Split(s, sep)| == multiset(s)[sep] + 1
    decreases |s|
  {
    match IndexOfChar(s, sep, 0)
    case None =>
      assert sep !in s;
    case Some(i) =>
      var before, after := s[..i], s[i + 1..];
      SplitCount(after, sep);
      assert Split(s, sep) == [before] + Split(after, sep);
      assert sep !in before;
      assert s == before + [sep] + after;
      assert multiset(s)[sep] == multiset(before)[sep] + 1 + multiset(after)[sep];
  }

  function DigitChar(d: nat): (c: char)
    requires d < 10
    ensures IsDigit(c)
  {
    ['0', '1', '2', '3', '4', '5', '6', '7', '8', '9'][d]
  }

  /** Decimal rendering of a natural number, as `String(n)` gives it. */
  function NatToString(n: nat): (s: string)
    ensures |s| > 0 && AllDigits(s)
  {
    if n < 10 then [DigitChar(n)] else NatToString(n / 10) + [DigitChar(n % 10)]
  }

  /** `s.replace(/<c>/g, rep)` for a single character `c`. */
  function ReplaceAllChar(s: string, c: char, rep: string): string {
    if s == [] then []
    else (if s[0] == c then rep else [s[0]]) + ReplaceAllChar(s[1..], c, rep)
  }

  /** ASCII lower-casing (`toLowerCase` restricted to A-Z). */
  function ToLowerAscii(s: string): (r: string)
    ensures |r| == |s|
  {
    if s == [] then []
    else [if 'A' <= s[0] <= 'Z' then (s[0] as int + 32) as char else s[0]] + ToLowerAscii(s[1..])
  }

  lemma SliceCons<T>(s: seq<T>, a: nat, b: nat)
    requires a < b <= |s|
    ensures s[a..b] == [s[a]] + s[a + 1..b]
  {
  }

  lemma AppendAssoc<T>(a: seq<T>, b: seq<T>, c: seq<T>)
    ensures a + b + c == a + (b + c)
  {
  }
}

=== FILE: uri_coding.dfy ===
/**
 * `decodeURIComponent` as ECMAScript defines it (the Decode operation of ECMA-262 with an
 * empty reserved set): every `%XY` escape is read as a byte; a byte below 0x80 is a
 * character of its own, a longer UTF-8 sequence must be spelt out by further escapes of
 * continuation bytes and must decode to a Unicode scalar value in its shortest form.
 * Anything else is a `URIError`. `EncodeUriComponent` is the inverse direction, used to
 * state the round trip.
 */
module UriCoding {
  import opened Wrappers
  import opened Text

  /** The `URIError` thrown for a malformed escape sequence. */
  datatype UriError = MalformedUri

  function HexDigitValue(c: char): (d: Option<nat>)
    ensures d.Some? ==> d.value < 16
  {
    if '0' <= c <= '9' then Some(c as int - '0' as int)
    else if 'a' <= c <= 'f' then Some(c as int - 'a' as int + 10)
    else if 'A' <= c <= 'F' then Some(c as int - 'A' as int + 10)
    else None
  }

  /** The byte written by the escape `%XY` at the start of `s`, if `s` starts with one. */
  function EscapedByte(s: string): (b: Option<nat>)
    ensures b.Some? ==> |s| >= 3 && s[0] == '%' && b.value < 256
  {
    if |s| >= 3 && s[0] == '%' && HexDigitValue(s[1]).Some? && HexDigitValue(s[2]).Some?
    then Some(16 * HexDigitValue(s[1]).value + HexDigitValue(s[2]).value)
    else None
  }

  /** Number of leading one bits of a byte (5 stands for "five or more"). */
  function LeadingOnes(b: nat): nat
    requires b < 256
  {
    if b < 0x80 then 0 else if b < 0xC0 then 1 else if b < 0xE0 then 2
    else if b < 0xF0 then 3 else if b < 0xF8 then 4 else 5
  }

  predicate IsContinuation(b: nat) {
    0x80 <= b < 0xC0
  }

  /** `count` escapes of continuation bytes at the start of `s`. */
  function Continuations(s: string, count: nat): (r: Option<seq<nat>>)
    ensures r.Some? ==> |r.value| == count && 3 * count <= |s|
    ensures r.Some? ==> forall k :: 0 <= k < count ==> IsContinuation(r.value[k])
  {
    if count == 0 then Some([])
    else match EscapedByte(s)
      case None => None
      case Some(b) =>
        if !IsContinuation(b) then None
        else match Continuations(s[3..], count - 1)
          case None => None
          case Some(rest) => Some([b] + rest)
  }

  /** The bits a continuation sequence adds to the bits `v` of the leading byte. */
  function Accumulate(v: int, conts: seq<nat>): int
    decreases |conts|
  {
    if conts == [] then v else Accumulate(v * 64 + (conts[0] as int - 0x80), conts[1..])
  }

  /** The marker bits of a leading byte that starts an `n`-byte sequence. */
  function LeadMark(n: nat): nat {
    if n == 2 then 0xC0 else if n == 3 then 0xE0 else 0xF0
  }

  /** The smallest code point an `n`-byte sequence may carry (longer forms are overlong). */
  function MinCodePoint(n: nat): nat {
    if n == 2 then 0x80 else if n == 3 then 0x800 else 0x10000
  }

  predicate IsScalar(v: int) {
    0 <= v < 0xD800 || 0xE000 <= v < 0x110000
  }

  /**
   * The character spelt by the escapes at the start of `s` (which starts with `%`) and
   * the number of characters they take.
   */
  function DecodeEscape(s: string): (r: Option<(char, nat)>)
    ensures r.Some? ==> 3 <= r.value.1 <= |s|
  {
    match EscapedByte(s)
    case None => None
    case Some(b) =>
      if b < 0x80 then Some((b as char, 3))
      else
        var n := LeadingOnes(b);
        if n == 1 || n > 4 then None
        else match Continuations(s[3..], n - 1)
          case None => None
          case Some(conts) =>
            var v := Accumulate(b - LeadMark(n), conts);
            if MinCodePoint(n) <= v && IsScalar(v) then Some((v as char, 3 * n)) else None
  }

  /** `decodeURIComponent(s)`. */
  function DecodeUriComponent(s: string): (r: Result<string, UriError>)
    decreases |s|
  {
    if s == [] then Success([])
    else if s[0] != '%' then
      match DecodeUriComponent(s[1..])
      case Success(t) => Success([s[0]] + t)
      case Failure(e) => Failure(e)
    else
      match DecodeEscape(s)
      case None => Failure(MalformedUri)
      case Some((c, n)) =>
        match DecodeUriComponent(s[n..])
        case Success(t) => Success([c] + t)
        case Failure(e) => Failure(e)
  }

  /** Text without a `%` decodes to itself. */
  lemma {:induction false} DecodeWithoutPercent(s: string)
    requires '%' !in s
    ensures DecodeUriComponent(s) == Success(s)
    decreases |s|
  {
    if s != [] {
      assert s[0] in s;
      assert '%' !in s[1..] by {
        forall k | 0 <= k < |s[1..]| ensures s[1..][k] != '%' {
          assert s[1..][k] == s[k + 1];
        }
      }
      DecodeWithoutPercent(s[1..]);
      assert [s[0]] + s[1..] == s;
    }
  }

  /** The characters `encodeURIComponent` leaves alone. */
  predicate IsUnreserved(c: char) {
    ('a' <= c <= 'z') || ('A' <= c <= 'Z') || ('0' <= c <= '9')
    || c == '-' || c == '_' || c == '.' || c == '!' || c == '~' || c == '*' || c == '\'' || c == '(' || c == ')'
  }

  function HexUpper(d: nat): (c: char)
    requires d < 16
    ensures HexDigitValue(c) == Some(d)
  {
    "0123456789ABCDEF"[d]
  }

  /** The escape `%XY` of one byte. */
  function Escape(b: nat): (e: string)
    requires b < 256
    ensures |e| == 3
  {
    ['%', HexUpper(b / 16), HexUpper(b % 16)]
  }

  /** The UTF-8 encoding of a code point. */
  function Utf8(v: nat): (bytes: seq<nat>)
    requires v < 0x110000
    ensures 1 <= |bytes| <= 4
    ensures forall k :: 0 <= k < |bytes| ==> bytes[k] < 256
  {
    if v < 0x80 then [v]
    else if v < 0x800 then [0xC0 + v / 64, 0x80 + v % 64]
    else if v < 0x10000 then [0xE0 + v / 64 / 64, 0x80 + v / 64 % 64, 0x80 + v % 64]
    else [0xF0 + v / 64 / 64 / 64, 0x80 + v / 64 / 64 % 64, 0x80 + v / 64 % 64, 0x80 + v % 64]
  }

  function EscapeAll(bytes: seq<nat>): (e: string)
    requires forall k :: 0 <= k < |bytes| ==> bytes[k] < 256
    ensures |e| == 3 * |bytes|
  {
    if bytes == [] then [] else Escape(bytes[0]) + EscapeAll(bytes[1..])
  }

  function EncodeChar(c: char): string {
    if IsUnreserved(c) then [c] else EscapeAll(Utf8(CodePoint(c)))
  }

  function CodePoint(c: char): (v: nat)
    ensures IsScalar(v) && v as char == c
  {
    c as nat
  }

  /** `encodeURIComponent(s)`. */
  function EncodeUriComponent(s: string): string {
    if s == [] then [] else EncodeChar(s[0]) + EncodeUriComponent(s[1..])
  }

  lemma EscapedByteOfEscape(b: nat, rest: string)
    requires b < 256
    ensures EscapedByte(Escape(b) + rest) == Some(b)
  {
    var s := Escape(b) + rest;
    assert s[0] == '%' && s[1] == HexUpper(b / 16) && s[2] == HexUpper(b % 16);
  }

  /** The continuation escapes of an encoding read back as the bytes they spell. */
  lemma {:induction false} ContinuationsOfEscapes(bytes: seq<nat>, rest: string)
    requires forall k :: 0 <= k < |bytes| ==> 0x80 <= bytes[k] < 0xC0
    ensures Continuations(EscapeAll(bytes) + rest, |bytes|) == Some(bytes)
    decreases |bytes|
  {
    if bytes != [] {
      EscapeAllCons(bytes, rest);
      ContinuationsOfEscapes(bytes[1..], rest);
      ContinuationsCons(bytes[0], EscapeAll(bytes[1..]) + rest, bytes[1..]);
      assert [bytes[0]] + bytes[1..] == bytes;
    }
  }

  lemma ContinuationsCons(b: nat, t: string, more: seq<nat>)
    requires 0x80 <= b < 0xC0
    requires Continuations(t, |more|) == Some(more)
    ensures Continuations(Escape(b) + t, |more| + 1) == Some([b] + more)
  {
    EscapedByteOfEscape(b, t);
    assert (Escape(b) + t)[3..] == t;
  }

  lemma EscapeAllCons(bytes: seq<nat>, rest: string)
    requires |bytes| >= 1
    requires forall k :: 0 <= k < |bytes| ==> bytes[k] < 256
    ensures EscapeAll(bytes) + rest == Escape(bytes[0]) + (EscapeAll(bytes[1..]) + rest)
  {
    assert EscapeAll(bytes) == Escape(bytes[0]) + EscapeAll(bytes[1..]);
    AppendAssoc(Escape(bytes[0]), EscapeAll(bytes[1..]), rest);
  }

  lemma SplitSix(x: nat)
    ensures x == 64 * (x / 64) + x % 64 && x % 64 < 64
  {
  }

  /** What the decoder needs to know about the UTF-8 encoding of a code point of two or more bytes. */
  lemma Utf8Facts(v: nat)
    requires 0x80 <= v < 0x110000
    ensures var bytes := Utf8(v);
      |bytes| >= 2 && LeadingOnes(bytes[0]) == |bytes|
      && (forall k :: 1 <= k < |bytes| ==> IsContinuation(bytes[k]))
      && Accumulate(bytes[0] - LeadMark(|bytes|), bytes[1..]) == v
      && MinCodePoint(|bytes|) <= v
  {
    SplitSix(v);
    SplitSix(v / 64);
    SplitSix(v / 64 / 64);
    var bytes := Utf8(v);
    if v < 0x800 {
      assert bytes[1..] == [0x80 + v % 64];
    } else if v < 0x10000 {
      var a := v / 64 / 64;
      assert bytes[1..] == [0x80 + v / 64 % 64, 0x80 + v % 64];
      calc {
        Accumulate(a, [0x80 + v / 64 % 64, 0x80 + v % 64]);
        Accumulate(v / 64, [0x80 + v % 64]);
        v;
      }
    } else {
      var a := v / 64 / 64 / 64;
      assert bytes[1..] == [0x80 + v / 64 / 64 % 64, 0x80 + v / 64 % 64, 0x80 + v % 64];
      calc {
        Accumulate(a, [0x80 + v / 64 / 64 % 64, 0x80 + v / 64 % 64, 0x80 + v % 64]);
        Accumulate(v / 64 / 64, [0x80 + v / 64 % 64, 0x80 + v % 64]);
        Accumulate(v / 64, [0x80 + v % 64]);
        v;
      }
    }
  }

  /** The escapes `encodeURIComponent` writes for a character decode back to it. */
  lemma DecodeEscapeOfChar(c: char, rest: string)
    requires !IsUnreserved(c)
    ensures DecodeEscape(EncodeChar(c) + rest) == Some((c, |EncodeChar(c)|))
  {
    var v := CodePoint(c);
    var bytes := Utf8(v);
    var s := EncodeChar(c) + rest;
    assert EncodeChar(c) == EscapeAll(bytes);
    EscapeAllCons(bytes, rest);
    EscapedByteOfEscape(bytes[0], EscapeAll(bytes[1..]) + rest);
    assert EscapedByte(s) == Some(bytes[0]);
    if v >= 0x80 {
      assert s[3..] == EscapeAll(bytes[1..]) + rest;
      DecodeMultibyte(s, v, rest);
    }
  }

  /** The escapes of a code point of two or more bytes, followed by anything, decode to that code point. */
  lemma DecodeMultibyte(s: string, v: nat, rest: string)
    requires 0x80 <= v < 0x110000 && IsScalar(v)
    requires EscapedByte(s) == Some(Utf8(v)[0]) && |s| >= 3 && s[3..] == EscapeAll(Utf8(v)[1..]) + rest
    ensures DecodeEscape(s) == Some((v as char, 3 * |Utf8(v)|))
  {
    var bytes := Utf8(v);
    var n := |bytes|;
    Utf8Facts(v);
    assert bytes[0] >= 0x80;
    ContinuationsOfEscapes(bytes[1..], rest);
    assert Continuations(s[3..], n - 1) == Some(bytes[1..]);
  }

  /** `decodeURIComponent(encodeURIComponent(s)) == s`, for every string. */
  lemma {:induction false} DecodeEncode(s: string)
    ensures DecodeUriComponent(EncodeUriComponent(s)) == Success(s)
    decreases |s|
  {
    if s != [] {
      var c := s[0];
      var tail := EncodeUriComponent(s[1..]);
      assert EncodeUriComponent(s) == EncodeChar(c) + tail;
      DecodeEncode(s[1..]);
      DecodeCharThen(c, tail, s[1..]);
      assert [c] + s[1..] == s;
    }
  }

  /** The encoding of one character, followed by text that decodes to `t`, decodes to that character and `t`. */
  lemma DecodeCharThen(c: char, tail: string, t: string)
    requires DecodeUriComponent(tail) == Success(t)
    ensures DecodeUriComponent(EncodeChar(c) + tail) == Success([c] + t)
  {
    var e := EncodeChar(c) + tail;
    if IsUnreserved(c) {
      assert e[0] == c && e[1..] == tail;
    } else {
      DecodeEscapeOfChar(c, tail);
      assert e[0] == '%';
      assert e[|EncodeChar(c)|..] == tail;
    }
  }

  /** A lone `%` and a sequence cut short both throw. */
  lemma TruncatedEscapes()
    ensures DecodeUriComponent("%").Failure?
    ensures DecodeUriComponent("%E2%82").Failure?
  {
    var s := "%E2%82";
    assert EscapedByte(s) == Some(0xE2);
    assert s[3..] == "%82";
    assert Continuations(s[3..], 2).None? by {
      assert EscapedByte("%82") == Some(0x82);
      assert "%82"[3..] == "";
    }
  }

  /** An overlong form of `/` throws, and so does an encoded surrogate. */
  lemma OverlongAndSurrogateRejected()
    ensures DecodeUriComponent("%C0%AF").Failure?
    ensures DecodeUriComponent("%ED%A0%80").Failure?
  {
    var s := "%C0%AF";
    assert EscapedByte(s) == Some(0xC0);
    assert s[3..] == "%AF";
    assert EscapedByte("%AF") == Some(0xAF);
    assert "%AF"[3..] == "";
    assert Continuations("%AF"[3..], 0) == Some([]);
    assert Continuations("%AF", 1) == Some([0xAF] + []);
    assert [0xAF] + [] == [0xAF];
    assert [0xAF][1..] == [];
    assert Accumulate(0, [0xAF]) == Accumulate(0x2F, []) == 0x2F;
    var t := "%ED%A0%80";
    assert EscapedByte(t) == Some(0xED);
    assert t[3..] == "%A0%80";
    assert EscapedByte("%A0%80") == Some(0xA0);
    assert "%A0%80"[3..] == "%80";
    assert EscapedByte("%80") == Some(0x80);
    assert "%80"[3..] == "";
    assert Continuations("%80"[3..], 0) == Some([]);
    assert Continuations("%80", 1) == Some([0x80] + []);
    assert [0x80] + [] == [0x80];
    assert Continuations("%A0%80", 2) == Some([0xA0] + [0x80]);
    assert [0xA0] + [0x80] == [0xA0, 0x80];
    assert [0xA0, 0x80][1..] == [0x80] && [0x80][1..] == [];
    assert Accumulate(0x0D, [0xA0, 0x80]) == Accumulate(0x360, [0x80]) == Accumulate(0xD800, []);
  }
}

=== FILE: wrappers.dfy ===
/** Failure-carrying return values: the model's stand-in for `null` results and thrown errors. */
module Wrappers {

  datatype Option<+T> = None | Some(value: T)

  datatype Result<+R, +E> = Success(value: R) | Failure(error: E)
}
